=== FILE: README.md ===
# memo_generator: a Dafny model of the context compaction and input logic

memo_generator builds an investment memo from uploaded documents, web pages and
LinkedIn profiles. This project models in Dafny the part of it that is plain logic:

- **Context compaction of the Express backend** (`ContextManager` in
  `backend/index.js`):
  - the token estimate;
  - the split of the assembled context into sections on blank-line runs and
    header look-aheads;
  - the first-match section classifier and its priority table;
  - the stable priority/length sort;
  - the greedy packer that keeps each section whole, as a `[SUMMARIZED]`
    digest or not at all;
  - the type-specific summaries and the key-phrase extractor;
  - the per-session memory capped at five entries.
- **Compaction of the serverless API** (`api/contextManager.js`):
  - chunking by 8000 words;
  - keeping the first three and last three chunks;
  - the uncapped in-memory session store with its case-insensitive search;
  - the previous-context enhancer.
- **Server helpers** (`api/index.js`, `backend/index.js`):
  - LinkedIn URL normalisation;
  - the first-successful-approach loop;
  - status-to-message and error-to-status mappings;
  - the `linkedInUrls` field normalisation;
  - the building of the extracted text;
  - the moderation and content gates;
  - whitespace clean-up of scraped pages;
  - the JSON slice taken from the market-analysis subprocess output.
- **Front end**:
  - the upload list of `FileUpload.jsx`: OCR detection, size limits and the
    regular/OCR partition;
  - the editable URL list of `MultiUrlInput.jsx`;
  - `cleanHtml` and the submit guards and form building of `App.jsx`.

The code's own form carries over into the model:

- **State that the source mutates is a Dafny `class`:**
  - the two memory stores;
  - the upload list;
  - the URL list.
- **Loops of the source are `method`s with invariants:**
  - the packing loop;
  - the section and chunk loops;
  - the word-count `forEach`;
  - the approach loop;
  - the extracted-text `+=` loop;
  - the stdout accumulation;
  - the `FormData` appends.
- **Each method is proved against a specification function.** Properties are
  then proved about that function.
- **Expressions of the source (filters, maps, replaces) are functions.**

Modules:

| file | module | what it models |
|---|---|---|
| seq_facts.dfy | SeqFacts | generic sequence, multiset and map identities used by the proofs |
| strings.dfy | Strings | JavaScript `\s`, ASCII `toLowerCase`, `trim`/`trimStart`/`trimEnd`, `split`/`join` on one character, the sentence split on `[.!?]+`, the `\s+` collapse |
| seqs.dfy | Seqs | `filter`, `slice(0, n)` and facts about them |
| sections.dfy | Sections | `parseContentSections`, `identifySectionType`, `getSectionPriority`, `prioritizeSections` |
| key_phrases.dfy | Phrases | `extractKeyPhrases`, with `Object.keys` order (array-index names first, ascending; then insertion order) |
| summaries.dfy | Summaries | `createSectionSummary` and the `summarize*` helpers |
| backend_context.dfy | BackendContext | `estimateTokens`, `intelligentContentReduction`, `manageTokenLimit`, `storeInMemory`, `retrieveFromMemory` of the backend |
| api_context.dfy | ApiContext | the serverless `ContextManager` with the remote memory service unconfigured |
| linkedin.dfy | LinkedIn | `getLinkedInProfile` of both servers |
| upload_route.dfy | UploadRoute | the upload routes' decision logic, `extractContentFromUrl`, `runMarketAnalysis` |
| file_upload.dfy | FileUpload | `FileUpload.jsx` |
| url_inputs.dfy | UrlInputs | `MultiUrlInput.jsx` |
| submit_form.dfy | SubmitForm | `cleanHtml` and `handleSubmit` of `App.jsx` |

Five behaviours of the code are easy to misread, and the model states each as the
code has it:

- **Packer budget.** The packer bounds only its own counter of section and summary
  tokens. The `\n\n` separators and the `[SUMMARIZED] ` prefix are not counted, so
  the packed text's own token estimate can exceed `maxTokens`.
  - `BackendContext.PlanBudget` proves the bound on the counter (`maxTokens - 500`).
  - `BackendContext.RenderLength` bounds the output length by four characters per
    counted token plus 15 per section.
- **Below budget.** Below the budget, `manageTokenLimit` returns the input text
  unchanged (`backend/index.js:61-65`); it does not split and rejoin it.
- **Priority precedence.** The greedy loop can drop a higher-priority section and
  keep a lower-priority one: a large high-priority section whose summary also does
  not fit is dropped, and a later small section is kept. The model states what the
  loop does (`BackendContext.PlanAdmission`).
- **Failed LinkedIn fetch.** When every approach fails, the backend returns a fixed
  message with the URL (`backend/index.js:597-601`), not the last error, and the
  model does the same.
- **Short sections.** The parser drops parts whose trimmed length is at most 50, so
  a part of exactly 50 characters is dropped too.

## Model

| member | source | states |
|---|---|---|
| BackendContext.EstimateTokens | backend/index.js:53-56 | the estimate `t` is `ceil(len/4)`: `len <= 4t < len + 4`, and it is 0 exactly for the empty text |
| BackendContext.Decide | backend/index.js:93-108 | a section is kept whole iff counter + its estimate `<= limit - 1000`; it is summarised iff the whole did not fit and counter + the summary's estimate `<= limit - 500`, and the summary is `createSectionSummary`'s; otherwise it is dropped |
| BackendContext.PlanAdmission | backend/index.js:93-109 | the i-th decision of the packing pass is the one the counter after the first i sections calls for, so each section contributes exactly one of whole, summary or nothing |
| BackendContext.PlanBudget | backend/index.js:96-107 | starting from a counter within `limit - 500`, the counter after the pass never exceeds `limit - 500` |
| BackendContext.RenderLength | backend/index.js:97-105 | the packed text is at most four characters per counted token plus 15 characters of separators and prefix per section |
| BackendContext.ReducedContentBudget | backend/index.js:82-112 | for any content, the tokens counted by `intelligentContentReduction` are at most `maxTokens - 500`, and its output length is bounded accordingly |
| BackendContext.PackSections | backend/index.js:90-111 | the loop's accumulated text equals the pieces of the ranked sections in sorted order, each as the plan decides |
| BackendContext.IntelligentContentReduction | backend/index.js:82-112 | parse, rank and pack yield the specified reduced content |
| BackendContext.LastNAppend | backend/index.js:248-252 | capping to the last n after every push keeps exactly the last n of all writes |
| BackendContext.LastN | backend/index.js:248-252 | the last `min(n, len)` elements: a suffix of at most n elements, the whole list when it already fits |
| BackendContext.LastNConcat | backend/index.js:248-252 | capping before appending more and capping again keeps the same last n as capping once at the end |
| BackendContext.StoreAllKeepsLast | backend/index.js:236-252 | a session list of at most n entries written `xs` one by one holds the last n of old entries followed by `xs`, oldest first (the FIFO cap) |
| BackendContext.BackendContextManager.constructor | backend/index.js:47-51 | the memory map starts empty, every list within the cap |
| BackendContext.BackendContextManager.StoreInMemory | backend/index.js:236-255 | the session's list becomes the last five of its old list plus the new entry (created on first use); no other session changes; every list stays within five |
| BackendContext.BackendContextManager.RetrieveFromMemory | backend/index.js:257-269 | `[]` for an unknown session; the whole list without a type; with a type exactly the entries whose metadata type equals it, in stored order (the list filtered on the type) |
| BackendContext.BackendContextManager.ManageTokenLimit | backend/index.js:58-80 | the content unchanged when the estimate is within 120000, else the reduced content; on both paths exactly one entry is appended to the session, keeping its last five: type `full_content`, or `full_content_stored` with the first clock reading, and the entry stamped with the second reading and the id |
| Sections.SectionPriority | backend/index.js:147-158 | every priority lies between 5 and 10 |
| Sections.PriorityTable | backend/index.js:147-158 | deal terms 10, founder 9, document 8, contact 7, web 6, general 5; any name that is not a section type name 5 |
| Sections.FirstMatch | backend/index.js:135-145 | the first rule whose keyword occurs wins: the result is general or assigned by a firing rule, and no earlier-firing rule assigns something else |
| Sections.IdentifyIsFirstMatch | backend/index.js:135-145 | `identifySectionType` is the first-match rule list (`email:`, deal terms/funding round, founder information/linkedin, extracted text/document, url/website) on the lower-cased text |
| Sections.IdentifyIgnoresCase | backend/index.js:135-137 | texts equal after lower-casing get the same type |
| Sections.NewlineRunEnd | backend/index.js:118 | the end of the `\n` run starting at a position: every character skipped is `\n` and the next one is not |
| Sections.HeaderAtSpec | backend/index.js:118 | the header look-ahead succeeds at a position exactly when one of the four headers starts there, ignoring ASCII case |
| Sections.SplitFrom | backend/index.js:118 | the regex split yields at least one part and no part holds a blank line |
| Sections.SplitFromSlices | backend/index.js:118 | each part is the slice of the content at its recorded start, and the last part runs to the end of the content |
| Sections.SplitFromCuts | backend/index.js:118 | between consecutive parts the pattern matched: a blank-line run consumed to its last newline, or a header that ends a non-empty part and starts the next |
| Sections.SplitFromNoCutWithin | backend/index.js:118 | no blank line starts inside a part, and no header starts inside a part after its first character |
| Sections.SplitSections | backend/index.js:118 | the same for the whole content |
| Sections.SplitSectionsSpec | backend/index.js:118 | the split of the whole content: parts are consecutive slices from its start to its end, cut exactly where the pattern matches and nowhere else |
| Sections.MakeSectionWellFormed | backend/index.js:121-128 | a part whose trim is longer than 50 gives a well-formed section holding that trimmed text (no edge whitespace), the type the part is identified as, the table priority for that type and the part's untrimmed length |
| Sections.SectionsOf | backend/index.js:120-130 | exactly one section per part whose trimmed text is longer than 50, in the parts' order, each well formed and holding that part's trimmed text, type and length; no more sections than parts |
| Sections.SectionsForAt | backend/index.js:120-130 | section `i` is the one built from kept part `i` |
| Sections.SectionsOfAppend | backend/index.js:120-130 | the sections of two runs of parts, one after the other, are the sections of the first run followed by those of the second |
| Sections.SectionsOfSnoc | backend/index.js:120-130 | one more part adds its section at the end exactly when its trimmed text is longer than 50, and adds nothing otherwise |
| Sections.ParseContentSections | backend/index.js:114-133 | the forward push loop returns the specified sections, in part order, each well formed |
| Sections.InsertPermutes | backend/index.js:160-168 | one insertion step of the sort is a permutation |
| Sections.InsertRanked | backend/index.js:160-168 | one insertion step keeps the list ordered by priority then length, descending |
| Sections.InsertStable | backend/index.js:160-168 | one insertion step keeps each class of equal priority and length in input order |
| Sections.PrioritizeSpec | backend/index.js:160-168 | `prioritizeSections` returns a permutation of its input, ordered by non-increasing priority and then non-increasing length, with ties in input order (stable sort) |
| Summaries.DocumentKeySentences | backend/index.js:191-197 | at most three sentences of the content, each mentioning a business term |
| Summaries.SummarizeDocumentContent | backend/index.js:189-200 | the document summary is at most 23 characters longer than the content |
| Summaries.FounderKeyLines | backend/index.js:204-213 | at most four lines, each the trim of a content line naming `Name:`, `Position:`, `Experience:` or `Education:` |
| Summaries.SummarizeFounderInfo | backend/index.js:202-214 | the founder summary is at most 24 characters longer than the content |
| Summaries.TrimAll | backend/index.js:205-210 | every line replaced by its trim, in order; the total length does not grow |
| Summaries.WebKeySentences | backend/index.js:216-219 | at most two sentences of the content, each with trimmed length over 30 |
| Summaries.SummarizeWebContent | backend/index.js:216-220 | the web summary is at most 24 characters longer than the content |
| Summaries.GenericKeySentences | backend/index.js:183 | at most two sentences of the content, each with trimmed length over 20 |
| Summaries.TopPhrases | backend/index.js:184-186 | at most three words of the content; any word left out occurs no more often than each chosen one, and only when three were chosen |
| Summaries.TopThree | backend/index.js:184-186 | the first three of the frequency-ordered key phrases are words of the content, at least as frequent as any word left out, and three of them whenever one is left out |
| Phrases.WordRuns | backend/index.js:224 | every match is a run of word characters occurring in the text |
| Phrases.Words | backend/index.js:224 | every word matched is at least four word characters long and occurs in the lower-cased content |
| Phrases.WordPrefix | backend/index.js:224 | the longest run of word characters at the start of the text (`\w+` matches greedily) |
| Phrases.FrequenciesCount | backend/index.js:225-229 | the frequency object has exactly the words as keys, each mapped to its number of occurrences |
| Phrases.FirstOccurrencesMembers | backend/index.js:225-231 | the keys in insertion order are exactly the words |
| Phrases.FirstOccurrencesDistinct | backend/index.js:225-231 | the keys in insertion order hold no duplicates |
| Phrases.SortByValue | backend/index.js:231 | the array-index keys come out as a permutation of themselves, in ascending numeric order |
| Phrases.ObjectKeys | backend/index.js:231 | `Object.keys` returns a permutation of the keys (array-index names first in ascending order, then the others in insertion order) |
| Phrases.SortByCount | backend/index.js:231-232 | the count sort returns a permutation of the keys |
| Phrases.InsertByCountSorted | backend/index.js:232 | one insertion step keeps the keys in non-increasing count order |
| Phrases.SortByCountSorted | backend/index.js:231-232 | the sort leaves the keys in non-increasing count order |
| Phrases.RankedWords | backend/index.js:225-232 | the ranked words are the distinct words of the content in non-increasing frequency |
| Phrases.CountsDescend | backend/index.js:231-232 | keys ordered by the frequency table are ordered by their number of occurrences in the words |
| Phrases.LeftOutIsLower | backend/index.js:233 | a word ranked after the first n is no more frequent than any of those n, and there are n of them |
| Phrases.KeyPhrasesAreFrequentWords | backend/index.js:222-234 | at most ten distinct lower-case words of four or more word characters from the content, in non-increasing frequency |
| Phrases.KeyPhrasesAreTop | backend/index.js:231-233 | a word left out occurs no more often than every key phrase, and only when ten were chosen |
| Phrases.CountWords | backend/index.js:225-229 | the `forEach` loop builds exactly the frequency table and the key insertion order |
| Phrases.TablesGiveKeyPhrases | backend/index.js:231-233 | sorting those tables and keeping ten gives the key phrases |
| Phrases.ExtractKeyPhrases | backend/index.js:222-234 | the method returns the specified key phrases |
| ApiContext.ChunksOf | api/contextManager.js:106-115 | the number of chunks is `ceil(words / 8000)` |
| ApiContext.ChunkAt | api/contextManager.js:110-112 | chunk i is words `8000i .. min(8000(i+1), n)` joined by a space |
| ApiContext.ChunksJoin | api/contextManager.js:106-115 | joining the chunks with a space gives the words joined with a space |
| ApiContext.ChunkContent | api/contextManager.js:106-115 | the push loop returns the specified chunks |
| ApiContext.ChunkRoundTrip | api/contextManager.js:106-115 | joining the chunks of a content with a space gives back the content |
| ApiContext.ChunkWordCounts | api/contextManager.js:107-112 | every chunk but the last has exactly 8000 words, each has between 1 and 8000, and there are `ceil(words/8000)` of them |
| ApiContext.KeyChunks | api/contextManager.js:117-130 | all chunks when there are at most six, else exactly the first three followed by the last three |
| ApiContext.SelectionPartitions | api/contextManager.js:127-139 | kept head, parked middle and kept tail are the chunks, in order |
| ApiContext.Parked | api/contextManager.js:133-139 | one `excluded_chunk` entry per middle chunk (indices 3 to n-4), in order, with its index |
| ApiContext.Excluded | api/contextManager.js:133-139 | the entries for chunks lo to hi: one per chunk in order, each with its chunk index and type `excluded_chunk` |
| ApiContext.MemoryStore.constructor | api/contextManager.js:150-152 | the process-global session map as the process starts: no session has a list (the source creates the map empty on first use) |
| ApiContext.ApiContextManager.constructor | api/contextManager.js:4-10 | a new manager works on the shared process-global store and leaves its contents as they were |
| ApiContext.ApiContextManager.StoreInMemory | api/contextManager.js:149-166 | the entry is appended to the session's list (created on first use), uncapped; no other session changes |
| ApiContext.ApiContextManager.StoreContext | api/contextManager.js:12-16 | with the remote service unconfigured, storing is the in-memory append |
| ApiContext.ApiContextManager.RetrieveInMemory | api/contextManager.js:168-183 | `[]` for an unknown session, the whole list for an empty query, else exactly the entries whose content contains the query ignoring ASCII case, in stored order (the list filtered on that test) |
| ApiContext.ApiContextManager.RetrieveIgnoresLimit | api/contextManager.js:49-52 | the fallback retrieval is the same whatever `limit` is |
| ApiContext.ApiContextManager.EnhanceWithPreviousContext | api/contextManager.js:185-197 | the current content unchanged when nothing is retrieved; else the result starts with the first retrieved content and ends with `\n\nCurrent Content:\n` and the current content |
| ApiContext.WithPrevious | api/contextManager.js:188-196 | for retrieved entries, the joined text starts with the first entry as shown and ends with `\n\nCurrent Content:\n` and the current content; with none, the current content alone |
| ApiContext.ShownAll | api/contextManager.js:192-193 | one shown string per entry, the `i`-th being entry `i` as shown: its content, or `[object Object]` when that is empty |
| ApiContext.ParkStep | api/contextManager.js:133-139 | storing middle chunk `i` after chunks 3 to `i - 1` leaves the session with its earlier list followed by the entries of chunks 3 to `i`, and no other session changed |
| ApiContext.ApiContextManager.SelectKeyChunks | api/contextManager.js:117-141 | returns the key chunks; stores nothing for six or fewer, else appends exactly the parked middle entries, once each and in order |
| ApiContext.ApiContextManager.ManageTokenLimit | api/contextManager.js:84-104 | within 120000 tokens the content comes back and nothing is stored; else the full content is stored once, the middle chunks are parked, and the key chunks come back joined by `\n\n` |
| LinkedIn.StripProfilePrefix | api/index.js:202 | the result is a suffix of the URL; without `linkedin.com/` the URL is unchanged |
| LinkedIn.StripProfilePrefixForms | api/index.js:202 | for each of the schemes none, `http://`, `https://` and with or without `www.`, `linkedin.com/in/<handle>` and `linkedin.com/<handle>` both strip to the handle |
| LinkedIn.NormalizeLinkedInUrl | api/index.js:199-203 | none for an empty URL; `http://`/`https://` URLs unchanged; anything else is the profile base followed by the stripped text; every result has a scheme |
| LinkedIn.NormalizeIdempotent | api/index.js:201-203 | normalising a normalised URL changes nothing |
| LinkedIn.NormalizeKeepsHandle | backend/index.js:532-534 | a bare handle and `linkedin.com/in/<handle>` both normalise to the profile base plus the handle |
| LinkedIn.FirstSuccess | backend/index.js:585-601 | the result is error-free iff some approach succeeded; it is the profile of the first approach that succeeded, and when none succeeds it is the fixed failure profile carrying the URL |
| LinkedIn.TryApproaches | backend/index.js:585-601 | the loop returns the specified result (the first error-free profile, else the fixed failure profile with the URL), stops right after the first success, and no earlier approach succeeded |
| LinkedIn.ApiProfileError | api/index.js:226-239 | status 404 iff the not-found message, 400 iff the invalid-URL message, and every other status (or none) the generic "try again later" message |
| LinkedIn.BackendProfileError | backend/index.js:609-623 | 404 and 400 as in the API; any other failure carries the URL and ends with the error's own message |
| UploadRoute.LinkedInUrls | api/index.js:390-394 | an array field as is, a single non-empty value as that one-element list, a single empty value or an absent field as the empty list |
| UploadRoute.FounderBlock | api/index.js:476-509 | one description per non-empty URL in order; the empty URLs' nulls are dropped |
| UploadRoute.DocumentsTextAppend | api/index.js:421-431 | the documents contribute in upload order: the text of a concatenation of lists is the concatenation of their texts |
| UploadRoute.DocumentsTextSingle | api/index.js:424-430 | a PDF or DOCX contributes its extracted text and a blank line; any other type nothing |
| UploadRoute.DocumentsTextEmpty | api/index.js:421-431 | the documents add nothing iff none is a PDF or a DOCX |
| UploadRoute.BuildExtractedText | api/index.js:406-431 | the `+=` loop yields the OCR text followed by each PDF or DOCX text and a blank line, in order |
| UploadRoute.UploadGates | api/index.js:439-473 | no-text iff no document text, no URL and the empty text passes moderation; proceeding text passed both moderations and is non-empty; a flagged document text blocks with the initial check's categories, whatever the final check says; otherwise a flagged combined text blocks with the final check's categories; a block happens only when one of the checks flagged |
| UploadRoute.InitialModerationOnlyOnText | api/index.js:439-448 | with no document text the first moderation is not consulted |
| UploadRoute.HasContent | backend/index.js:780-790 | refused iff there are no files, no non-empty `urls[]` array and no non-empty `linkedInUrls` |
| UploadRoute.ErrorStatus | backend/index.js:1210-1225 | 400 iff the moderation message, 408 iff otherwise the message mentions `timeout`, else 500 |
| UploadRoute.ExtractContentFromUrl | api/index.js:336-352 | `""` on a failed fetch; otherwise no leading or trailing whitespace |
| UploadRoute.ExtractedContentClean | api/index.js:345 | the cleaned text has no two adjacent whitespace characters and keeps every non-whitespace character in order |
| UploadRoute.LastIndexOf | api/index.js:178-179 | the last index of the character, -1 when absent |
| UploadRoute.JsonSlice | api/index.js:178-183 | none iff a brace is missing or the last `}` precedes the last `{`; otherwise the slice starts with `{` and ends with `}`, holds no other `{`, and sits in the output where no `{` follows its start and no `}` follows its end (the last `{` to the last `}`) |
| UploadRoute.JsonSliceTakesLastObject | api/index.js:178-183 | with two objects in the output only the last is taken |
| UploadRoute.MarketAnalysisOutcome | api/index.js:172-192 | rejected iff the exit code is not 0; resolved only with a slice that parses; the parse-failure object iff exit 0 and no parsable slice |
| UploadRoute.RunMarketAnalysis | api/index.js:157-195 | accumulating stdout then deciding on close gives the specified outcome |
| FileUpload.DetectOcrRequirement | src/components/FileUpload.jsx:7-22 | true for the five image types; for a PDF exactly when the lower-cased name contains `scan` or `image`; false otherwise |
| FileUpload.IndicatorsReduce | src/components/FileUpload.jsx:9-18 | the three indicators reduce to `scan` and `image` |
| FileUpload.Names | src/components/FileUpload.jsx:30-33 | the names of the files, one per file, in order |
| FileUpload.TotalSizeAppend | src/components/FileUpload.jsx:37-39 | the total size of two lists together is the sum of their totals |
| FileUpload.Process | src/components/FileUpload.jsx:44-52 | one entry per file, in order, with its id and OCR flag; the entries' total size is the batch size |
| FileUpload.PartitionAppend | src/components/FileUpload.jsx:57-61 | each of the two lists keeps upload order (partitioning commutes with appending) |
| FileUpload.PartitionCovers | src/components/FileUpload.jsx:57-61 | together the two lists hold every file exactly once (as multisets); OCR entries go to the OCR list, others to the regular list |
| FileUpload.FilesOf | src/components/FileUpload.jsx:58-59 | the file of each entry, in order |
| FileUpload.FilterTotalSize | src/components/FileUpload.jsx:82 | filtering the upload list never increases its total size |
| FileUpload.WithoutId | src/components/FileUpload.jsx:82 | exactly the entries with another id remain; the total size does not grow |
| FileUpload.FileUploadState.constructor | src/components/FileUpload.jsx:4 | the list and both document lists start empty |
| FileUpload.FileUploadState.HandleFileSelection | src/components/FileUpload.jsx:24-62 | a batch with a file over 8 MB, or taking the total over 15 MB, gets its alert and changes nothing; otherwise its entries are appended in order; the documents stay the partition and the limits hold |
| FileUpload.FileUploadState.RemoveFile | src/components/FileUpload.jsx:81-89 | exactly the entries with the id are removed and the documents recomputed; the limits still hold |
| UrlInputs.SetField | src/components/MultiUrlInput.jsx:21 | only the named field takes the new value; id and other fields unchanged |
| UrlInputs.UpdateInputs | src/components/MultiUrlInput.jsx:19-23 | entries with the id get the field set, all other entries unchanged, ids and length kept |
| UrlInputs.UpdateKeepsIdsUnique | src/components/MultiUrlInput.jsx:19-23 | an update keeps ids unique |
| UrlInputs.PublishedFromInputs | src/components/MultiUrlInput.jsx:26-31 | every published URL is non-blank after trim and is the `{url, type}` of an input |
| UrlInputs.PublishedAppend | src/components/MultiUrlInput.jsx:26-31 | publishing commutes with concatenation, so input order is kept |
| UrlInputs.PublishedSingle | src/components/MultiUrlInput.jsx:26-31 | an input is published iff its trimmed value is non-empty |
| UrlInputs.MaxId | src/components/MultiUrlInput.jsx:36 | `Math.max` of the ids: an upper bound attained by some input |
| UrlInputs.AddKeepsIdsUnique | src/components/MultiUrlInput.jsx:35-43 | the new input's id (max + 1) keeps ids unique |
| UrlInputs.WithoutId | src/components/MultiUrlInput.jsx:47 | exactly the inputs with another id remain |
| UrlInputs.RemoveAtMostOne | src/components/MultiUrlInput.jsx:45-48 | with unique ids, removing an id removes at most one input and keeps ids unique |
| UrlInputs.KeepAll | src/components/MultiUrlInput.jsx:47 | removing an id that no input has changes nothing |
| UrlInputs.TypeIcon | src/components/MultiUrlInput.jsx:60-63 | an unknown type gets the link icon |
| UrlInputs.TypeIconFirstMatch | src/components/MultiUrlInput.jsx:60-63 | the icon is that of the first type with the value (`find`) |
| UrlInputs.TypeIcons | src/components/MultiUrlInput.jsx:10-17 | each listed type shows its own icon, any other type the link icon |
| UrlInputs.UrlInputState.constructor | src/components/MultiUrlInput.jsx:4-8 | three inputs with ids 1, 2, 3 and types company, news and other; nothing published |
| UrlInputs.UrlInputState.UpdateUrl | src/components/MultiUrlInput.jsx:19-33 | the list becomes the update and the published URLs are recomputed from it; ids stay unique and the list non-empty |
| UrlInputs.UrlInputState.AddUrlInput | src/components/MultiUrlInput.jsx:35-43 | one input appended with id max + 1, type other and empty value; published URLs untouched |
| UrlInputs.UrlInputState.ClickAdd | src/components/MultiUrlInput.jsx:113-120 | the add button works below eight inputs and is disabled at eight, so the list never exceeds eight |
| UrlInputs.UrlInputState.RemoveUrlInput | src/components/MultiUrlInput.jsx:45-58 | with one input nothing changes; otherwise exactly the matching id is removed and the URLs republished; the list is never empty |
| SubmitForm.OpeningRemoved | frontend/src/App.jsx:228 | a leading fence with surrounding whitespace is removed, the rest kept |
| SubmitForm.ClosingRemoved | frontend/src/App.jsx:229 | a trailing fence with surrounding whitespace is removed, the rest kept |
| SubmitForm.FencesRemoved | frontend/src/App.jsx:227-229 | a fenced body comes out as the body |
| SubmitForm.StripOpeningFence | frontend/src/App.jsx:228 | the result is a suffix of the text (only a leading fence is removed) |
| SubmitForm.StripClosingFence | frontend/src/App.jsx:229 | the result is a prefix of the text (only a trailing fence is removed) |
| SubmitForm.RemoveLineBreaks | frontend/src/App.jsx:231 | no `\r` or `\n` is left and every other character stays |
| SubmitForm.CloseGapKeepsText | frontend/src/App.jsx:233-234 | a gap-closing replace removes whitespace only |
| SubmitForm.GapClosed | frontend/src/App.jsx:233-234 | after a pass no `a`, one whitespace, `b` is left |
| SubmitForm.NoNewPattern | frontend/src/App.jsx:233-234 | a pass creates no occurrence of a pattern that clashes with its replacement |
| SubmitForm.PassKeepsNoDoubleSpace | frontend/src/App.jsx:233-234 | a pass keeps the no-double-whitespace property |
| SubmitForm.CleanHtmlSpacing | frontend/src/App.jsx:226-236 | `cleanHtml` output has no `\r`, no `\n` and no two adjacent whitespace characters |
| SubmitForm.CleanHtmlGaps | frontend/src/App.jsx:226-236 | `cleanHtml` output has no whitespace between `</li>` and `<li>` or between `</h2>` and `<p>` |
| SubmitForm.CleanHtmlKeepsText | frontend/src/App.jsx:226-236 | after the fences only whitespace is removed |
| SubmitForm.StripCommas | frontend/src/App.jsx:73-74 | no comma is left, every other character stays |
| SubmitForm.SubmitChecks | frontend/src/App.jsx:44-56 | the date error iff no date; the documents error iff a date but no regular and no OCR documents; a request otherwise |
| SubmitForm.SubmitValues | frontend/src/App.jsx:58-83 | for every field name the form data holds exactly the expected values in order: files, OCR files, comma-free round and valuation, date, LinkedIn URLs, stringified URLs |
| SubmitForm.DealFieldValues | frontend/src/App.jsx:73-75 | the funding round and valuation fields carry the text with its commas removed and the date field carries the date, once each |
| SubmitForm.ListFieldValues | frontend/src/App.jsx:61-83 | every file, OCR, LinkedIn and URL field carries exactly its list, in order |
| SubmitForm.HandleSubmit | frontend/src/App.jsx:34-83 | the guards and append loops produce the specified outcome |
| SubmitForm.AppendFiles | frontend/src/App.jsx:61-71 | the loop appends one entry per file, in order |
| SubmitForm.AppendTexts | frontend/src/App.jsx:76-83 | the `forEach` appends one entry per text, in order |
| SubmitForm.Stringify | frontend/src/App.jsx:81-83 | the loop yields the stringified form of each published URL, in order |
| Strings.Lower | backend/index.js:136 | lower-casing keeps length and maps each character |
| Strings.LowerIdempotent | backend/index.js:136 | lower-casing twice is lower-casing once |
| Strings.TrimSpec | backend/index.js:121-124 | `trim()` is the slice between the leading and trailing whitespace runs; its ends are not whitespace |
| Strings.TrimStart | backend/index.js:121-124 | the result does not start with whitespace |
| Strings.TrimEnd | backend/index.js:121-124 | the result does not end with whitespace |
| Strings.TrimKeepsText | backend/index.js:121-124 | trimming removes whitespace only |
| Strings.SplitJoin | api/contextManager.js:107-111 | joining a split with its separator gives back the string |
| Strings.Split | api/contextManager.js:107 | `split` on one character gives at least one piece and no piece holds the separator |
| Strings.SplitLength | api/contextManager.js:107 | the pieces are no longer together than the text |
| Strings.JoinSplit | api/contextManager.js:107-111 | splitting a join of separator-free pieces gives back the pieces |
| Strings.SplitSentences | backend/index.js:183 | splitting on `[.!?]+` gives at least one piece, none holding a terminator |
| Strings.SplitSentencesShape | backend/index.js:183 | a leading terminator gives an empty first piece, any other first character starts the first piece, and no piece between two separators is empty, so a run of terminators is one cut |
| Strings.SentenceSeps | backend/index.js:183 | the separators are non-empty runs of terminators |
| Strings.SentenceSepsCount | backend/index.js:183 | there is one separator fewer than there are pieces |
| Strings.SplitSentencesRoundTrip | backend/index.js:183 | putting the separators back between the pieces gives the text back |
| Strings.SplitSentencesLength | backend/index.js:183 | the pieces are no longer together than the text |
| Strings.CollapseNoDoubleSpace | api/index.js:345 | after `replace(/\s+/g, " ")` no two whitespace characters are adjacent |
| Strings.CollapseKeepsText | api/index.js:345 | the collapse keeps every non-whitespace character in order |
| Strings.CollapseSpaces | api/index.js:345 | the collapse is empty iff the text is, and starts with whitespace iff the text does |
| Strings.CollapseAndTrimSpec | api/index.js:345 | collapse then trim keeps both properties |

## Left out

- **Network, storage and service calls.** Fetches, OpenAI moderation and chat,
  Google Vision OCR, Drive and Blob storage, pdf and docx extraction, and the
  Python subprocess are not modelled. Their results are parameters:
  - `moderate`, `summarize` and `describe` are function parameters;
  - a page is `Option<string>`;
  - a document carries its extracted text;
  - stdout is a sequence of chunks with an exit code;
  - `JSON.parse` success is a predicate `parses`.
- **Remote memory service.** The Supermemory branch of `storeContext` and
  `retrieveContext` (`api/contextManager.js:18-47`, `54-81`) is not modelled. The
  model is the unconfigured service, which always uses the in-memory fallback.
- **Clocks and randomness.** In the backend store, the upload list and the URL
  list, timestamps, `crypto.randomUUID` and the `Math.random` ids are parameters.
- ApiContext.ApiContextManager.StoreInMemory: the `timestamp` and `id` fields of a
  stored entry (`api/contextManager.js:161-162`) are left out of `ApiContext.Entry`.
  They come from the clock and `crypto.randomUUID`, and no code of the serverless
  API reads them back. Retrieval matches on `content` alone. The enhancer shows
  `content`, or the stringified object, which is `[object Object]` whatever its
  fields.
- **Concurrency and timeouts.** `Promise.all`/`allSettled`, `Promise.race` timeouts
  and the timeout warning timer are not modelled. The founder descriptions are
  modelled in order, one after another.
- **Backend upload route.** Its moderation gates and the URL step of
  `backend/index.js:938-996` interleave with the parallel URL fetches and are not
  modelled. The serverless route's gates (`UploadRoute.UploadGates`) are.
- **Rendering and environment.** `formatFileSize` is floating point and is not
  modelled. JSX rendering, the drag state, downloads and environment checks are not
  modelled either.
- **Unicode.** Strings are sequences of code points, not UTF-16 units.
  `toLowerCase` is modelled on ASCII letters only: the keywords and the `\w` class
  are ASCII, but non-ASCII capitals that lower-case to ASCII letters are not
  lowered.
- Sections.PrioritizeSections: the in-place `Array.prototype.sort` on the fresh
  array from `parseContentSections` is modelled as a stable insertion sort on a
  sequence. No caller holds another reference to that array, so the update in
  place is not observable.
- **Return values.** The `{ success, storage }` objects returned by the store
  methods are not modelled.
- BackendContext.ManageTokenLimit: the remaining backend `ContextManager` fields
  (`chunkSize` 4000) play no part in the code and are not modelled.
- Sections.SectionPriority: the table lookup is modelled on section type names.
  `priorities[type] || 5` on a plain object would return an inherited member for
  names such as `constructor` or `__proto__`, not 5. Every call in the source
  passes a section type name, so these names never reach the lookup.
- Phrases.CountWords: the frequency table is modelled as a map from word to count.
  In the source it is a plain object, and two lower-case words of four or more
  word characters name inherited members. `constructor` starts from
  `Object.prototype.constructor`, so its "count" becomes a string and the sort
  comparator returns `NaN` for it. `__proto__` is never stored as an own key. The
  model counts both words like any other.
- Phrases.ExtractKeyPhrases: for content holding `constructor` or `__proto__` the
  source's result differs from the model's. `constructor` is placed where the
  engine's sort leaves an element whose comparisons give `NaN` (on
  "constructor market market" the source gives `["constructor", "market"]`, the
  model `["market", "constructor"]`). `__proto__` never appears in the source's
  result ("__proto__ __proto__ data" gives `["data"]`). The ordering by
  descending count and the other key-phrase lemmas hold for the model only.

=== FILE: api_context.dfy ===
/**
 * The serverless `ContextManager` (api/contextManager.js): word chunking, the
 * first-three/last-three chunk selection, and the in-memory session store
 * that stands in when the remote memory service is not configured.
 */
module ApiContext {
  import opened Strings
  import opened Seqs
  import opened SeqFacts
  import BackendContext

  /** `this.maxTokens`. */
  const MaxTokens: nat := 120000

  /** `this.chunkSize`, in words. */
  const ChunkSize: nat := 8000

  function Min(a: int, b: int): int {
    if a <= b then a else b
  }

  /**
   * The chunks `chunkContent` builds from the words: consecutive groups of
   * `ChunkSize` words (the last one possibly shorter), each joined with a
   * single space.
   */
  function ChunksOf(words: seq<string>): (chunks: seq<string>)
    ensures |chunks| == (|words| + ChunkSize - 1) / ChunkSize
    decreases |words|
  {
    if words == [] then []
    else
      var n := Min(|words|, ChunkSize);
      [Join(words[..n], " ")] + ChunksOf(words[n..])
  }

  /** Chunk `i` is the `i`-th group of `ChunkSize` words, joined by spaces. */
  lemma {:induction false} ChunkAt(words: seq<string>, i: nat)
    requires i < |ChunksOf(words)|
    ensures ChunksOf(words)[i] == Join(words[i * ChunkSize..Min((i + 1) * ChunkSize, |words|)], " ")
    decreases |words|
  {
    var n := Min(|words|, ChunkSize);
    if i > 0 {
      ChunkAt(words[n..], i - 1);
      assert n == ChunkSize;
      var lo, hi := (i - 1) * ChunkSize, Min(i * ChunkSize, |words| - n);
      assert n + lo == i * ChunkSize && n + hi == Min((i + 1) * ChunkSize, |words|);
      SliceOfSuffixRange(words, n, lo, hi);
    }
  }

  /** Joining the chunks with a space gives back the words joined with a space. */
  lemma {:induction false} ChunksJoin(words: seq<string>)
    requires words != []
    ensures Join(ChunksOf(words), " ") == Join(words, " ")
    decreases |words|
  {
    var n := Min(|words|, ChunkSize);
    if n < |words| {
      ChunksJoin(words[n..]);
      JoinCons(Join(words[..n], " "), ChunksOf(words[n..]), " ");
      JoinAppend(words[..n], words[n..], " ");
      assert words[..n] + words[n..] == words;
    } else {
      assert words[..n] == words;
    }
  }

  /**
   * `chunkContent`: splits on single spaces and pushes one chunk per
   * `ChunkSize` words.
   */
  method ChunkContent(content: string) returns (chunks: seq<string>)
    ensures chunks == ChunksOf(Split(content, ' '))
  {
    var words := Split(content, ' ');
    chunks := [];
    var i := 0;
    while i < |words|
      invariant i <= |words| ==> chunks + ChunksOf(words[i..]) == ChunksOf(words)
      invariant i > |words| ==> chunks == ChunksOf(words)
      decreases |words| - i
    {
      var end := Min(i + ChunkSize, |words|);
      var chunk := Join(words[i..end], " ");
      ChunksStep(words, i);
      AppendAssoc(chunks, [chunk], ChunksOf(words[end..]));
      chunks := chunks + [chunk];
      i := i + ChunkSize;
      if i > |words| {
        assert words[end..] == [];
        assert chunks + [] == chunks;
      }
    }
    if i == |words| {
      assert words[i..] == [];
      assert chunks + [] == chunks;
    }
  }

  /** The chunks from word `i` on: the group starting there, then the rest. */
  lemma ChunksStep(words: seq<string>, i: nat)
    requires i < |words|
    ensures ChunksOf(words[i..])
      == [Join(words[i..Min(i + ChunkSize, |words|)], " ")] + ChunksOf(words[Min(i + ChunkSize, |words|)..])
  {
    var end := Min(i + ChunkSize, |words|);
    assert words[i..][..end - i] == words[i..end];
    assert words[i..][end - i..] == words[end..];
  }

  /** Joining the chunks of a text with single spaces gives the text back. */
  lemma ChunkRoundTrip(content: string)
    ensures Join(ChunksOf(Split(content, ' ')), " ") == content
  {
    ChunksJoin(Split(content, ' '));
    SplitJoin(content, ' ');
  }

  /**
   * There are `ceil(words / ChunkSize)` chunks; every chunk but the last
   * splits back into exactly `ChunkSize` words, and the last into between one
   * and `ChunkSize`.
   */
  lemma ChunkWordCounts(content: string, i: nat)
    requires i < |ChunksOf(Split(content, ' '))|
    ensures var words := Split(content, ' '); var chunks := ChunksOf(words);
      && |chunks| == (|words| + ChunkSize - 1) / ChunkSize
      && (i < |chunks| - 1 ==> |Split(chunks[i], ' ')| == ChunkSize)
      && 1 <= |Split(chunks[i], ' ')| <= ChunkSize
  {
    var words := Split(content, ' ');
    var group := words[i * ChunkSize..Min((i + 1) * ChunkSize, |words|)];
    ChunkAt(words, i);
    assert forall w :: w in group ==> w in words;
    JoinSplit(group, ' ');
  }

  /**
   * The chunks `selectKeyChunks` keeps: all of them when there are at most
   * six, else the first three and the last three.
   */
  function KeyChunks(chunks: seq<string>): (r: seq<string>)
    ensures |r| == Min(6, |chunks|)
    ensures |chunks| <= 6 ==> r == chunks
    ensures |chunks| > 6 ==> forall k :: 0 <= k < 3 ==> r[k] == chunks[k]
    ensures |chunks| > 6 ==> forall k :: 3 <= k < 6 ==> r[k] == chunks[|chunks| - 6 + k]
  {
    if |chunks| <= 6 then chunks else chunks[..3] + chunks[|chunks| - 3..]
  }

  /** The chunks `selectKeyChunks` parks in memory: indices 3 through n - 4. */
  function MiddleChunks(chunks: seq<string>): seq<string> {
    if |chunks| <= 6 then [] else chunks[3..|chunks| - 3]
  }

  /** Nothing is lost: the kept head, the parked middle and the kept tail are the chunks, in order. */
  lemma SelectionPartitions(chunks: seq<string>)
    requires |chunks| > 6
    ensures KeyChunks(chunks)[..3] + MiddleChunks(chunks) + KeyChunks(chunks)[3..] == chunks
  {
    var r := KeyChunks(chunks);
    assert r[..3] == chunks[..3];
    assert r[3..] == chunks[|chunks| - 3..];
    assert chunks[..3] + chunks[3..|chunks| - 3] + chunks[|chunks| - 3..] == chunks;
  }

  /** The metadata the callers attach to a stored entry. */
  datatype Metadata =
    | NoMetadata
    | FullContent(tokenCount: nat)
    | ExcludedChunk(chunkIndex: nat)

  datatype Entry = Entry(content: string, metadata: Metadata)

  /** The entries `selectKeyChunks` writes for chunks `lo` up to `hi`, in order. */
  function Excluded(chunks: seq<string>, lo: nat, hi: nat): (r: seq<Entry>)
    requires lo <= hi <= |chunks|
    ensures |r| == hi - lo
    ensures forall k :: 0 <= k < |r| ==> r[k] == Entry(chunks[lo + k], ExcludedChunk(lo + k))
  {
    seq(hi - lo, k requires 0 <= k < hi - lo => Entry(chunks[lo + k], ExcludedChunk(lo + k)))
  }

  /** The entries `selectKeyChunks` writes: one per middle chunk, none when all are kept. */
  function Parked(chunks: seq<string>): (r: seq<Entry>)
    ensures |r| == |MiddleChunks(chunks)|
    ensures forall k :: 0 <= k < |r| ==> r[k] == Entry(MiddleChunks(chunks)[k], ExcludedChunk(3 + k))
  {
    if |chunks| <= 6 then [] else Excluded(chunks, 3, |chunks| - 3)
  }

  /** What a reader sees of an entry: `ctx.content || ctx`, stringified. */
  function Shown(e: Entry): string {
    if e.content != "" then e.content else "[object Object]"
  }

  function ShownAll(entries: seq<Entry>): (r: seq<string>)
    ensures |r| == |entries|
    ensures forall i :: 0 <= i < |r| ==> r[i] == Shown(entries[i])
  {
    if entries == [] then [] else [Shown(entries[0])] + ShownAll(entries[1..])
  }

  /**
   * The current content behind the retrieved entries, joined with the
   * previous-context separator; the content alone when nothing was found.
   */
  function WithPrevious(previous: seq<Entry>, current: string): (r: string)
    ensures previous == [] ==> r == current
    ensures previous != [] ==>
      EndsWith(r, "\n\nCurrent Content:\n" + current) && StartsWith(r, Shown(previous[0]))
  {
    if previous == [] then current
    else
      var summary := Join(ShownAll(previous), "\n\nPrevious Context:\n");
      JoinStartsWithFirst(ShownAll(previous), "\n\nPrevious Context:\n");
      summary + "\n\nCurrent Content:\n" + current
  }

  /**
   * The process-global `global.memoryStore`: one map of session lists that
   * every `ApiContextManager` of the process reads and appends to.
   */
  class MemoryStore {
    var sessions: map<string, seq<Entry>>

    /** The map as the process starts: no session has a list yet. */
    constructor()
      ensures sessions == map[]
    {
      sessions := map[];
    }
  }

  /**
   * A `ContextManager` of the serverless API with the remote service off.
   * Its in-memory fallback works on the shared `store`, which constructing a
   * manager neither creates nor clears.
   */
  class ApiContextManager {
    const store: MemoryStore

    constructor(store: MemoryStore)
      ensures this.store == store
      ensures store.sessions == old(store.sessions)
    {
      this.store := store;
    }

    function Entries(sessionId: string): seq<Entry>
      reads store
    {
      if sessionId in store.sessions then store.sessions[sessionId] else []
    }

    /** `storeInMemory`: creates the session list on first use and appends, with no cap. */
    method StoreInMemory(content: string, sessionId: string, metadata: Metadata)
      modifies store
      ensures store.sessions == old(store.sessions)[sessionId := old(Entries(sessionId)) + [Entry(content, metadata)]]
    {
      if sessionId !in store.sessions {
        store.sessions := store.sessions[sessionId := []];
      }
      store.sessions := store.sessions[sessionId := store.sessions[sessionId] + [Entry(content, metadata)]];
    }

    /** `storeContext` with the remote service unconfigured or failing: the in-memory store. */
    method StoreContext(content: string, sessionId: string, metadata: Metadata)
      modifies store
      ensures store.sessions == old(store.sessions)[sessionId := old(Entries(sessionId)) + [Entry(content, metadata)]]
    {
      StoreInMemory(content, sessionId, metadata);
    }

    /**
     * `retrieveInMemory`: nothing for an unknown session, everything for an
     * empty query, else the entries whose content contains the query, ignoring
     * ASCII case, in stored order.
     */
    function RetrieveInMemory(sessionId: string, query: string): (r: seq<Entry>)
      reads store
      ensures sessionId !in store.sessions ==> r == []
      ensures query == "" ==> r == Entries(sessionId)
      ensures query != "" ==>
        forall e :: e in r <==> e in Entries(sessionId) && Contains(Lower(e.content), Lower(query))
      ensures query != "" ==>
        r == Filter(Entries(sessionId), (e: Entry) => Contains(Lower(e.content), Lower(query)))
      ensures |r| <= |Entries(sessionId)|
    {
      if sessionId !in store.sessions then []
      else if query == "" then store.sessions[sessionId]
      else Filter(store.sessions[sessionId], (e: Entry) => Contains(Lower(e.content), Lower(query)))
    }

    /** `retrieveContext` with the remote service unconfigured or failing; `limit` plays no part. */
    function RetrieveContext(sessionId: string, query: string, limit: int): seq<Entry>
      reads store
    {
      RetrieveInMemory(sessionId, query)
    }

    /** The in-memory fallback answers the same whatever `limit` is asked for. */
    lemma RetrieveIgnoresLimit(sessionId: string, query: string, limit1: int, limit2: int)
      ensures RetrieveContext(sessionId, query, limit1) == RetrieveContext(sessionId, query, limit2)
    {
    }

    /**
     * `enhanceWithPreviousContext`: the current content alone when nothing
     * matches, else the matching entries joined by the previous-context
     * marker, followed by the current-content marker and the current content.
     */
    function EnhanceWithPreviousContext(current: string, sessionId: string, query: string): (r: string)
      reads store
      ensures RetrieveContext(sessionId, query, 3) == [] ==> r == current
      ensures RetrieveContext(sessionId, query, 3) != [] ==>
        EndsWith(r, "\n\nCurrent Content:\n" + current)
        && StartsWith(r, Shown(RetrieveContext(sessionId, query, 3)[0]))
    {
      WithPrevious(RetrieveContext(sessionId, query, 3), current)
    }

    /**
     * `selectKeyChunks`: returns the key chunks and stores each middle chunk,
     * with its index, once and in order.
     */
    method SelectKeyChunks(chunks: seq<string>, sessionId: string) returns (selected: seq<string>)
      modifies store
      ensures selected == KeyChunks(chunks)
      ensures |chunks| <= 6 ==> store.sessions == old(store.sessions)
      ensures |chunks| > 6 ==>
        store.sessions == old(store.sessions)[sessionId := old(Entries(sessionId)) + Parked(chunks)]
    {
      var total := |chunks|;
      var keepCount := Min(6, total);
      if total <= keepCount {
        return chunks;
      }
      selected := chunks[..3] + chunks[total - 3..];
      ghost var base := store.sessions;
      ghost var prior := Entries(sessionId);
      var i := 3;
      while i < total - 3
        invariant 3 <= i <= total - 3
        invariant i == 3 ==> store.sessions == base
        invariant i > 3 ==> store.sessions == base[sessionId := prior + Excluded(chunks, 3, i)]
      {
        ghost var before := store.sessions;
        StoreContext(chunks[i], sessionId, ExcludedChunk(i));
        ParkStep(base, sessionId, chunks, i, before, store.sessions);
        i := i + 1;
      }
    }

    /**
     * `manageTokenLimit`: within budget the content comes back and nothing is
     * stored; otherwise the full content is stored once, the middle chunks are
     * parked, and the key chunks come back joined by blank lines.
     */
    method ManageTokenLimit(content: string, sessionId: string) returns (result: string)
      modifies store
      ensures var tokens := BackendContext.EstimateTokens(content);
        tokens <= MaxTokens ==> result == content && store.sessions == old(store.sessions)
      ensures var tokens := BackendContext.EstimateTokens(content);
        var chunks := ChunksOf(Split(content, ' '));
        tokens > MaxTokens ==>
          && result == Join(KeyChunks(chunks), "\n\n")
          && store.sessions == old(store.sessions)[sessionId := old(Entries(sessionId))
               + [Entry(content, FullContent(tokens))] + Parked(chunks)]
    {
      var tokenCount := BackendContext.EstimateTokens(content);
      if tokenCount <= MaxTokens {
        return content;
      }
      StoreContext(content, sessionId, FullContent(tokenCount));
      ghost var stored := old(Entries(sessionId)) + [Entry(content, FullContent(tokenCount))];
      assert Entries(sessionId) == stored;
      var chunks := ChunkContent(content);
      var keyChunks := SelectKeyChunks(chunks, sessionId);
      if |chunks| <= 6 {
        assert Parked(chunks) == [];
        assert stored + [] == stored;
      } else {
        UpdateTwice(old(store.sessions), sessionId, stored, stored + Parked(chunks));
      }
      result := Join(keyChunks, "\n\n");
    }
  }

  /**
   * Parking chunk `i` after chunks 3 to `i - 1` leaves the session holding its
   * earlier list followed by the entries of chunks 3 to `i`.
   */
  lemma ParkStep(base: map<string, seq<Entry>>, sessionId: string, chunks: seq<string>, i: nat,
                 before: map<string, seq<Entry>>, after: map<string, seq<Entry>>)
    requires 3 <= i < |chunks|
    requires i == 3 ==> before == base
    requires i > 3 ==> before == base[sessionId := (if sessionId in base then base[sessionId] else []) + Excluded(chunks, 3, i)]
    requires after == before[sessionId := (if sessionId in before then before[sessionId] else []) + [Entry(chunks[i], ExcludedChunk(i))]]
    ensures after == base[sessionId := (if sessionId in base then base[sessionId] else []) + Excluded(chunks, 3, i + 1)]
  {
    var prior := if sessionId in base then base[sessionId] else [];
    var e := Entry(chunks[i], ExcludedChunk(i));
    assert Excluded(chunks, 3, i + 1) == Excluded(chunks, 3, i) + [e];
    if i == 3 {
      assert Excluded(chunks, 3, i + 1) == [e];
    } else {
      assert before[sessionId] == prior + Excluded(chunks, 3, i);
      assert prior + Excluded(chunks, 3, i) + [e] == prior + Excluded(chunks, 3, i + 1);
      UpdateTwice(base, sessionId, prior + Excluded(chunks, 3, i), prior + Excluded(chunks, 3, i + 1));
    }
  }

  lemma JoinStartsWithFirst(parts: seq<string>, sep: string)
    requires parts != []
    ensures StartsWith(Join(parts, sep), parts[0])
  {
  }
}

=== FILE: backend_context.dfy ===
/**
 * The backend's `ContextManager` (backend/index.js): the token estimate, the
 * greedy packing of ranked sections under the token budget, and the
 * per-session memory that keeps the last five writes.
 */
module BackendContext {
  import opened Strings
  import opened Seqs
  import opened SeqFacts
  import opened Sections
  import opened Summaries

  /** `this.maxTokens`. */
  const MaxTokens: nat := 120000

  /** `estimateTokens`: `Math.ceil(text.length / 4)`. */
  function EstimateTokens(text: string): (t: nat)
    ensures |text| <= 4 * t < |text| + 4
    ensures text == [] <==> t == 0
  {
    (|text| + 3) / 4
  }

  /** What the packing loop does with one section. */
  datatype Decision = Whole | Summarized(summary: string) | Omitted

  /** The tokens a decision adds to `currentTokens`. */
  function Cost(section: Section, d: Decision): nat {
    match d
    case Whole => EstimateTokens(section.content)
    case Summarized(summary) => EstimateTokens(summary)
    case Omitted => 0
  }

  /** The text a decision appends to `optimizedContent`. */
  function Piece(section: Section, d: Decision): string {
    match d
    case Whole => section.content + "\n\n"
    case Summarized(summary) => "[SUMMARIZED] " + summary + "\n\n"
    case Omitted => ""
  }

  /**
   * The decision for one section when `used` tokens are already counted: the
   * whole section if it fits under `limit - 1000`, else its summary if that
   * fits under `limit - 500`, else nothing.
   */
  function Decide(section: Section, summarize: Section -> string, limit: int, used: int): (d: Decision)
    ensures d == Whole <==> used + EstimateTokens(section.content) <= limit - 1000
    ensures d.Summarized? <==>
      used + EstimateTokens(section.content) > limit - 1000
      && used + EstimateTokens(summarize(section)) <= limit - 500
    ensures d.Summarized? ==> d.summary == summarize(section)
  {
    if used + EstimateTokens(section.content) <= limit - 1000 then Whole
    else
      var summary := summarize(section);
      if used + EstimateTokens(summary) <= limit - 500 then Summarized(summary) else Omitted
  }

  /**
   * The decisions of the loop over `sections`, starting from counter `used`;
   * `summarize` is the digest function (`createSectionSummary`).
   */
  function Plan(sections: seq<Section>, summarize: Section -> string, limit: int, used: int): (ds: seq<Decision>)
    ensures |ds| == |sections|
  {
    if sections == [] then []
    else
      var d := Decide(sections[0], summarize, limit, used);
      [d] + Plan(sections[1..], summarize, limit, used + Cost(sections[0], d))
  }

  /** Total tokens the decisions `ds` add to the counter. */
  function Spent(sections: seq<Section>, ds: seq<Decision>): nat
    requires |ds| == |sections|
  {
    if sections == [] then 0 else Cost(sections[0], ds[0]) + Spent(sections[1..], ds[1..])
  }

  /** The text the decisions `ds` append, in section order. */
  function Render(sections: seq<Section>, ds: seq<Decision>): string
    requires |ds| == |sections|
  {
    if sections == [] then "" else Piece(sections[0], ds[0]) + Render(sections[1..], ds[1..])
  }

  /** `intelligentContentReduction`. */
  function ReducedContent(content: string): string {
    var ranked := PrioritizeSections(ParsedSections(content));
    Render(ranked, Plan(ranked, CreateSectionSummary, MaxTokens, 0))
  }

  /**
   * Every decision of the plan is the one its counter called for: a whole
   * section only if the counter plus its estimate is within `limit - 1000`, a
   * summary only if the whole did not fit and the counter plus the
   * summary's estimate is within `limit - 500`, and nothing only if neither
   * fitted.
   */
  lemma {:induction false} PlanAdmission(sections: seq<Section>, summarize: Section -> string, limit: int, used: int, i: nat)
    requires i < |sections|
    ensures var ds := Plan(sections, summarize, limit, used);
      ds[i] == Decide(sections[i], summarize, limit, used + Spent(sections[..i], ds[..i]))
  {
    var ds := Plan(sections, summarize, limit, used);
    if i > 0 {
      var c := Cost(sections[0], ds[0]);
      var rest := Plan(sections[1..], summarize, limit, used + c);
      assert ds == [ds[0]] + rest;
      PlanAdmission(sections[1..], summarize, limit, used + c, i - 1);
      assert sections[..i][1..] == sections[1..][..i - 1];
      assert ds[..i][1..] == rest[..i - 1];
      assert Spent(sections[..i], ds[..i]) == c + Spent(sections[1..][..i - 1], rest[..i - 1]);
      assert ds[i] == rest[i - 1];
    }
  }

  /** The counter never exceeds `limit - 500` unless it started above it. */
  lemma {:induction false} PlanBudget(sections: seq<Section>, summarize: Section -> string, limit: int, used: int)
    ensures used + Spent(sections, Plan(sections, summarize, limit, used))
      <= if used <= limit - 500 then limit - 500 else used
  {
    if sections != [] {
      var d := Decide(sections[0], summarize, limit, used);
      PlanBudget(sections[1..], summarize, limit, used + Cost(sections[0], d));
    }
  }

  /**
   * The packed text is at most four characters per counted token plus 15 per
   * section longer: the `\n\n` separators and the `[SUMMARIZED] ` prefix are
   * not counted, so the counter bounds the text only up to this slack.
   */
  lemma {:induction false} RenderLength(sections: seq<Section>, ds: seq<Decision>)
    requires |ds| == |sections|
    ensures |Render(sections, ds)| <= 4 * Spent(sections, ds) + 15 * |sections|
  {
    if sections != [] {
      RenderLength(sections[1..], ds[1..]);
    }
  }

  /**
   * The reduced content's counter stays within `MaxTokens - 500`, and its
   * length within four characters per token plus 15 per section.
   */
  lemma ReducedContentBudget(content: string)
    ensures var ranked := PrioritizeSections(ParsedSections(content));
      var ds := Plan(ranked, CreateSectionSummary, MaxTokens, 0);
      && Spent(ranked, ds) <= MaxTokens - 500
      && |ReducedContent(content)| <= 4 * (MaxTokens - 500) + 15 * |ranked|
  {
    var ranked := PrioritizeSections(ParsedSections(content));
    PlanBudget(ranked, CreateSectionSummary, MaxTokens, 0);
    RenderLength(ranked, Plan(ranked, CreateSectionSummary, MaxTokens, 0));
  }

  /** The text the plan appends for the sections from `i` on, starting from `used` tokens. */
  ghost function Remaining(ranked: seq<Section>, i: nat, summarize: Section -> string, used: int): string
    requires i <= |ranked|
  {
    Render(ranked[i..], Plan(ranked[i..], summarize, MaxTokens, used))
  }

  /** One turn of the packing loop: the text so far plus the plan for the rest is the whole packed text. */
  lemma PackStep(ranked: seq<Section>, i: nat, summarize: Section -> string, used: int, optimized: string, packed: string)
    requires i < |ranked|
    requires optimized + Remaining(ranked, i, summarize, used) == packed
    ensures var d := Decide(ranked[i], summarize, MaxTokens, used);
      (optimized + Piece(ranked[i], d)) + Remaining(ranked, i + 1, summarize, used + Cost(ranked[i], d)) == packed
  {
    var d := Decide(ranked[i], summarize, MaxTokens, used);
    PlanStep(ranked, i, summarize, MaxTokens, used);
    AppendAssoc(optimized, Piece(ranked[i], d), Remaining(ranked, i + 1, summarize, used + Cost(ranked[i], d)));
  }

  /** The plan for a suffix starts with the decision for its first section. */
  lemma PlanStep(sections: seq<Section>, i: nat, summarize: Section -> string, limit: int, used: int)
    requires i < |sections|
    ensures var d := Decide(sections[i], summarize, limit, used);
      Render(sections[i..], Plan(sections[i..], summarize, limit, used))
        == Piece(sections[i], d) + Render(sections[i + 1..], Plan(sections[i + 1..], summarize, limit, used + Cost(sections[i], d)))
  {
    assert sections[i..][0] == sections[i];
    assert sections[i..][1..] == sections[i + 1..];
  }

  /**
   * The loop of `intelligentContentReduction`: appends each ranked section,
   * its summary or nothing, counting tokens in `currentTokens`; `summarize`
   * is `createSectionSummary`.
   */
  method PackSections(ranked: seq<Section>, summarize: Section -> string) returns (optimized: string)
    ensures optimized == Render(ranked, Plan(ranked, summarize, MaxTokens, 0))
  {
    ghost var packed := Render(ranked, Plan(ranked, summarize, MaxTokens, 0));
    assert ranked[0..] == ranked;
    optimized := "";
    var currentTokens := 0;
    var i := 0;
    while i < |ranked|
      invariant 0 <= i <= |ranked|
      invariant optimized + Remaining(ranked, i, summarize, currentTokens) == packed
    {
      var section := ranked[i];
      ghost var d := Decide(section, summarize, MaxTokens, currentTokens);
      PackStep(ranked, i, summarize, currentTokens, optimized, packed);
      var piece, tokens := "", 0;
      var sectionTokens := EstimateTokens(section.content);
      if currentTokens + sectionTokens <= MaxTokens - 1000 {
        piece, tokens := section.content + "\n\n", sectionTokens;
      } else {
        var summary := summarize(section);
        var summaryTokens := EstimateTokens(summary);
        if currentTokens + summaryTokens <= MaxTokens - 500 {
          piece, tokens := "[SUMMARIZED] " + summary + "\n\n", summaryTokens;
        }
      }
      assert piece == Piece(section, d) && tokens == Cost(section, d);
      optimized := optimized + piece;
      currentTokens := currentTokens + tokens;
      i := i + 1;
    }
    assert ranked[i..] == [];
    assert optimized + "" == optimized;
  }

  /** `intelligentContentReduction`: parse, rank, then pack. */
  method IntelligentContentReduction(content: string) returns (optimized: string)
    ensures optimized == ReducedContent(content)
  {
    var sections := ParseContentSections(content);
    var ranked := PrioritizeSections(sections);
    optimized := PackSections(ranked, CreateSectionSummary);
  }

  datatype Metadata = Metadata(tokenCount: nat, kind: string, timestamp: Option<string>)

  /** One write to the session memory; the timestamp and the UUID are supplied by the caller. */
  datatype MemoryEntry = MemoryEntry(content: string, metadata: Metadata, timestamp: string, id: string)

  /** `list.slice(-n)` for a list longer than `n`, else the list itself. */
  function LastN<T>(s: seq<T>, n: nat): (r: seq<T>)
    ensures |r| <= n && |r| <= |s|
    ensures |s| <= n ==> r == s
    ensures r == s[|s| - |r|..]
  {
    if |s| > n then s[|s| - n..] else s
  }

  /**
   * Capping after every push keeps exactly what one cap at the end would:
   * the last `n` writes, in order.
   */
  lemma LastNAppend<T>(s: seq<T>, x: T, n: nat)
    requires n >= 1
    ensures LastN(LastN(s, n) + [x], n) == LastN(s + [x], n)
  {
    if |s| > n {
      assert (s + [x])[|s| + 1 - n..] == s[|s| - n..][1..] + [x];
    }
  }

  /** The session list after pushing each of `xs` and capping at `n` after each push. */
  function StoreAll<T>(s: seq<T>, xs: seq<T>, n: nat): seq<T>
    decreases |xs|
  {
    if xs == [] then s else StoreAll(LastN(s + [xs[0]], n), xs[1..], n)
  }

  lemma LastNConcat<T>(a: seq<T>, b: seq<T>, n: nat)
    ensures LastN(LastN(a, n) + b, n) == LastN(a + b, n)
  {
    if |a| > n {
      assert a + b == a[..|a| - n] + (a[|a| - n..] + b);
    }
  }

  /**
   * A session list of at most `n` entries, written `xs` one at a time,
   * holds the last `n` of the old entries followed by `xs`.
   */
  lemma {:induction false} StoreAllKeepsLast<T>(s: seq<T>, xs: seq<T>, n: nat)
    requires |s| <= n
    ensures StoreAll(s, xs, n) == LastN(s + xs, n)
    decreases |xs|
  {
    if xs == [] {
      assert s + xs == s;
    } else {
      StoreAllKeepsLast(LastN(s + [xs[0]], n), xs[1..], n);
      LastNConcat(s + [xs[0]], xs[1..], n);
      AppendHead(s, xs);
    }
  }

  /** The `Map` of session lists of the backend context manager. */
  class BackendContextManager {
    var memoryStore: map<string, seq<MemoryEntry>>

    /** Every session list holds at most five entries. */
    predicate Valid()
      reads this
    {
      forall session :: session in memoryStore ==> |memoryStore[session]| <= 5
    }

    constructor()
      ensures memoryStore == map[] && Valid()
    {
      memoryStore := map[];
    }

    function Entries(sessionId: string): seq<MemoryEntry>
      reads this
    {
      if sessionId in memoryStore then memoryStore[sessionId] else []
    }

    /** `storeInMemory`: push, then keep only the last five entries of the session. */
    method StoreInMemory(content: string, sessionId: string, metadata: Metadata, timestamp: string, id: string)
      requires Valid()
      modifies this
      ensures Valid()
      ensures memoryStore == old(memoryStore)[sessionId :=
        LastN(old(Entries(sessionId)) + [MemoryEntry(content, metadata, timestamp, id)], 5)]
    {
      var entries := Entries(sessionId);
      entries := entries + [MemoryEntry(content, metadata, timestamp, id)];
      ghost var pushed := entries;
      if |entries| > 5 {
        entries := entries[|entries| - 5..];
      }
      assert entries == LastN(pushed, 5);
      memoryStore := memoryStore[sessionId := entries];
    }

    /**
     * `retrieveFromMemory`: nothing for an unknown session; with a non-empty
     * type, exactly the entries of that type in stored order; otherwise all.
     */
    function RetrieveFromMemory(sessionId: string, kind: Option<string>): (r: seq<MemoryEntry>)
      reads this
      ensures sessionId !in memoryStore ==> r == []
      ensures (kind.None? || kind.value == "") ==> r == Entries(sessionId)
      ensures kind.Some? && kind.value != "" ==>
        forall e :: e in r <==> e in Entries(sessionId) && e.metadata.kind == kind.value
      ensures kind.Some? && kind.value != "" ==>
        r == Filter(Entries(sessionId), (e: MemoryEntry) => e.metadata.kind == kind.value)
    {
      if sessionId !in memoryStore then []
      else if kind.Some? && kind.value != "" then
        Filter(memoryStore[sessionId], (e: MemoryEntry) => e.metadata.kind == kind.value)
      else memoryStore[sessionId]
    }

    /**
     * `manageTokenLimit`: the content itself when its estimate is within
     * `MaxTokens`, else the reduced content; either way exactly one entry is
     * written for the session. `metadataTime` is the clock reading put in the
     * metadata of an over-budget write and `entryTime` the one
     * `storeInMemory` stamps on the entry; they are separate readings.
     */
    method ManageTokenLimit(content: string, sessionId: string, metadataTime: string, entryTime: string, id: string)
      returns (result: string)
      requires Valid()
      modifies this
      ensures Valid()
      ensures var tokens := EstimateTokens(content);
        && result == (if tokens <= MaxTokens then content else ReducedContent(content))
        && memoryStore == old(memoryStore)[sessionId := LastN(old(Entries(sessionId)) + [MemoryEntry(content,
             if tokens <= MaxTokens then Metadata(tokens, "full_content", None)
             else Metadata(tokens, "full_content_stored", Some(metadataTime)),
             entryTime, id)], 5)]
    {
      var tokenCount := EstimateTokens(content);
      if tokenCount <= MaxTokens {
        StoreInMemory(content, sessionId, Metadata(tokenCount, "full_content", None), entryTime, id);
        return content;
      }
      StoreInMemory(content, sessionId, Metadata(tokenCount, "full_content_stored", Some(metadataTime)), entryTime, id);
      result := IntelligentContentReduction(content);
    }
  }
}

=== FILE: file_upload.dfy ===
/**
 * The `FileUpload` component (src/components/FileUpload.jsx): which uploads
 * need OCR, the per-file and total size limits, and the split of the
 * uploaded files into regular and OCR documents that the parent form sends.
 */
module FileUpload {
  import opened Strings
  import opened Seqs
  import opened SeqFacts

  /** A browser `File`: its name, size in bytes and MIME type. */
  datatype File = File(name: string, size: nat, mimetype: string)

  /** An entry of the upload list; `id` is the random id the component draws. */
  datatype UploadedFile = UploadedFile(file: File, id: string, requiresOcr: bool)

  /** The `{ regular, ocr }` object handed to the parent. */
  datatype Documents = Documents(regular: seq<File>, ocr: seq<File>)

  const ImageTypes: seq<string> := ["image/jpeg", "image/jpg", "image/png", "image/gif", "image/webp"]
  const ScannedPdfIndicators: seq<string> := ["scan", "scanned", "image"]
  const PdfType: string := "application/pdf"

  const MaxFileSize: nat := 8 * 1024 * 1024
  const MaxTotalSize: nat := 15 * 1024 * 1024

  predicate NameIndicatesScan(name: string) {
    exists indicator :: indicator in ScannedPdfIndicators && Contains(Lower(name), indicator)
  }

  /**
   * `detectOCRRequirement`: every listed image type needs OCR; a PDF needs
   * it when its lower-cased name contains `scan` or `image` (`scanned`
   * adds nothing, as it contains `scan`); nothing else does.
   */
  function DetectOcrRequirement(f: File): (ocr: bool)
    ensures f.mimetype in ImageTypes ==> ocr
    ensures f.mimetype == PdfType ==> (ocr <==> Contains(Lower(f.name), "scan") || Contains(Lower(f.name), "image"))
    ensures f.mimetype !in ImageTypes && f.mimetype != PdfType ==> !ocr
  {
    if f.mimetype in ImageTypes then true
    else if f.mimetype == PdfType then
      IndicatorsReduce(f.name);
      NameIndicatesScan(f.name)
    else false
  }

  /** `scanned` contains `scan`, so only two of the three indicators matter. */
  lemma IndicatorsReduce(name: string)
    ensures NameIndicatesScan(name) <==> Contains(Lower(name), "scan") || Contains(Lower(name), "image")
  {
    var lower := Lower(name);
    if Contains(lower, "scanned") {
      ContainsPrefix(lower, "scanned", "scan");
    }
    assert Contains(lower, "scan") ==> "scan" in ScannedPdfIndicators;
    assert Contains(lower, "image") ==> "image" in ScannedPdfIndicators;
  }

  /** `fileArray.reduce((sum, f) => sum + f.size, 0)`. */
  function SizeOf(files: seq<File>): nat {
    if files == [] then 0 else files[0].size + SizeOf(files[1..])
  }

  /** The total size of the upload list. */
  function TotalSize(entries: seq<UploadedFile>): nat {
    if entries == [] then 0 else entries[0].file.size + TotalSize(entries[1..])
  }

  lemma {:induction false} TotalSizeAppend(a: seq<UploadedFile>, b: seq<UploadedFile>)
    ensures TotalSize(a + b) == TotalSize(a) + TotalSize(b)
  {
    if a == [] {
      assert a + b == b;
    } else {
      assert (a + b)[1..] == a[1..] + b;
      TotalSizeAppend(a[1..], b);
    }
  }

  /** Removing entries never grows the total. */
  lemma {:induction false} FilterTotalSize(entries: seq<UploadedFile>, keep: UploadedFile -> bool)
    ensures TotalSize(Filter(entries, keep)) <= TotalSize(entries)
  {
    if entries != [] {
      FilterTotalSize(entries[1..], keep);
    }
  }

  predicate Oversized(f: File) {
    f.size > MaxFileSize
  }

  /** `files.map(f => f.name)`. */
  function Names(files: seq<File>): (names: seq<string>)
    ensures |names| == |files|
    ensures forall i :: 0 <= i < |files| ==> names[i] == files[i].name
  {
    if files == [] then [] else [files[0].name] + Names(files[1..])
  }

  function TooLargeAlert(files: seq<File>): string {
    "Files too large: " + Join(Names(Filter(files, Oversized)), ", ") + ". Maximum 8MB per file."
  }

  const TotalTooLargeAlert: string :=
    "Total file size would exceed 15MB limit. Please upload fewer or smaller files."

  /** The entries made for a batch: each file with its id and its OCR flag. */
  function Process(files: seq<File>, ids: seq<string>): (entries: seq<UploadedFile>)
    requires |ids| == |files|
    ensures |entries| == |files|
    ensures forall i :: 0 <= i < |files| ==>
      entries[i] == UploadedFile(files[i], ids[i], DetectOcrRequirement(files[i]))
    ensures TotalSize(entries) == SizeOf(files)
  {
    if files == [] then []
    else [UploadedFile(files[0], ids[0], DetectOcrRequirement(files[0]))] + Process(files[1..], ids[1..])
  }

  /** `entries.map(f => f.file)`. */
  function FilesOf(entries: seq<UploadedFile>): (files: seq<File>)
    ensures |files| == |entries|
    ensures forall i :: 0 <= i < |entries| ==> files[i] == entries[i].file
  {
    if entries == [] then [] else [entries[0].file] + FilesOf(entries[1..])
  }

  predicate NeedsOcr(u: UploadedFile) {
    u.requiresOcr
  }

  predicate IsRegular(u: UploadedFile) {
    !u.requiresOcr
  }

  /** The regular and OCR documents of an upload list. */
  function Partition(entries: seq<UploadedFile>): Documents {
    Documents(FilesOf(Filter(entries, IsRegular)), FilesOf(Filter(entries, NeedsOcr)))
  }

  lemma FilesOfAppend(a: seq<UploadedFile>, b: seq<UploadedFile>)
    ensures FilesOf(a + b) == FilesOf(a) + FilesOf(b)
  {
  }

  /** Each list keeps the upload order: partitioning commutes with appending. */
  lemma PartitionAppend(a: seq<UploadedFile>, b: seq<UploadedFile>)
    ensures Partition(a + b).regular == Partition(a).regular + Partition(b).regular
    ensures Partition(a + b).ocr == Partition(a).ocr + Partition(b).ocr
  {
    FilterAppend(a, b, IsRegular);
    FilterAppend(a, b, NeedsOcr);
    FilesOfAppend(Filter(a, IsRegular), Filter(b, IsRegular));
    FilesOfAppend(Filter(a, NeedsOcr), Filter(b, NeedsOcr));
  }

  /**
   * Together the two lists hold every uploaded file exactly once; a file
   * sits in the OCR list when its entry requires OCR and in the regular list
   * otherwise.
   */
  lemma PartitionCovers(entries: seq<UploadedFile>)
    ensures multiset(Partition(entries).regular) + multiset(Partition(entries).ocr) == multiset(FilesOf(entries))
    ensures forall u :: u in entries && u.requiresOcr ==> u.file in Partition(entries).ocr
    ensures forall u :: u in entries && !u.requiresOcr ==> u.file in Partition(entries).regular
  {
    FilesOfCount(entries);
    forall u | u in entries
      ensures u.requiresOcr ==> u.file in Partition(entries).ocr
      ensures !u.requiresOcr ==> u.file in Partition(entries).regular
    {
      if u.requiresOcr {
        FileOfMember(Filter(entries, NeedsOcr), u);
      } else {
        FileOfMember(Filter(entries, IsRegular), u);
      }
    }
  }

  lemma FileOfMember(entries: seq<UploadedFile>, u: UploadedFile)
    requires u in entries
    ensures u.file in FilesOf(entries)
  {
    var i :| 0 <= i < |entries| && entries[i] == u;
    assert FilesOf(entries)[i] == u.file;
  }

  lemma {:induction false} FilesOfCount(entries: seq<UploadedFile>)
    ensures multiset(FilesOf(Filter(entries, IsRegular))) + multiset(FilesOf(Filter(entries, NeedsOcr)))
      == multiset(FilesOf(entries))
  {
    if entries != [] {
      var e, rest := entries[0], entries[1..];
      var g, o := Filter(rest, IsRegular), Filter(rest, NeedsOcr);
      FilesOfCount(rest);
      if e.requiresOcr {
        FilesOfCons(e, o);
        MultisetAddRight(FilesOf(g), FilesOf(o), FilesOf(rest), e.file);
      } else {
        FilesOfCons(e, g);
        MultisetAddLeft(FilesOf(g), FilesOf(o), FilesOf(rest), e.file);
      }
    }
  }

  lemma FilesOfCons(e: UploadedFile, rest: seq<UploadedFile>)
    ensures FilesOf([e] + rest) == [e.file] + FilesOf(rest)
  {
    assert ([e] + rest)[1..] == rest;
  }

  /** The upload list's entries other than those with `id`. */
  function WithoutId(entries: seq<UploadedFile>, id: string): (r: seq<UploadedFile>)
    ensures forall u :: u in r <==> u in entries && u.id != id
    ensures TotalSize(r) <= TotalSize(entries)
  {
    FilterTotalSize(entries, (u: UploadedFile) => u.id != id);
    Filter(entries, (u: UploadedFile) => u.id != id)
  }

  /**
   * The component's state: the upload list and the documents it last handed
   * to the parent.
   */
  class FileUploadState {
    var uploadedFiles: seq<UploadedFile>
    var documents: Documents

    /**
     * The documents are the partition of the list, no file is over 8 MB and
     * the list is within 15 MB.
     */
    predicate Valid()
      reads this
    {
      documents == Partition(uploadedFiles)
      && (forall u :: u in uploadedFiles ==> u.file.size <= MaxFileSize)
      && TotalSize(uploadedFiles) <= MaxTotalSize
    }

    constructor()
      ensures uploadedFiles == [] && documents == Documents([], [])
      ensures Valid()
    {
      uploadedFiles := [];
      documents := Documents([], []);
    }

    /**
     * `handleFileSelection`: a batch with an oversized file, or one that
     * would take the total over 15 MB, is refused with an alert and changes
     * nothing; otherwise its entries are appended in order and the documents
     * recomputed from the whole list.
     */
    method HandleFileSelection(files: seq<File>, ids: seq<string>) returns (alert: Option<string>)
      requires |ids| == |files|
      requires Valid()
      modifies this
      ensures Valid()
      ensures Filter(files, Oversized) != [] ==>
        alert == Some(TooLargeAlert(files)) && unchanged(this)
      ensures Filter(files, Oversized) == [] && TotalSize(old(uploadedFiles)) + SizeOf(files) > MaxTotalSize ==>
        alert == Some(TotalTooLargeAlert) && unchanged(this)
      ensures Filter(files, Oversized) == [] && TotalSize(old(uploadedFiles)) + SizeOf(files) <= MaxTotalSize ==>
        alert == None && uploadedFiles == old(uploadedFiles) + Process(files, ids)
    {
      var oversizedFiles := Filter(files, Oversized);
      if |oversizedFiles| > 0 {
        return Some(TooLargeAlert(files));
      }
      var currentSize := TotalSize(uploadedFiles);
      var newSize := SizeOf(files);
      if currentSize + newSize > MaxTotalSize {
        return Some(TotalTooLargeAlert);
      }
      var processedFiles := Process(files, ids);
      var allFiles := uploadedFiles + processedFiles;
      TotalSizeAppend(uploadedFiles, processedFiles);
      forall u | u in processedFiles
        ensures u.file.size <= MaxFileSize
      {
        var i :| 0 <= i < |processedFiles| && processedFiles[i] == u;
        assert files[i] in files;
        assert files[i] !in oversizedFiles;
      }
      uploadedFiles := allFiles;
      documents := Partition(allFiles);
      alert := None;
    }

    /** `removeFile`: drops the entries with `id` and recomputes the documents. */
    method RemoveFile(id: string)
      requires Valid()
      modifies this
      ensures Valid()
      ensures uploadedFiles == WithoutId(old(uploadedFiles), id)
    {
      var updatedFiles := WithoutId(uploadedFiles, id);
      uploadedFiles := updatedFiles;
      documents := Partition(updatedFiles);
    }
  }
}

=== FILE: key_phrases.dfy ===
/**
 * `extractKeyPhrases` of the backend context manager: the lower-cased words
 * of at least four word characters, counted in a frequency object, and the
 * ten most frequent of them.
 */
module Phrases {
  import opened Strings
  import opened Seqs

  /** Number of leading word characters of `s`. */
  function WordPrefix(s: string): (n: nat)
    ensures n <= |s|
    ensures forall i :: 0 <= i < n ==> IsWordChar(s[i])
    ensures n < |s| ==> !IsWordChar(s[n])
  {
    if s == [] || !IsWordChar(s[0]) then 0 else 1 + WordPrefix(s[1..])
  }

  predicate IsWord(w: string) {
    w != [] && forall i :: 0 <= i < |w| ==> IsWordChar(w[i])
  }

  /** The maximal runs of word characters of `s`, left to right. */
  function WordRuns(s: string): (ws: seq<string>)
    ensures forall w :: w in ws ==> IsWord(w) && Contains(s, w)
    decreases |s|
  {
    if s == [] then []
    else if !IsWordChar(s[0]) then
      var rest := WordRuns(s[1..]);
      ContainsAfter(s, 1, rest);
      rest
    else
      var n := WordPrefix(s);
      var rest := WordRuns(s[n..]);
      ContainsAfter(s, n, rest);
      assert StartsWith(s[0..], s[..n]);
      [s[..n]] + rest
  }

  /** Whatever occurs in a suffix of `s` occurs in `s`. */
  lemma ContainsAfter(s: string, n: nat, ws: seq<string>)
    requires n <= |s|
    requires forall w :: w in ws ==> Contains(s[n..], w)
    ensures forall w :: w in ws ==> Contains(s, w)
  {
    forall w | w in ws ensures Contains(s, w) {
      var i :| 0 <= i <= |s[n..]| - |w| && StartsWith(s[n..][i..], w);
      assert s[n..][i..] == s[n + i..];
    }
  }

  predicate LongEnough(w: string) {
    |w| >= 4
  }

  /**
   * `content.toLowerCase().match(/\b\w{4,}\b/g) || []`: a match starts only
   * where a run of word characters starts and greedily takes the whole run,
   * so the matches are the maximal runs of length four or more.
   */
  function Words(content: string): (ws: seq<string>)
    ensures forall w :: w in ws ==> IsWord(w) && |w| >= 4 && Contains(Lower(content), w)
  {
    Filter(WordRuns(Lower(content)), LongEnough)
  }

  /** The frequency object after the `forEach` has visited all of `ws`. */
  function Frequencies(ws: seq<string>): (freq: map<string, nat>)
  {
    if ws == [] then map[]
    else
      var f := Frequencies(ws[..|ws| - 1]);
      var w := ws[|ws| - 1];
      f[w := (if w in f then f[w] else 0) + 1]
  }

  /** The frequency object counts every word of `ws` and nothing else. */
  lemma {:induction false} FrequenciesCount(ws: seq<string>)
    ensures forall w :: w in Frequencies(ws) <==> w in ws
    ensures forall w :: w in Frequencies(ws) ==> Frequencies(ws)[w] == multiset(ws)[w]
  {
    if ws != [] {
      var w := ws[|ws| - 1];
      FrequenciesCount(ws[..|ws| - 1]);
      assert ws == ws[..|ws| - 1] + [w];
    }
  }

  /** The keys of the frequency object in the order they were first added. */
  function FirstOccurrences(ws: seq<string>): (keys: seq<string>)
  {
    if ws == [] then []
    else
      var d := FirstOccurrences(ws[..|ws| - 1]);
      var w := ws[|ws| - 1];
      if w in d then d else d + [w]
  }

  /** The insertion order lists exactly the words of `ws`. */
  lemma {:induction false} FirstOccurrencesMembers(ws: seq<string>)
    ensures forall w :: w in FirstOccurrences(ws) <==> w in ws
  {
    if ws != [] {
      var w := ws[|ws| - 1];
      FirstOccurrencesMembers(ws[..|ws| - 1]);
      assert ws == ws[..|ws| - 1] + [w];
    }
  }

  /** A key is added only when it is not there yet, so none repeats. */
  lemma {:induction false} FirstOccurrencesDistinct(ws: seq<string>)
    ensures NoDuplicates(FirstOccurrences(ws))
  {
    if ws != [] {
      var d := FirstOccurrences(ws[..|ws| - 1]);
      var w := ws[|ws| - 1];
      FirstOccurrencesDistinct(ws[..|ws| - 1]);
      if w !in d {
        SnocNoDuplicates(d, w);
      }
    }
  }

  predicate IsDigit(c: char) {
    '0' <= c <= '9'
  }

  predicate AllDigits(w: string) {
    forall i :: 0 <= i < |w| ==> IsDigit(w[i])
  }

  /** The number a string of decimal digits denotes. */
  function DigitsValue(w: string): int
    requires AllDigits(w)
  {
    if w == [] then 0 else 10 * DigitsValue(w[..|w| - 1]) + (w[|w| - 1] as int - '0' as int)
  }

  /** A property name that JavaScript treats as an array index. */
  predicate IsArrayIndex(w: string) {
    w != []
    && AllDigits(w)
    && (|w| == 1 || w[0] != '0')
    && DigitsValue(w) < 0xFFFF_FFFF
  }

  predicate NotArrayIndex(w: string) {
    !IsArrayIndex(w)
  }

  function InsertByValue(k: string, sorted: seq<string>): (r: seq<string>)
    requires IsArrayIndex(k) && forall x :: x in sorted ==> IsArrayIndex(x)
    ensures multiset(r) == multiset(sorted) + multiset{k}
    ensures forall x :: x in r <==> x in sorted || x == k
  {
    if sorted == [] then [k]
    else if (assert sorted[0] in sorted && IsArrayIndex(sorted[0]) && AllDigits(sorted[0]); DigitsValue(k) <= DigitsValue(sorted[0])) then [k] + sorted
    else
      assert sorted == [sorted[0]] + sorted[1..];
      [sorted[0]] + InsertByValue(k, sorted[1..])
  }

  function SortByValue(keys: seq<string>): (r: seq<string>)
    requires forall x :: x in keys ==> IsArrayIndex(x)
    ensures multiset(r) == multiset(keys)
    ensures forall x :: x in r <==> x in keys
  {
    if keys == [] then []
    else
      assert keys == [keys[0]] + keys[1..];
      InsertByValue(keys[0], SortByValue(keys[1..]))
  }

  /**
   * `Object.keys(frequency)`: array-index names first in ascending numeric
   * order, then the other names in insertion order.
   */
  function ObjectKeys(keys: seq<string>): (r: seq<string>)
    ensures multiset(r) == multiset(keys)
    ensures forall x :: x in r <==> x in keys
  {
    FilterPartition(keys, IsArrayIndex, NotArrayIndex);
    SortByValue(Filter(keys, IsArrayIndex)) + Filter(keys, NotArrayIndex)
  }

  predicate ByCount(s: seq<string>, freq: map<string, nat>)
    requires forall x :: x in s ==> x in freq
  {
    forall i, j :: 0 <= i < j < |s| ==> freq[s[i]] >= freq[s[j]]
  }

  /** Inserts `k` before the first key whose count does not exceed its own. */
  function InsertByCount(k: string, sorted: seq<string>, freq: map<string, nat>): (r: seq<string>)
    requires k in freq && forall x :: x in sorted ==> x in freq
    ensures multiset(r) == multiset(sorted) + multiset{k}
    ensures forall x :: x in r <==> x in sorted || x == k
  {
    if sorted == [] || freq[sorted[0]] <= freq[k] then [k] + sorted
    else
      assert sorted == [sorted[0]] + sorted[1..];
      [sorted[0]] + InsertByCount(k, sorted[1..], freq)
  }

  /**
   * `sort((a, b) => frequency[b] - frequency[a])`; the sort is stable, so this
   * is the stable sort by descending count, computed by insertion.
   */
  function SortByCount(keys: seq<string>, freq: map<string, nat>): (r: seq<string>)
    requires forall x :: x in keys ==> x in freq
    ensures multiset(r) == multiset(keys)
    ensures forall x :: x in r <==> x in keys
  {
    if keys == [] then []
    else
      assert keys == [keys[0]] + keys[1..];
      InsertByCount(keys[0], SortByCount(keys[1..], freq), freq)
  }

  lemma {:induction false} InsertByCountSorted(k: string, s: seq<string>, freq: map<string, nat>)
    requires k in freq && forall x :: x in s ==> x in freq
    requires ByCount(s, freq)
    ensures ByCount(InsertByCount(k, s, freq), freq)
  {
    if s != [] && freq[s[0]] > freq[k] {
      InsertByCountSorted(k, s[1..], freq);
      var tail := InsertByCount(k, s[1..], freq);
      forall j | 0 <= j < |tail| ensures freq[tail[j]] <= freq[s[0]] {
        assert tail[j] in multiset(tail);
        if tail[j] != k {
          assert tail[j] in multiset(s[1..]);
          var m :| 0 <= m < |s[1..]| && s[1..][m] == tail[j];
          assert s[m + 1] == tail[j];
        }
      }
    }
  }

  lemma {:induction false} SortByCountSorted(keys: seq<string>, freq: map<string, nat>)
    requires forall x :: x in keys ==> x in freq
    ensures ByCount(SortByCount(keys, freq), freq)
  {
    if keys != [] {
      SortByCountSorted(keys[1..], freq);
      InsertByCountSorted(keys[0], SortByCount(keys[1..], freq), freq);
    }
  }

  /**
   * The keys of the frequency object of `ws`, sorted by descending count:
   * each word of `ws` exactly once, ordered by non-increasing number of
   * occurrences.
   */
  function RankedWords(ws: seq<string>): (r: seq<string>)
    ensures NoDuplicates(r)
    ensures forall w :: w in r <==> w in ws
    ensures forall i, j :: 0 <= i < j < |r| ==> multiset(ws)[r[i]] >= multiset(ws)[r[j]]
  {
    var freq := Frequencies(ws);
    var first := FirstOccurrences(ws);
    FrequenciesCount(ws);
    FirstOccurrencesMembers(ws);
    var r := SortByCount(ObjectKeys(first), freq);
    FirstOccurrencesDistinct(ws);
    PermutationNoDuplicates(first, r);
    SortByCountSorted(ObjectKeys(first), freq);
    CountsDescend(r, ws);
    r
  }

  /** Sorted by the frequency object of `ws` means sorted by occurrences in `ws`. */
  lemma CountsDescend(r: seq<string>, ws: seq<string>)
    requires forall x :: x in r ==> x in Frequencies(ws)
    requires ByCount(r, Frequencies(ws))
    ensures forall i, j :: 0 <= i < j < |r| ==> multiset(ws)[r[i]] >= multiset(ws)[r[j]]
  {
    var freq := Frequencies(ws);
    FrequenciesCount(ws);
    forall i, j | 0 <= i < j < |r| ensures multiset(ws)[r[i]] >= multiset(ws)[r[j]] {
      assert r[i] in freq && r[j] in freq;
    }
  }

  /** What `extractKeyPhrases(content)` returns. */
  function KeyPhrases(content: string): seq<string> {
    Take(RankedWords(Words(content)), 10)
  }

  /**
   * At most ten phrases, pairwise distinct, each a lower-cased word of four
   * or more word characters occurring in the content, in non-increasing
   * order of frequency.
   */
  lemma KeyPhrasesAreFrequentWords(content: string)
    ensures var r := KeyPhrases(content); var ws := Words(content);
      && |r| <= 10
      && NoDuplicates(r)
      && (forall w :: w in r ==> w in ws && IsWord(w) && |w| >= 4 && Contains(Lower(content), w))
      && (forall i, j :: 0 <= i < j < |r| ==> multiset(ws)[r[i]] >= multiset(ws)[r[j]])
  {
    var ranked := RankedWords(Words(content));
    var r := Take(ranked, 10);
    assert forall i :: 0 <= i < |r| ==> r[i] == ranked[i];
  }

  /**
   * A word that is left out occurs no more often than any phrase returned,
   * and words are left out only when ten phrases were returned.
   */
  lemma KeyPhrasesAreTop(content: string, w: string)
    requires w in Words(content) && w !in KeyPhrases(content)
    ensures |KeyPhrases(content)| == 10
    ensures forall i :: 0 <= i < |KeyPhrases(content)| ==>
      multiset(Words(content))[w] <= multiset(Words(content))[KeyPhrases(content)[i]]
  {
    var ws := Words(content);
    LeftOutIsLower(RankedWords(ws), ws, w, 10);
  }

  /**
   * In a list ordered by non-increasing count, a word past the first `n`
   * occurs no more often than any of the first `n`.
   */
  lemma LeftOutIsLower(ranked: seq<string>, ws: seq<string>, w: string, n: nat)
    requires forall i, j :: 0 <= i < j < |ranked| ==> multiset(ws)[ranked[i]] >= multiset(ws)[ranked[j]]
    requires w in ranked && w !in Take(ranked, n)
    ensures |Take(ranked, n)| == n
    ensures forall i :: 0 <= i < |Take(ranked, n)| ==> multiset(ws)[w] <= multiset(ws)[Take(ranked, n)[i]]
  {
    var r := Take(ranked, n);
    var m :| 0 <= m < |ranked| && ranked[m] == w;
    assert m >= |r|;
    assert forall i :: 0 <= i < |r| ==> r[i] == ranked[i];
  }

  lemma VisitStep(ws: seq<string>, i: nat)
    requires i < |ws|
    ensures var f := Frequencies(ws[..i]);
      Frequencies(ws[..i + 1]) == f[ws[i] := (if ws[i] in f then f[ws[i]] else 0) + 1]
    ensures var d := FirstOccurrences(ws[..i]);
      FirstOccurrences(ws[..i + 1]) == if ws[i] in d then d else d + [ws[i]]
  {
    assert ws[..i + 1][..i] == ws[..i];
  }

  /** The frequency object and the insertion order hold the same words. */
  lemma SameKeys(ws: seq<string>, w: string)
    ensures w in Frequencies(ws) <==> w in FirstOccurrences(ws)
  {
    FrequenciesCount(ws);
    FirstOccurrencesMembers(ws);
  }

  lemma TablesGiveKeyPhrases(content: string, freq: map<string, nat>, keys: seq<string>)
    requires freq == Frequencies(Words(content)) && keys == FirstOccurrences(Words(content))
    ensures forall x :: x in ObjectKeys(keys) ==> x in freq
    ensures Take(SortByCount(ObjectKeys(keys), freq), 10) == KeyPhrases(content)
  {
    FrequenciesCount(Words(content));
    FirstOccurrencesMembers(Words(content));
  }

  /**
   * The `forEach` over the words: `freq` and `keys` are the frequency object
   * and its insertion order after each word.
   */
  method CountWords(ws: seq<string>) returns (freq: map<string, nat>, keys: seq<string>)
    ensures freq == Frequencies(ws) && keys == FirstOccurrences(ws)
  {
    freq := map[];
    keys := [];
    var i := 0;
    while i < |ws|
      invariant 0 <= i <= |ws|
      invariant freq == Frequencies(ws[..i])
      invariant keys == FirstOccurrences(ws[..i])
    {
      var w := ws[i];
      VisitStep(ws, i);
      SameKeys(ws[..i], w);
      if w in freq {
        freq := freq[w := freq[w] + 1];
      } else {
        freq := freq[w := 1];
        keys := keys + [w];
      }
      i := i + 1;
    }
    assert ws[..|ws|] == ws;
  }

  /** `extractKeyPhrases`: count the words, then sort the keys and keep ten. */
  method ExtractKeyPhrases(content: string) returns (phrases: seq<string>)
    ensures phrases == KeyPhrases(content)
  {
    var freq, keys := CountWords(Words(content));
    TablesGiveKeyPhrases(content, freq, keys);
    phrases := Take(SortByCount(ObjectKeys(keys), freq), 10);
  }
}

=== FILE: linkedin.dfy ===
/**
 * `getLinkedInProfile` of both servers (api/index.js and backend/index.js):
 * the profile URL normalisation, the ordered fallback over fetch approaches,
 * and the mapping of a failed fetch to the error the caller sees.
 */
module LinkedIn {
  import opened Strings
  import opened Seqs
  import opened SeqFacts

  const ProfileBase: string := "https://www.linkedin.com/in/"

  predicate HasScheme(url: string) {
    StartsWith(url, "http://") || StartsWith(url, "https://")
  }

  /**
   * `url.replace(/^(https?:\/\/)?(www\.)?linkedin\.com\/(in\/)?/, "")`: the
   * optional scheme, `www.`, `linkedin.com/` and `in/` are removed when the
   * text starts with them, and nothing is removed when `linkedin.com/` is
   * missing. The match is case-sensitive.
   */
  function StripProfilePrefix(url: string): (r: string)
    ensures |r| <= |url| && r == url[|url| - |r|..]
    ensures !Contains(url, "linkedin.com/") ==> r == url
  {
    var b := DropWww(DropScheme(url));
    if StartsWith(b, "linkedin.com/") then
      var c := b[13..];
      assert url[|url| - |b|..][..13] == "linkedin.com/";
      if StartsWith(c, "in/") then c[3..] else c
    else url
  }

  /** The optional `https?://` group. */
  function DropScheme(url: string): (a: string)
    ensures |a| <= |url| && a == url[|url| - |a|..]
  {
    if StartsWith(url, "https://") then url[8..]
    else if StartsWith(url, "http://") then url[7..]
    else url
  }

  /** The optional `www.` group. */
  function DropWww(a: string): (b: string)
    ensures |b| <= |a| && b == a[|a| - |b|..]
  {
    if StartsWith(a, "www.") then a[4..] else a
  }

  /**
   * Every prefix form the pattern accepts is removed: any of no scheme,
   * `http://` or `https://`, then optionally `www.`, then `linkedin.com/`
   * and an optional `in/`.
   */
  lemma {:induction false} StripProfilePrefixForms(scheme: string, www: string, handle: string)
    requires scheme == "" || scheme == "http://" || scheme == "https://"
    requires www == "" || www == "www."
    ensures StripProfilePrefix(scheme + www + "linkedin.com/" + "in/" + handle) == handle
    ensures !StartsWith(handle, "in/") ==> StripProfilePrefix(scheme + www + "linkedin.com/" + handle) == handle
  {
    StripForm(scheme, www, "in/" + handle);
    AppendAssoc(scheme + www + "linkedin.com/", "in/", handle);
    assert ("in/" + handle)[..3] == "in/";
    assert ("in/" + handle)[3..] == handle;
    StripForm(scheme, www, handle);
  }

  /** The scheme, `www.` and `linkedin.com/` are peeled off in turn, leaving `rest`. */
  lemma StripForm(scheme: string, www: string, rest: string)
    requires scheme == "" || scheme == "http://" || scheme == "https://"
    requires www == "" || www == "www."
    ensures StripProfilePrefix(scheme + www + "linkedin.com/" + rest)
      == if StartsWith(rest, "in/") then rest[3..] else rest
  {
    var b := "linkedin.com/" + rest;
    var a := www + b;
    AppendAssoc(scheme + www, "linkedin.com/", rest);
    AppendAssoc(scheme, www, b);
    HostPrefix(rest);
    assert a[0] == 'w' || a[0] == 'l';
    DropSchemeOf(scheme, a);
    DropWwwOf(www, b);
  }

  lemma HostPrefix(rest: string)
    ensures var b := "linkedin.com/" + rest;
      b[0] == 'l' && StartsWith(b, "linkedin.com/") && b[13..] == rest
  {
    var b := "linkedin.com/" + rest;
    assert b[..13] == "linkedin.com/";
  }

  /** Text that does not start with `h` has no scheme. */
  lemma NoSchemeUnlessH(u: string)
    requires u != [] && u[0] != 'h'
    ensures !StartsWith(u, "http://") && !StartsWith(u, "https://")
  {
    if |u| >= 7 {
      assert u[..7][0] == u[0];
    }
    if |u| >= 8 {
      assert u[..8][0] == u[0];
    }
  }

  lemma DropSchemeOf(scheme: string, a: string)
    requires scheme == "" || scheme == "http://" || scheme == "https://"
    requires a != [] && a[0] != 'h'
    ensures DropScheme(scheme + a) == a
  {
    var url := scheme + a;
    if scheme == "https://" {
      assert url[..8] == "https://" && url[8..] == a;
    } else if scheme == "http://" {
      assert url[4] != 's';
      assert url[..7] == "http://" && url[7..] == a;
    } else {
      assert url == a;
      NoSchemeUnlessH(a);
    }
  }

  lemma DropWwwOf(www: string, b: string)
    requires www == "" || www == "www."
    requires b != [] && b[0] == 'l'
    ensures DropWww(www + b) == b
  {
    var a := www + b;
    if www == "www." {
      assert a[..4] == "www." && a[4..] == b;
    } else {
      assert a == b;
    }
  }

  /**
   * The normalised profile URL: none for an empty URL, the URL itself when
   * it has an `http://` or `https://` scheme, else the profile base followed
   * by the URL with its LinkedIn prefix removed.
   */
  function NormalizeLinkedInUrl(url: string): (r: Option<string>)
    ensures url == "" <==> r.None?
    ensures url != "" && HasScheme(url) ==> r == Some(url)
    ensures url != "" && !HasScheme(url) ==> r == Some(ProfileBase + StripProfilePrefix(url))
    ensures r.Some? ==> HasScheme(r.value)
  {
    if url == "" then None
    else if HasScheme(url) then Some(url)
    else
      BaseHasScheme(StripProfilePrefix(url));
      Some(ProfileBase + StripProfilePrefix(url))
  }

  lemma BaseHasScheme(path: string)
    ensures HasScheme(ProfileBase + path)
  {
    assert (ProfileBase + path)[..8] == "https://";
  }

  /** Normalising a normalised URL changes nothing. */
  lemma NormalizeIdempotent(url: string)
    requires url != ""
    ensures NormalizeLinkedInUrl(NormalizeLinkedInUrl(url).value) == NormalizeLinkedInUrl(url)
  {
  }

  /**
   * A profile path keeps its text: a bare handle, or one after
   * `linkedin.com/in/`, ends up right after the profile base.
   */
  lemma NormalizeKeepsHandle(handle: string)
    requires handle != [] && !HasScheme(handle) && !Contains(handle, "linkedin.com/")
    ensures NormalizeLinkedInUrl(handle) == Some(ProfileBase + handle)
    ensures NormalizeLinkedInUrl("linkedin.com/" + "in/" + handle) == Some(ProfileBase + handle)
  {
    var u := "linkedin.com/" + "in/" + handle;
    StripProfilePrefixForms("", "", handle);
    assert "" + "" + "linkedin.com/" == "linkedin.com/";
    assert u[0] == 'l';
    NoSchemeUnlessH(u);
  }

  /** What a profile fetch yields; `error` is `""` when the field is absent. */
  datatype Profile = Profile(error: string, linkedinUrl: Option<string>, data: string)

  /** The outcome of one fetch approach. */
  datatype Attempt = Threw | Returned(result: Option<Profile>)

  /** `result && !result.error`. */
  predicate Succeeded(a: Attempt) {
    a.Returned? && a.result.Some? && a.result.value.error == ""
  }

  const AllApproachesFailed: string :=
    "Unable to fetch LinkedIn profile data. Please ensure the URL is accessible and try again."

  /**
   * The result of the approach loop: the first successful approach's
   * profile, else the fixed failure profile carrying the URL.
   */
  function FirstSuccess(attempts: seq<Attempt>, url: string): (p: Profile)
    ensures p.error == "" <==> exists i :: 0 <= i < |attempts| && Succeeded(attempts[i])
    ensures (forall i :: 0 <= i < |attempts| ==> !Succeeded(attempts[i])) ==>
      p == Profile(AllApproachesFailed, Some(url), "")
    ensures forall k ::
      (0 <= k < |attempts| && Succeeded(attempts[k]) && forall j :: 0 <= j < k ==> !Succeeded(attempts[j]))
      ==> p == attempts[k].result.value
  {
    if attempts == [] then Profile(AllApproachesFailed, Some(url), "")
    else if Succeeded(attempts[0]) then attempts[0].result.value
    else
      var p := FirstSuccess(attempts[1..], url);
      assert forall i :: 0 <= i < |attempts[1..]| ==> attempts[1..][i] == attempts[i + 1];
      p
  }

  /**
   * The `for ... of approaches` loop: it stops at the first approach whose
   * result is truthy and error-free; `tried` is the number of approaches run.
   */
  method TryApproaches(attempts: seq<Attempt>, url: string) returns (profile: Profile, tried: nat)
    ensures profile == FirstSuccess(attempts, url)
    ensures tried <= |attempts|
    ensures forall j :: 0 <= j < tried - 1 ==> !Succeeded(attempts[j])
    ensures tried < |attempts| ==> tried > 0 && Succeeded(attempts[tried - 1])
    ensures tried > 0 && Succeeded(attempts[tried - 1]) ==> profile == attempts[tried - 1].result.value
  {
    var i := 0;
    while i < |attempts|
      invariant i <= |attempts|
      invariant forall j :: 0 <= j < i ==> !Succeeded(attempts[j])
    {
      var attempt := attempts[i];
      if attempt.Returned? && attempt.result.Some? && attempt.result.value.error == "" {
        assert Succeeded(attempts[i]);
        return attempt.result.value, i + 1;
      }
      i := i + 1;
    }
    assert i == |attempts|;
    return Profile(AllApproachesFailed, Some(url), ""), i;
  }

  const NotFound: string := "LinkedIn profile not found. Please check the URL and try again."
  const InvalidUrl: string := "Invalid LinkedIn URL. Please provide a complete LinkedIn profile URL."
  const FetchFailed: string := "Unable to fetch LinkedIn profile data. Please try again later."

  /**
   * The serverless API's catch block: 404 and 400 responses get their own
   * messages, any other failure (including one with no response) the
   * generic one.
   */
  function ApiProfileError(status: Option<int>): (message: string)
    ensures status == Some(404) <==> message == NotFound
    ensures status == Some(400) <==> message == InvalidUrl
    ensures status != Some(404) && status != Some(400) ==> message == FetchFailed
  {
    if status == Some(404) then NotFound
    else if status == Some(400) then InvalidUrl
    else FetchFailed
  }

  /**
   * The backend's outer catch block: as in the API for 404 and 400, else the
   * error's own message, with the URL attached.
   */
  function BackendProfileError(status: Option<int>, message: string, url: string): (p: Profile)
    ensures p.error != ""
    ensures status == Some(404) ==> p == Profile(NotFound, None, "")
    ensures status == Some(400) ==> p == Profile(InvalidUrl, None, "")
    ensures status != Some(404) && status != Some(400) ==> p.linkedinUrl == Some(url) && EndsWith(p.error, message)
  {
    if status == Some(404) then Profile(NotFound, None, "")
    else if status == Some(400) then Profile(InvalidUrl, None, "")
    else Profile("Unable to fetch LinkedIn profile data: " + message, Some(url), "")
  }
}

=== FILE: sections.dfy ===
/**
 * The section handling of the backend's `ContextManager`
 * (backend/index.js): splitting the memo context into sections,
 * classifying each one, looking up its priority, and ranking the sections
 * before they are packed.
 */
module Sections {
  import opened Strings
  import opened Seqs

  datatype SectionType =
    | ContactInfo
    | DealTerms
    | FounderInfo
    | DocumentContent
    | WebContent
    | GeneralContent

  /** The name the backend stores in `section.type`. */
  function TypeName(t: SectionType): string {
    match t
    case ContactInfo => "contact_info"
    case DealTerms => "deal_terms"
    case FounderInfo => "founder_info"
    case DocumentContent => "document_content"
    case WebContent => "web_content"
    case GeneralContent => "general_content"
  }

  /** `getSectionPriority`: the fixed priority table, 5 for any other name. */
  function SectionPriority(name: string): (p: int)
    ensures 5 <= p <= 10
  {
    if name == "deal_terms" then 10
    else if name == "founder_info" then 9
    else if name == "document_content" then 8
    else if name == "contact_info" then 7
    else if name == "web_content" then 6
    else 5
  }

  /** The table ranks deal terms highest and general content lowest; unknown names get 5. */
  lemma PriorityTable(name: string)
    ensures SectionPriority(TypeName(DealTerms)) == 10
    ensures SectionPriority(TypeName(FounderInfo)) == 9
    ensures SectionPriority(TypeName(DocumentContent)) == 8
    ensures SectionPriority(TypeName(ContactInfo)) == 7
    ensures SectionPriority(TypeName(WebContent)) == 6
    ensures SectionPriority(TypeName(GeneralContent)) == 5
    ensures (forall t :: name != TypeName(t)) ==> SectionPriority(name) == 5
  {
    if forall t :: name != TypeName(t) {
      assert name != TypeName(DealTerms) && name != TypeName(FounderInfo);
      assert name != TypeName(DocumentContent) && name != TypeName(ContactInfo);
      assert name != TypeName(WebContent);
    }
  }

  /** A keyword rule: the type to assign when the lower-cased text contains one of the keys. */
  datatype Rule = Rule(assigns: SectionType, keys: seq<string>)

  /** The rules of `identifySectionType`, in the order they are tried. */
  const Rules: seq<Rule> := [
    Rule(ContactInfo, ["email:"]),
    Rule(DealTerms, ["current deal terms", "funding round"]),
    Rule(FounderInfo, ["founder information", "linkedin"]),
    Rule(DocumentContent, ["extracted text", "document"]),
    Rule(WebContent, ["url", "website"])
  ]

  predicate Fires(r: Rule, lower: string) {
    exists k :: k in r.keys && Contains(lower, k)
  }

  /** Reference semantics of a rule list: the first rule (from index `i` on) that fires wins. */
  function FirstMatch(rules: seq<Rule>, i: nat, lower: string): (t: SectionType)
    ensures t == GeneralContent || exists j :: i <= j < |rules| && rules[j].assigns == t && Fires(rules[j], lower)
    ensures forall j :: i <= j < |rules| && Fires(rules[j], lower) ==> exists m :: i <= m <= j && rules[m].assigns == t
    decreases |rules| - i
  {
    if i >= |rules| then GeneralContent
    else if Fires(rules[i], lower) then rules[i].assigns
    else FirstMatch(rules, i + 1, lower)
  }

  lemma FiresOne(r: Rule, lower: string)
    requires |r.keys| == 1
    ensures Fires(r, lower) <==> Contains(lower, r.keys[0])
  {
    if Fires(r, lower) {
      var k :| k in r.keys && Contains(lower, k);
    }
  }

  lemma FiresTwo(r: Rule, lower: string)
    requires |r.keys| == 2
    ensures Fires(r, lower) <==> Contains(lower, r.keys[0]) || Contains(lower, r.keys[1])
  {
    if Fires(r, lower) {
      var k :| k in r.keys && Contains(lower, k);
    }
  }

  /** `identifySectionType`. */
  function IdentifySectionType(content: string): SectionType {
    var lower := Lower(content);
    if Contains(lower, "email:") then ContactInfo
    else if Contains(lower, "current deal terms") || Contains(lower, "funding round") then DealTerms
    else if Contains(lower, "founder information") || Contains(lower, "linkedin") then FounderInfo
    else if Contains(lower, "extracted text") || Contains(lower, "document") then DocumentContent
    else if Contains(lower, "url") || Contains(lower, "website") then WebContent
    else GeneralContent
  }

  /** The classifier is the first-match rule list applied to the lower-cased text. */
  lemma IdentifyIsFirstMatch(content: string)
    ensures IdentifySectionType(content) == FirstMatch(Rules, 0, Lower(content))
  {
    var lower := Lower(content);
    FiresOne(Rules[0], lower);
    FiresTwo(Rules[1], lower);
    FiresTwo(Rules[2], lower);
    FiresTwo(Rules[3], lower);
    FiresTwo(Rules[4], lower);
    assert FirstMatch(Rules, 5, lower) == GeneralContent;
  }

  /** Texts that agree up to ASCII case get the same type. */
  lemma IdentifyIgnoresCase(a: string, b: string)
    requires Lower(a) == Lower(b)
    ensures IdentifySectionType(a) == IdentifySectionType(b)
  {
  }

  /** A parsed section: trimmed content, its type, its priority and the untrimmed length. */
  datatype Section = Section(content: string, sectionType: SectionType, priority: int, length: nat)

  /** The headers before which `parseContentSections` starts a new section (matched ignoring case). */
  const Headers: seq<string> := ["Email:", "Current Deal Terms:", "Extracted Text", "Founder Information"]

  /** One of `Headers[k..]` starts at `q`, ignoring case. */
  predicate HeaderFrom(s: string, q: nat, k: nat)
    requires q <= |s|
    decreases |Headers| - k
  {
    k < |Headers| && (StartsWithIgnoreCase(s[q..], Headers[k]) || HeaderFrom(s, q, k + 1))
  }

  /** The look-ahead `(?=Email:|Current Deal Terms:|Extracted Text|Founder Information)/i` succeeds at `q`. */
  predicate HeaderAt(s: string, q: nat)
    requires q <= |s|
  {
    HeaderFrom(s, q, 0)
  }

  lemma {:induction false} HeaderFromSpec(s: string, q: nat, k: nat)
    requires q <= |s|
    ensures HeaderFrom(s, q, k) <==> exists i :: k <= i < |Headers| && StartsWithIgnoreCase(s[q..], Headers[i])
    decreases |Headers| - k
  {
    if k < |Headers| {
      HeaderFromSpec(s, q, k + 1);
      if !StartsWithIgnoreCase(s[q..], Headers[k]) {
        assert forall i :: k <= i < |Headers| && StartsWithIgnoreCase(s[q..], Headers[i]) ==> k + 1 <= i;
      }
    }
  }

  /** A header starts at `q` exactly when one of `Headers` prefixes the rest of `s`, ignoring case. */
  lemma HeaderAtSpec(s: string, q: nat)
    requires q <= |s|
    ensures HeaderAt(s, q) <==> exists h :: h in Headers && StartsWithIgnoreCase(s[q..], h)
  {
    HeaderFromSpec(s, q, 0);
    if exists h :: h in Headers && StartsWithIgnoreCase(s[q..], h) {
      var h :| h in Headers && StartsWithIgnoreCase(s[q..], h);
      var i :| 0 <= i < |Headers| && Headers[i] == h;
    }
  }

  /** `\n\n+` can start at `q`. */
  predicate BlankLineAt(s: string, q: nat) {
    q + 1 < |s| && s[q] == '\n' && s[q + 1] == '\n'
  }

  /** End of the run of newlines that starts at `q`. */
  function NewlineRunEnd(s: string, q: nat): (e: nat)
    requires q <= |s|
    ensures q <= e <= |s|
    ensures e == |s| || s[e] != '\n'
    decreases |s| - q
  {
    if q < |s| && s[q] == '\n' then NewlineRunEnd(s, q + 1) else q
  }

  predicate NoBlankLine(s: string) {
    forall j :: 0 <= j < |s| - 1 ==> !(s[j] == '\n' && s[j + 1] == '\n')
  }

  /**
   * JavaScript's `split` with the pattern
   * `/\n\n+|(?=Email:|Current Deal Terms:|Extracted Text|Founder Information)/i`:
   * the current piece starts at `p`, and a match is tried at `q`. A blank-line
   * run is consumed; a header only ends a non-empty piece.
   */
  function SplitFrom(s: string, p: nat, q: nat): (parts: seq<string>)
    requires p <= q <= |s|
    requires forall j :: p <= j < q ==> !BlankLineAt(s, j)
    ensures |parts| >= 1
    ensures forall part :: part in parts ==> NoBlankLine(part)
    decreases |s| - q, q - p
  {
    var piece := s[p..q];
    assert NoBlankLine(piece) by {
      forall j | 0 <= j < |piece| - 1 ensures !(piece[j] == '\n' && piece[j + 1] == '\n') {
        assert !BlankLineAt(s, p + j);
      }
    }
    if q == |s| then [piece]
    else if BlankLineAt(s, q) then
      var e := NewlineRunEnd(s, q);
      [piece] + SplitFrom(s, e, e)
    else if q > p && HeaderAt(s, q) then [piece] + SplitFrom(s, q, q)
    else SplitFrom(s, p, q + 1)
  }

  /** The raw parts of `parseContentSections`; none of them holds a blank line. */
  function SplitSections(s: string): (parts: seq<string>)
    ensures |parts| >= 1
    ensures forall part :: part in parts ==> NoBlankLine(part)
  {
    SplitFrom(s, 0, 0)
  }

  /**
   * The index in `s` at which each part of `SplitFrom(s, p, q)` starts,
   * following the same steps as the split.
   */
  function PartStarts(s: string, p: nat, q: nat): (starts: seq<nat>)
    requires p <= q <= |s|
    requires forall j :: p <= j < q ==> !BlankLineAt(s, j)
    ensures |starts| == |SplitFrom(s, p, q)| && starts[0] == p
    decreases |s| - q, q - p
  {
    if q == |s| then [p]
    else if BlankLineAt(s, q) then
      var e := NewlineRunEnd(s, q);
      [p] + PartStarts(s, e, e)
    else if q > p && HeaderAt(s, q) then [p] + PartStarts(s, q, q)
    else PartStarts(s, p, q + 1)
  }

  /**
   * A part of length `len` ending at `e` is followed by a part starting at
   * `next` exactly when the pattern matches at `e`: either a blank-line run,
   * consumed up to its last newline, or a header, which is kept and only
   * ends a non-empty part.
   */
  predicate CutAt(s: string, e: nat, next: nat, len: nat) {
    e < |s| && ((BlankLineAt(s, e) && next == NewlineRunEnd(s, e)) || (len > 0 && next == e && HeaderAt(s, e)))
  }

  /** No match of the pattern starts inside `s[a..b]`. */
  predicate NoCutWithin(s: string, a: nat, b: nat) {
    forall j :: a <= j < b ==> !BlankLineAt(s, j) && (a < j <= |s| ==> !HeaderAt(s, j))
  }

  /** Cutting at `q` and going on from `next` puts the piece `s[p..q]` in front. */
  lemma SplitFromCons(s: string, p: nat, q: nat, next: nat)
    requires p <= q < |s|
    requires forall j :: p <= j < q ==> !BlankLineAt(s, j)
    requires (BlankLineAt(s, q) && next == NewlineRunEnd(s, q)) || (!BlankLineAt(s, q) && q > p && HeaderAt(s, q) && next == q)
    ensures SplitFrom(s, p, q) == [s[p..q]] + SplitFrom(s, next, next)
    ensures PartStarts(s, p, q) == [p] + PartStarts(s, next, next)
  {
  }

  /** Where the pattern does not match at `q`, the split goes on at `q + 1` within the same piece. */
  lemma SplitFromSkip(s: string, p: nat, q: nat)
    requires p <= q < |s|
    requires forall j :: p <= j < q ==> !BlankLineAt(s, j)
    requires !BlankLineAt(s, q) && !(q > p && HeaderAt(s, q))
    ensures forall j :: p <= j < q + 1 ==> !BlankLineAt(s, j)
    ensures SplitFrom(s, p, q) == SplitFrom(s, p, q + 1)
    ensures PartStarts(s, p, q) == PartStarts(s, p, q + 1)
  {
    forall j | p <= j < q + 1 ensures !BlankLineAt(s, j) {
      if j == q {
        assert !BlankLineAt(s, q);
      }
    }
  }

  /**
   * Part `i` is the slice of `s` that starts at `starts[i]`, and the last
   * part runs to the end of `s`.
   */
  predicate SlicesOf(s: string, parts: seq<string>, starts: seq<nat>) {
    && |parts| == |starts| && |parts| > 0
    && (forall i :: 0 <= i < |parts| ==> starts[i] + |parts[i]| <= |s| && parts[i] == s[starts[i]..starts[i] + |parts[i]|])
    && starts[|parts| - 1] + |parts[|parts| - 1]| == |s|
  }

  /** Putting the slice `s[p..q]` in front of slices of `s` gives slices of `s`. */
  lemma SlicesCons(s: string, p: nat, q: nat, rest: seq<string>, restStarts: seq<nat>)
    requires p <= q <= |s|
    requires SlicesOf(s, rest, restStarts)
    ensures SlicesOf(s, [s[p..q]] + rest, [p] + restStarts)
  {
    var parts, starts := [s[p..q]] + rest, [p] + restStarts;
    forall i | 0 <= i < |parts|
      ensures starts[i] + |parts[i]| <= |s| && parts[i] == s[starts[i]..starts[i] + |parts[i]|]
    {
      if i > 0 {
        assert parts[i] == rest[i - 1] && starts[i] == restStarts[i - 1];
      }
    }
    assert parts[|parts| - 1] == rest[|rest| - 1] && starts[|parts| - 1] == restStarts[|rest| - 1];
  }

  /** Consecutive parts are separated by a match of the pattern. */
  predicate CutsBetween(s: string, parts: seq<string>, starts: seq<nat>)
    requires |parts| == |starts|
  {
    forall i :: 0 <= i < |parts| - 1 ==> CutAt(s, starts[i] + |parts[i]|, starts[i + 1], |parts[i]|)
  }

  /** A cut after the piece `s[p..q]` keeps consecutive parts separated by matches. */
  lemma CutsCons(s: string, p: nat, q: nat, next: nat, rest: seq<string>, restStarts: seq<nat>)
    requires p <= q <= |s|
    requires CutAt(s, q, next, q - p)
    requires |rest| == |restStarts| && |rest| > 0 && restStarts[0] == next
    requires CutsBetween(s, rest, restStarts)
    ensures CutsBetween(s, [s[p..q]] + rest, [p] + restStarts)
  {
    var parts, starts := [s[p..q]] + rest, [p] + restStarts;
    forall i | 0 <= i < |parts| - 1
      ensures CutAt(s, starts[i] + |parts[i]|, starts[i + 1], |parts[i]|)
    {
      if i > 0 {
        assert parts[i] == rest[i - 1] && starts[i] == restStarts[i - 1] && starts[i + 1] == restStarts[i];
      } else {
        assert starts[0] + |parts[0]| == q && starts[1] == next;
      }
    }
  }

  /** No part contains a match of the pattern. */
  predicate NoCutsWithin(s: string, parts: seq<string>, starts: seq<nat>)
    requires |parts| == |starts|
  {
    forall i :: 0 <= i < |parts| ==> NoCutWithin(s, starts[i], starts[i] + |parts[i]|)
  }

  /** A piece `s[p..q]` without a match in front of parts without one. */
  lemma NoCutsCons(s: string, p: nat, q: nat, rest: seq<string>, restStarts: seq<nat>)
    requires p <= q <= |s|
    requires NoCutWithin(s, p, q)
    requires |rest| == |restStarts|
    requires NoCutsWithin(s, rest, restStarts)
    ensures NoCutsWithin(s, [s[p..q]] + rest, [p] + restStarts)
  {
    var parts, starts := [s[p..q]] + rest, [p] + restStarts;
    forall i | 0 <= i < |parts|
      ensures NoCutWithin(s, starts[i], starts[i] + |parts[i]|)
    {
      if i > 0 {
        assert parts[i] == rest[i - 1] && starts[i] == restStarts[i - 1];
      } else {
        assert starts[0] == p && starts[0] + |parts[0]| == q;
      }
    }
  }

  /** The first position from `q` on where the pattern matches for a part starting at `p`, or `|s|`. */
  function NextCut(s: string, p: nat, q: nat): (r: nat)
    requires p <= q <= |s|
    ensures q <= r <= |s|
    ensures r < |s| ==> BlankLineAt(s, r) || (r > p && HeaderAt(s, r))
    decreases |s| - q
  {
    if q == |s| || BlankLineAt(s, q) || (q > p && HeaderAt(s, q)) then q else NextCut(s, p, q + 1)
  }

  /** The pattern does not match anywhere before the next cut. */
  lemma {:induction false} NextCutIsFirst(s: string, p: nat, q: nat)
    requires p <= q <= |s|
    ensures forall j :: q <= j < NextCut(s, p, q) ==> !BlankLineAt(s, j) && !(j > p && HeaderAt(s, j))
    decreases |s| - q
  {
    if !(q == |s| || BlankLineAt(s, q) || (q > p && HeaderAt(s, q))) {
      NextCutIsFirst(s, p, q + 1);
    }
  }

  /** The split scans on from `q` to the next match without cutting. */
  lemma {:induction false} SplitFromSkipTo(s: string, p: nat, q: nat)
    requires p <= q <= |s|
    requires forall j :: p <= j < q ==> !BlankLineAt(s, j)
    ensures forall j :: p <= j < NextCut(s, p, q) ==> !BlankLineAt(s, j)
    ensures SplitFrom(s, p, q) == SplitFrom(s, p, NextCut(s, p, q))
    ensures PartStarts(s, p, q) == PartStarts(s, p, NextCut(s, p, q))
    decreases |s| - q
  {
    if !(q == |s| || BlankLineAt(s, q) || (q > p && HeaderAt(s, q))) {
      SplitFromSkip(s, p, q);
      SplitFromSkipTo(s, p, q + 1);
    }
  }

  /** Where the part starting at `p` ends, and where the next one starts. */
  lemma FirstCut(s: string, p: nat) returns (r: nat, next: nat)
    requires p <= |s|
    ensures r == NextCut(s, p, p) && p <= r && NoCutWithin(s, p, r)
    ensures r == |s| ==> SplitFrom(s, p, p) == [s[p..]] && PartStarts(s, p, p) == [p]
    ensures r < |s| ==> p < next <= |s| && CutAt(s, r, next, r - p)
    ensures r < |s| ==> SplitFrom(s, p, p) == [s[p..r]] + SplitFrom(s, next, next)
    ensures r < |s| ==> PartStarts(s, p, p) == [p] + PartStarts(s, next, next)
  {
    r := NextCut(s, p, p);
    NextCutIsFirst(s, p, p);
    SplitFromSkipTo(s, p, p);
    if r < |s| {
      if BlankLineAt(s, r) {
        next := NewlineRunEnd(s, r);
        assert s[r] == '\n' && s[r + 1] == '\n';
      } else {
        next := r;
      }
      SplitFromCons(s, p, r, next);
    } else {
      next := r;
      assert SplitFrom(s, p, r) == [s[p..r]] && PartStarts(s, p, r) == [p];
      assert s[p..r] == s[p..];
    }
  }

  /** Each part is the slice of `s` that starts at its recorded index, and the last one runs to the end. */
  lemma {:induction false} SplitFromSlices(s: string, p: nat)
    requires p <= |s|
    ensures SlicesOf(s, SplitFrom(s, p, p), PartStarts(s, p, p))
    decreases |s| - p
  {
    var r, next := FirstCut(s, p);
    if r < |s| {
      SplitFromSlices(s, next);
      SlicesCons(s, p, r, SplitFrom(s, next, next), PartStarts(s, next, next));
    }
  }

  /** Between consecutive parts the pattern matched, as `CutAt` describes. */
  lemma {:induction false} SplitFromCuts(s: string, p: nat)
    requires p <= |s|
    ensures CutsBetween(s, SplitFrom(s, p, p), PartStarts(s, p, p))
    decreases |s| - p
  {
    var r, next := FirstCut(s, p);
    if r < |s| {
      SplitFromCuts(s, next);
      CutsCons(s, p, r, next, SplitFrom(s, next, next), PartStarts(s, next, next));
    }
  }

  /** No match of the pattern is skipped: none starts inside a part. */
  lemma {:induction false} SplitFromNoCutWithin(s: string, p: nat)
    requires p <= |s|
    ensures NoCutsWithin(s, SplitFrom(s, p, p), PartStarts(s, p, p))
    decreases |s| - p
  {
    var r, next := FirstCut(s, p);
    if r < |s| {
      SplitFromNoCutWithin(s, next);
      NoCutsCons(s, p, r, SplitFrom(s, next, next), PartStarts(s, next, next));
    }
  }

  /**
   * `SplitSections` is the regex split: its parts are consecutive slices of
   * the content from the start to the end, separated exactly where the
   * pattern matches (a consumed blank-line run, or before a header that
   * ends a non-empty part), with no match left inside a part.
   */
  lemma SplitSectionsSpec(s: string)
    ensures var parts, starts := SplitSections(s), PartStarts(s, 0, 0);
      && starts[0] == 0 && SlicesOf(s, parts, starts)
      && CutsBetween(s, parts, starts) && NoCutsWithin(s, parts, starts)
  {
    SplitFromSlices(s, 0);
    SplitFromCuts(s, 0);
    SplitFromNoCutWithin(s, 0);
  }

  function MakeSection(part: string): Section {
    var t := IdentifySectionType(part);
    Section(Trim(part), t, SectionPriority(TypeName(t)), |part|)
  }

  /** What every section produced by `parseContentSections` satisfies. */
  predicate WellFormed(sec: Section) {
    && |sec.content| > 50
    && !IsSpace(sec.content[0]) && !IsSpace(sec.content[|sec.content| - 1])
    && |sec.content| <= sec.length
    && sec.priority == SectionPriority(TypeName(sec.sectionType))
  }

  /**
   * The section built from a part holds the part's trimmed text, the type
   * the part is identified as, and the part's untrimmed length; when the
   * trimmed text is longer than 50 characters it is well formed.
   */
  lemma MakeSectionWellFormed(part: string)
    requires |Trim(part)| > 50
    ensures SectionFor(MakeSection(part), part)
  {
    TrimEnds(part);
  }

  /** The parts `parseContentSections` keeps: those whose trimmed text is longer than 50 characters. */
  predicate LongPart(part: string) {
    |Trim(part)| > 50
  }

  /** `sec` is well formed and holds the trimmed text, the type and the length of `part`. */
  predicate SectionFor(sec: Section, part: string) {
    && WellFormed(sec)
    && sec.content == Trim(part) && sec.sectionType == IdentifySectionType(part) && sec.length == |part|
  }

  /** `sections` holds one section per part of `kept`, in order. */
  predicate SectionsFor(sections: seq<Section>, kept: seq<string>)
    decreases |sections|
  {
    && |sections| == |kept|
    && (sections != [] ==> SectionFor(sections[0], kept[0]) && SectionsFor(sections[1..], kept[1..]))
  }

  /** Section `i` is the one built from kept part `i`. */
  lemma {:induction false} SectionsForAt(sections: seq<Section>, kept: seq<string>, i: nat)
    requires SectionsFor(sections, kept) && i < |sections|
    ensures |sections| == |kept| && SectionFor(sections[i], kept[i])
  {
    if i > 0 {
      SectionsForAt(sections[1..], kept[1..], i - 1);
    }
  }

  /** The sections kept from a list of parts: one per long part, in order. */
  function SectionsOf(parts: seq<string>): (r: seq<Section>)
    ensures |r| <= |parts|
    ensures forall sec :: sec in r ==> WellFormed(sec)
    ensures SectionsFor(r, Filter(parts, LongPart))
  {
    if parts == [] then []
    else
      var rest := SectionsOf(parts[1..]);
      if LongPart(parts[0]) then
        MakeSectionWellFormed(parts[0]);
        assert ([MakeSection(parts[0])] + rest)[1..] == rest;
        [MakeSection(parts[0])] + rest
      else rest
  }

  function ParsedSections(content: string): seq<Section> {
    SectionsOf(SplitSections(content))
  }

  /** Building the sections of two runs of parts one after the other. */
  lemma {:induction false} SectionsOfAppend(a: seq<string>, b: seq<string>)
    ensures SectionsOf(a + b) == SectionsOf(a) + SectionsOf(b)
  {
    if a == [] {
      assert a + b == b;
    } else {
      assert (a + b)[1..] == a[1..] + b;
      SectionsOfAppend(a[1..], b);
    }
  }

  /** Taking one more part adds its section exactly when it is long. */
  lemma SectionsOfSnoc(parts: seq<string>, i: nat)
    requires i < |parts|
    ensures LongPart(parts[i]) ==> SectionsOf(parts[..i + 1]) == SectionsOf(parts[..i]) + [MakeSection(parts[i])]
    ensures !LongPart(parts[i]) ==> SectionsOf(parts[..i + 1]) == SectionsOf(parts[..i])
  {
    assert parts[..i + 1] == parts[..i] + [parts[i]];
    SectionsOfAppend(parts[..i], [parts[i]]);
    SectionsOfSingle(parts[i]);
  }

  lemma SectionsOfSingle(part: string)
    ensures SectionsOf([part]) == if LongPart(part) then [MakeSection(part)] else []
  {
    assert [part][1..] == [];
  }

  /** `parseContentSections`: the loop that pushes one section per long part, in order. */
  method ParseContentSections(content: string) returns (sections: seq<Section>)
    ensures sections == ParsedSections(content)
    ensures forall sec :: sec in sections ==> WellFormed(sec)
  {
    var parts := SplitSections(content);
    sections := [];
    var i := 0;
    while i < |parts|
      invariant 0 <= i <= |parts|
      invariant sections == SectionsOf(parts[..i])
    {
      SectionsOfSnoc(parts, i);
      if LongPart(parts[i]) {
        sections := sections + [MakeSection(parts[i])];
      }
      i := i + 1;
    }
    assert parts[..i] == parts;
  }

  /** The comparator of `prioritizeSections`: higher priority first, then longer raw length. */
  predicate Outranks(a: Section, b: Section) {
    a.priority > b.priority || (a.priority == b.priority && a.length > b.length)
  }

  predicate SameRank(a: Section, b: Section) {
    a.priority == b.priority && a.length == b.length
  }

  predicate Ranked(s: seq<Section>) {
    forall i, j :: 0 <= i < j < |s| ==> !Outranks(s[j], s[i])
  }

  /** The sections of `s` whose rank equals that of `k`, in order. */
  function RankClass(s: seq<Section>, k: Section): seq<Section> {
    if s == [] then []
    else if SameRank(s[0], k) then [s[0]] + RankClass(s[1..], k)
    else RankClass(s[1..], k)
  }

  /** Inserts `x` before the first section that does not outrank it. */
  function Insert(x: Section, ranked: seq<Section>): seq<Section> {
    if ranked == [] then [x]
    else if Outranks(ranked[0], x) then [ranked[0]] + Insert(x, ranked[1..])
    else [x] + ranked
  }

  /**
   * `prioritizeSections`: `Array.prototype.sort` is stable, so its result is
   * the stable sort by rank, computed here by insertion.
   */
  function PrioritizeSections(sections: seq<Section>): seq<Section> {
    if sections == [] then [] else Insert(sections[0], PrioritizeSections(sections[1..]))
  }

  lemma {:induction false} InsertPermutes(x: Section, r: seq<Section>)
    ensures multiset(Insert(x, r)) == multiset(r) + multiset{x}
  {
    if r != [] && Outranks(r[0], x) {
      InsertPermutes(x, r[1..]);
      assert r == [r[0]] + r[1..];
    }
  }

  lemma {:induction false} InsertRanked(x: Section, r: seq<Section>)
    requires Ranked(r)
    ensures Ranked(Insert(x, r))
  {
    if r != [] && Outranks(r[0], x) {
      InsertRanked(x, r[1..]);
      InsertPermutes(x, r[1..]);
      var tail := Insert(x, r[1..]);
      forall j | 0 <= j < |tail| ensures !Outranks(tail[j], r[0]) {
        assert tail[j] in multiset(tail);
        if tail[j] != x {
          assert tail[j] in multiset(r[1..]);
          var k :| 0 <= k < |r[1..]| && r[1..][k] == tail[j];
          assert r[k + 1] == tail[j];
        }
      }
    }
  }

  lemma {:induction false} InsertStable(x: Section, r: seq<Section>, k: Section)
    ensures RankClass(Insert(x, r), k) == if SameRank(x, k) then [x] + RankClass(r, k) else RankClass(r, k)
  {
    if r == [] {
    } else if Outranks(r[0], x) {
      InsertStable(x, r[1..], k);
      assert Insert(x, r)[1..] == Insert(x, r[1..]);
    } else {
      assert ([x] + r)[1..] == r;
    }
  }

  /**
   * The ranking is a permutation of its input, ordered by non-increasing
   * priority and then non-increasing length, and sections of equal rank keep
   * their input order.
   */
  lemma {:induction false} PrioritizeSpec(s: seq<Section>)
    ensures multiset(PrioritizeSections(s)) == multiset(s)
    ensures Ranked(PrioritizeSections(s))
    ensures forall k :: RankClass(PrioritizeSections(s), k) == RankClass(s, k)
  {
    if s != [] {
      PrioritizeSpec(s[1..]);
      var tail := PrioritizeSections(s[1..]);
      InsertPermutes(s[0], tail);
      InsertRanked(s[0], tail);
      assert s == [s[0]] + s[1..];
      forall k ensures RankClass(PrioritizeSections(s), k) == RankClass(s, k) {
        InsertStable(s[0], tail, k);
      }
    }
  }
}

=== FILE: seq_facts.dfy ===
/**
 * Generic facts about slices and concatenations of sequences, stated once so
 * that the proofs elsewhere can cite them instead of re-deriving sequence
 * equalities over larger terms.
 */
module SeqFacts {

  /** Slicing a concatenation after its first part. */
  lemma SuffixOfConcat<T>(x: seq<T>, y: seq<T>, i: nat)
    requires |x| <= i <= |x| + |y|
    ensures (x + y)[i..] == y[i - |x|..]
  {
  }

  /** Taking a prefix of a concatenation within its first part. */
  lemma HeadOfConcat<T>(x: seq<T>, y: seq<T>, i: nat)
    requires i <= |x|
    ensures (x + y)[..i] == x[..i]
  {
  }

  /** Slicing a concatenation within its first part. */
  lemma PrefixOfConcat<T>(x: seq<T>, y: seq<T>, i: nat)
    requires i <= |x|
    ensures (x + y)[i..][..|x| - i] == x[i..]
  {
  }

  lemma SliceOfSuffix<T>(s: seq<T>, k: nat, n: nat)
    requires k + n <= |s|
    ensures s[k..][..n] == s[k..k + n]
  {
  }

  lemma SuffixOfSuffix<T>(s: seq<T>, k: nat, j: nat)
    requires k + j <= |s|
    ensures s[k..][j..] == s[k + j..]
  {
  }

  lemma AppendAssoc<T>(a: seq<T>, b: seq<T>, c: seq<T>)
    ensures a + (b + c) == a + b + c
  {
  }

  lemma Regroup<T>(a: seq<T>, b: seq<T>, c: seq<T>, d: seq<T>)
    ensures a + b + c + d == a + (b + (c + d))
  {
  }

  /** A sequence is its prefix, middle and suffix put back together. */
  lemma SplitThree<T>(s: seq<T>, i: nat, j: nat)
    requires i <= j <= |s|
    ensures s == s[..i] + (s[i..j] + s[j..])
  {
  }

  /** Appending the head of `xs` and then its tail appends `xs`. */
  lemma AppendHead<T>(s: seq<T>, xs: seq<T>)
    requires xs != []
    ensures s + [xs[0]] + xs[1..] == s + xs
  {
  }

  /** Adding one element on either side of a multiset sum. */
  lemma MultisetAddLeft<T>(a: seq<T>, b: seq<T>, c: seq<T>, x: T)
    requires multiset(a) + multiset(b) == multiset(c)
    ensures multiset([x] + a) + multiset(b) == multiset([x] + c)
  {
  }

  lemma MultisetAddRight<T>(a: seq<T>, b: seq<T>, c: seq<T>, x: T)
    requires multiset(a) + multiset(b) == multiset(c)
    ensures multiset(a) + multiset([x] + b) == multiset([x] + c)
  {
  }

  lemma SliceOfSuffixRange<T>(s: seq<T>, k: nat, lo: nat, hi: nat)
    requires lo <= hi && k + hi <= |s|
    ensures s[k..][lo..hi] == s[k + lo..k + hi]
  {
  }

  lemma UpdateTwice<K, V>(m: map<K, V>, k: K, a: V, b: V)
    ensures m[k := a][k := b] == m[k := b]
  {
  }
}

=== FILE: seqs.dfy ===
/**
 * `Array.prototype.filter` and `slice(0, n)` on sequences, with the facts
 * about them the rest of the model uses.
 */
module Seqs {
  import opened Strings
  import opened SeqFacts

  datatype Option<T> = None | Some(value: T)

  /** `s.filter(f)`. */
  function Filter<T>(s: seq<T>, f: T -> bool): (r: seq<T>)
    ensures |r| <= |s|
    ensures forall x :: x in r ==> x in s && f(x)
    ensures forall x :: x in s && f(x) ==> x in r
  {
    if s == [] then []
    else if f(s[0]) then [s[0]] + Filter(s[1..], f)
    else Filter(s[1..], f)
  }

  /** Filtering distributes over concatenation, so it keeps the input order. */
  lemma FilterAppend<T>(a: seq<T>, b: seq<T>, f: T -> bool)
    ensures Filter(a + b, f) == Filter(a, f) + Filter(b, f)
  {
    if a == [] {
      assert a + b == b;
    } else {
      assert (a + b)[1..] == a[1..] + b;
      FilterAppend(a[1..], b, f);
    }
  }

  /** One element is kept exactly when it passes the test. */
  lemma FilterSingle<T>(x: T, f: T -> bool)
    ensures Filter([x], f) == if f(x) then [x] else []
  {
    assert [x][1..] == [];
  }

  /**
   * Every element that passes the test is kept as often as it occurs, and
   * no other element is kept.
   */
  lemma {:induction false} FilterCount<T>(s: seq<T>, f: T -> bool, x: T)
    ensures multiset(Filter(s, f))[x] == if f(x) then multiset(s)[x] else 0
  {
    if s != [] {
      FilterCount(s[1..], f, x);
      assert s == [s[0]] + s[1..];
    }
  }

  /** A filter and its complement split the input between them. */
  lemma {:induction false} FilterPartition<T>(s: seq<T>, f: T -> bool, g: T -> bool)
    requires forall x :: g(x) == !f(x)
    ensures multiset(Filter(s, f)) + multiset(Filter(s, g)) == multiset(s)
  {
    if s != [] {
      var t := s[1..];
      FilterPartition(t, f, g);
      assert s == [s[0]] + t;
      if f(s[0]) {
        MultisetAddLeft(Filter(t, f), Filter(t, g), t, s[0]);
      } else {
        MultisetAddRight(Filter(t, f), Filter(t, g), t, s[0]);
      }
    }
  }

  /** `s.slice(0, n)`. */
  function Take<T>(s: seq<T>, n: nat): (r: seq<T>)
    ensures |r| <= n && |r| <= |s|
    ensures r == s[..|r|]
    ensures |s| <= n ==> r == s
  {
    if |s| <= n then s else s[..n]
  }

  lemma FilterSumLen(s: seq<string>, f: string -> bool)
    ensures SumLen(Filter(s, f)) <= SumLen(s)
  {
    if s != [] {
      FilterSumLen(s[1..], f);
    }
  }

  lemma {:induction false} PrefixSumLen(s: seq<string>, n: nat)
    requires n <= |s|
    ensures SumLen(s[..n]) <= SumLen(s)
  {
    assert s == s[..n] + s[n..];
    SumLenAppend(s[..n], s[n..]);
  }

  lemma TakeSumLen(s: seq<string>, n: nat)
    ensures SumLen(Take(s, n)) <= SumLen(s)
  {
    PrefixSumLen(s, |Take(s, n)|);
  }

  predicate NoDuplicates<T(==)>(s: seq<T>) {
    forall i, j :: 0 <= i < j < |s| ==> s[i] != s[j]
  }

  /** Appending an element that is not there yet keeps a sequence duplicate-free. */
  lemma SnocNoDuplicates<T>(s: seq<T>, x: T)
    requires NoDuplicates(s) && x !in s
    ensures NoDuplicates(s + [x])
  {
    var r := s + [x];
    forall i, j | 0 <= i < j < |r| ensures r[i] != r[j] {
      if j < |s| {
        assert r[i] == s[i] && r[j] == s[j];
      } else {
        assert r[i] in s;
      }
    }
  }

  /** A rearrangement of a duplicate-free sequence is duplicate-free. */
  lemma PermutationNoDuplicates<T>(a: seq<T>, b: seq<T>)
    requires multiset(a) == multiset(b) && NoDuplicates(a)
    ensures NoDuplicates(b)
  {
    forall i, j | 0 <= i < j < |b| ensures b[i] != b[j] {
      if b[i] == b[j] {
        var x := b[i];
        assert b == b[..i] + [x] + b[i + 1..j] + [x] + b[j + 1..];
        assert multiset(b)[x] >= 2;
        MultiplicityAtMostOne(a, x);
        assert false;
      }
    }
  }

  lemma {:induction false} MultiplicityAtMostOne<T>(a: seq<T>, x: T)
    requires NoDuplicates(a)
    ensures multiset(a)[x] <= 1
  {
    if a != [] {
      MultiplicityAtMostOne(a[1..], x);
      assert a == [a[0]] + a[1..];
      if a[0] == x {
        assert forall k :: 0 <= k < |a[1..]| ==> a[1..][k] == a[k + 1];
        assert x !in a[1..];
      }
    }
  }
}

=== FILE: strings.dfy ===
/**
 * Character-level models of the JavaScript string operations the memo
 * generator relies on: `\s`, `\w`, `trim()`, ASCII `toLowerCase()`,
 * `includes`, `startsWith`, `split` on one character, `split(/[.!?]+/)`,
 * `join`, and `replace(/\s+/g, " ")`.
 */
module Strings {
  import opened SeqFacts

  /** What `\s` matches and `trim()` removes: WhiteSpace and LineTerminator. */
  predicate IsSpace(c: char) {
    c == '\t' || c == '\n' || c == '\U{B}' || c == '\U{C}' || c == '\r' || c == ' '
    || c == '\U{A0}' || c == '\U{1680}' || ('\U{2000}' <= c <= '\U{200A}')
    || c == '\U{2028}' || c == '\U{2029}' || c == '\U{202F}' || c == '\U{205F}'
    || c == '\U{3000}' || c == '\U{FEFF}'
  }

  /** What `\w` matches in a regular expression without the `u` flag. */
  predicate IsWordChar(c: char) {
    ('a' <= c <= 'z') || ('A' <= c <= 'Z') || ('0' <= c <= '9') || c == '_'
  }

  predicate IsTerminator(c: char) {
    c == '.' || c == '!' || c == '?'
  }

  function LowerChar(c: char): char {
    if 'A' <= c <= 'Z' then (c as int + 32) as char else c
  }

  /** `toLowerCase()`, restricted to the ASCII letters. */
  function Lower(s: string): (r: string)
    ensures |r| == |s|
    ensures forall i :: 0 <= i < |s| ==> r[i] == LowerChar(s[i])
  {
    seq(|s|, i requires 0 <= i < |s| => LowerChar(s[i]))
  }

  lemma LowerIdempotent(s: string)
    ensures Lower(Lower(s)) == Lower(s)
  {
  }

  predicate StartsWith(s: string, p: string) {
    |p| <= |s| && s[..|p|] == p
  }

  predicate EndsWith(s: string, p: string) {
    |p| <= |s| && s[|s| - |p|..] == p
  }

  /** `s.includes(p)`. */
  predicate Contains(s: string, p: string) {
    exists i :: 0 <= i <= |s| - |p| && StartsWith(s[i..], p)
  }

  lemma ContainsPrefix(s: string, t: string, p: string)
    requires Contains(s, p)
    ensures Contains(s + t, p)
  {
    var i :| 0 <= i <= |s| - |p| && StartsWith(s[i..], p);
    assert (s + t)[i..][..|p|] == s[i..][..|p|];
  }

  /** Case-insensitive `StartsWith`, as `/.../i` compares ASCII letters. */
  predicate StartsWithIgnoreCase(s: string, p: string) {
    |p| <= |s| && Lower(s[..|p|]) == Lower(p)
  }

  predicate AllSpace(s: string) {
    forall i :: 0 <= i < |s| ==> IsSpace(s[i])
  }

  /** No two adjacent characters are both whitespace. */
  predicate NoDoubleSpace(s: string) {
    forall i :: 0 <= i < |s| - 1 ==> !(IsSpace(s[i]) && IsSpace(s[i + 1]))
  }

  /** Number of leading whitespace characters of `s`. */
  function LeadingSpace(s: string): (n: nat)
    ensures n <= |s|
    ensures AllSpace(s[..n])
    ensures n == |s| || !IsSpace(s[n])
  {
    if s != [] && IsSpace(s[0]) then
      var m := LeadingSpace(s[1..]);
      assert s[..1 + m] == [s[0]] + s[1..][..m];
      1 + m
    else 0
  }

  /** Number of trailing whitespace characters of `s`. */
  function TrailingSpace(s: string): (n: nat)
    ensures n <= |s|
    ensures AllSpace(s[|s| - n..])
    ensures n == |s| || !IsSpace(s[|s| - n - 1])
  {
    if s != [] && IsSpace(s[|s| - 1]) then
      var m := TrailingSpace(s[..|s| - 1]);
      assert s[|s| - 1 - m..] == s[..|s| - 1][|s| - 1 - m..] + [s[|s| - 1]];
      1 + m
    else 0
  }

  /** `trimStart()`: the text after the leading whitespace. */
  function TrimStart(s: string): (r: string)
    ensures r == [] || !IsSpace(r[0])
  {
    s[LeadingSpace(s)..]
  }

  /** `trimEnd()`: the text before the trailing whitespace. */
  function TrimEnd(s: string): (r: string)
    ensures r == [] || !IsSpace(r[|r| - 1])
  {
    s[..|s| - TrailingSpace(s)]
  }

  /** `trim()`. */
  function Trim(s: string): (r: string)
    ensures |r| <= |s|
  {
    TrimEnd(TrimStart(s))
  }

  /** The trimmed text is a slice of `s` with whitespace only around it. */
  lemma TrimSpec(s: string)
    ensures LeadingSpace(s) + |Trim(s)| <= |s|
    ensures Trim(s) == s[LeadingSpace(s)..LeadingSpace(s) + |Trim(s)|]
    ensures AllSpace(s[..LeadingSpace(s)]) && AllSpace(s[LeadingSpace(s) + |Trim(s)|..])
    ensures Trim(s) == [] || (!IsSpace(Trim(s)[0]) && !IsSpace(Trim(s)[|Trim(s)| - 1]))
  {
    TrimIsSlice(s);
    TrimSurroundings(s);
    TrimEnds(s);
  }

  lemma TrimIsSlice(s: string)
    ensures LeadingSpace(s) + |Trim(s)| <= |s|
    ensures Trim(s) == s[LeadingSpace(s)..LeadingSpace(s) + |Trim(s)|]
  {
    var k := LeadingSpace(s);
    var t := s[k..];
    var n := |t| - TrailingSpace(t);
    assert Trim(s) == t[..n];
    SliceOfSuffix(s, k, n);
  }

  lemma TrimSurroundings(s: string)
    ensures LeadingSpace(s) + |Trim(s)| <= |s|
    ensures AllSpace(s[LeadingSpace(s) + |Trim(s)|..])
  {
    var k := LeadingSpace(s);
    var t := s[k..];
    var n := |t| - TrailingSpace(t);
    assert |Trim(s)| == n;
    SuffixOfSuffix(s, k, n);
    assert AllSpace(t[n..]);
  }

  lemma TrimEnds(s: string)
    ensures Trim(s) == [] || (!IsSpace(Trim(s)[0]) && !IsSpace(Trim(s)[|Trim(s)| - 1]))
  {
    var t := TrimStart(s);
    var r := TrimEnd(t);
    assert r != [] ==> r[0] == t[0];
  }

  lemma {:induction false} LeadingSpaceOfSpaces(w: string, x: string)
    requires AllSpace(w)
    ensures LeadingSpace(w + x) == |w| + LeadingSpace(x)
  {
    if w != [] {
      assert (w + x)[1..] == w[1..] + x;
      LeadingSpaceOfSpaces(w[1..], x);
    } else {
      assert w + x == x;
    }
  }

  lemma {:induction false} TrailingSpaceOfSpaces(x: string, w: string)
    requires AllSpace(w)
    ensures TrailingSpace(x + w) == |w| + TrailingSpace(x)
  {
    if w != [] {
      assert (x + w)[..|x + w| - 1] == x + w[..|w| - 1];
      TrailingSpaceOfSpaces(x, w[..|w| - 1]);
    } else {
      assert x + w == x;
    }
  }

  /** Leading whitespace does not change `trimStart()`. */
  lemma TrimStartOfSpaces(w: string, x: string)
    requires AllSpace(w)
    ensures TrimStart(w + x) == TrimStart(x)
  {
    LeadingSpaceOfSpaces(w, x);
    SuffixOfConcat(w, x, |w| + LeadingSpace(x));
  }

  /** Trailing whitespace does not change `trimEnd()`. */
  lemma TrimEndOfSpaces(x: string, w: string)
    requires AllSpace(w)
    ensures TrimEnd(x + w) == TrimEnd(x)
  {
    var n := |x| - TrailingSpace(x);
    TrailingSpaceOfSpaces(x, w);
    assert |x + w| - TrailingSpace(x + w) == n;
    HeadOfConcat(x, w, n);
  }

  lemma TrimStartNoSpace(x: string)
    requires x == [] || !IsSpace(x[0])
    ensures TrimStart(x) == x
  {
  }

  lemma TrimEndNoSpace(x: string)
    requires x == [] || !IsSpace(x[|x| - 1])
    ensures TrimEnd(x) == x
  {
  }

  /** `s.split(sep)` for a one-character separator. */
  function Split(s: string, sep: char): (parts: seq<string>)
    ensures |parts| >= 1
    ensures forall p :: p in parts ==> sep !in p
  {
    if s == [] then [""]
    else
      var rest := Split(s[1..], sep);
      if s[0] == sep then [""] + rest
      else [[s[0]] + rest[0]] + rest[1..]
  }

  /** `parts.join(sep)`. */
  function Join(parts: seq<string>, sep: string): string {
    if parts == [] then ""
    else if |parts| == 1 then parts[0]
    else parts[0] + sep + Join(parts[1..], sep)
  }

  lemma JoinCons(p: string, parts: seq<string>, sep: string)
    requires parts != []
    ensures Join([p] + parts, sep) == p + sep + Join(parts, sep)
  {
    assert ([p] + parts)[1..] == parts;
  }

  lemma JoinAppend(a: seq<string>, b: seq<string>, sep: string)
    requires a != [] && b != []
    ensures Join(a + b, sep) == Join(a, sep) + sep + Join(b, sep)
  {
    if |a| == 1 {
      JoinCons(a[0], b, sep);
      assert a + b == [a[0]] + b;
    } else {
      JoinAppend(a[1..], b, sep);
      assert a + b == [a[0]] + (a[1..] + b);
      JoinCons(a[0], a[1..] + b, sep);
      JoinCons(a[0], a[1..], sep);
      assert a == [a[0]] + a[1..];
    }
  }

  /** Joining the pieces of a split with the separator restores the text. */
  lemma {:induction false} SplitJoin(s: string, sep: char)
    ensures Join(Split(s, sep), [sep]) == s
  {
    if s != [] {
      var rest := Split(s[1..], sep);
      SplitJoin(s[1..], sep);
      if s[0] == sep {
        JoinCons("", rest, [sep]);
      } else if |rest| == 1 {
      } else {
        JoinCons([s[0]] + rest[0], rest[1..], [sep]);
        JoinCons(rest[0], rest[1..], [sep]);
        assert rest == [rest[0]] + rest[1..];
      }
    }
  }

  lemma SplitNoSep(w: string, sep: char)
    requires sep !in w
    ensures Split(w, sep) == [w]
  {
    if w != [] {
      SplitNoSep(w[1..], sep);
      assert [w[0]] + w[1..] == w;
    }
  }

  lemma SplitAfterPiece(w: string, t: string, sep: char)
    requires sep !in w
    ensures Split(w + [sep] + t, sep) == [w] + Split(t, sep)
  {
    if w == [] {
      assert w + [sep] + t == [sep] + t;
      assert ([sep] + t)[1..] == t;
    } else {
      assert (w + [sep] + t)[1..] == w[1..] + [sep] + t;
      SplitAfterPiece(w[1..], t, sep);
      assert [w[0]] + w[1..] == w;
    }
  }

  /** Splitting a join of separator-free pieces gives the pieces back. */
  lemma {:induction false} JoinSplit(ws: seq<string>, sep: char)
    requires ws != []
    requires forall w :: w in ws ==> sep !in w
    ensures Split(Join(ws, [sep]), sep) == ws
  {
    if |ws| == 1 {
      SplitNoSep(ws[0], sep);
    } else {
      JoinSplit(ws[1..], sep);
      assert ws[0] + [sep] + Join(ws[1..], [sep]) == Join(ws, [sep]);
      SplitAfterPiece(ws[0], Join(ws[1..], [sep]), sep);
      assert ws == [ws[0]] + ws[1..];
    }
  }

  /** `s.split(/[.!?]+/)`: every run of terminators is one separator. */
  function SplitSentences(s: string): (parts: seq<string>)
    ensures |parts| >= 1
    ensures forall p :: p in parts ==> forall i :: 0 <= i < |p| ==> !IsTerminator(p[i])
  {
    if s == [] then [""]
    else
      var rest := SplitSentences(s[1..]);
      if IsTerminator(s[0]) then
        (if |s| > 1 && IsTerminator(s[1]) then rest else [""] + rest)
      else [[s[0]] + rest[0]] + rest[1..]
  }

  /** Every part strictly between the first and the last is non-empty. */
  predicate InnerNonEmpty(parts: seq<string>) {
    forall i :: 0 < i < |parts| - 1 ==> parts[i] != ""
  }

  /**
   * A text that starts with a terminator yields an empty first part and at
   * least one separator; any other non-empty text yields a first part that
   * starts with its first character; no part between two separators is
   * empty, so every run of terminators is cut as a whole.
   */
  lemma {:induction false} SplitSentencesShape(s: string)
    ensures var parts := SplitSentences(s);
      && (s != [] && IsTerminator(s[0]) ==> |parts| >= 2 && parts[0] == "")
      && (s != [] && !IsTerminator(s[0]) ==> parts[0] != "" && parts[0][0] == s[0])
      && InnerNonEmpty(parts)
  {
    if s != [] {
      var rest := SplitSentences(s[1..]);
      SplitSentencesShape(s[1..]);
      if IsTerminator(s[0]) {
        if !(|s| > 1 && IsTerminator(s[1])) {
          var r := [""] + rest;
          forall i | 0 < i < |r| - 1 ensures r[i] != "" {
            assert r[i] == rest[i - 1];
          }
        }
      } else {
        var r := [[s[0]] + rest[0]] + rest[1..];
        forall i | 0 < i < |r| - 1 ensures r[i] != "" {
          assert r[i] == rest[i];
        }
      }
    }
  }

  /** A non-empty run of terminators. */
  predicate TerminatorRun(sep: string) {
    sep != "" && forall i :: 0 <= i < |sep| ==> IsTerminator(sep[i])
  }

  /** The terminator runs `SplitSentences` cuts at, in order. */
  function SentenceSeps(s: string): (seps: seq<string>)
    ensures forall sep :: sep in seps ==> TerminatorRun(sep)
    ensures s != [] && IsTerminator(s[0]) ==> seps != []
  {
    if s == [] then []
    else
      var rest := SentenceSeps(s[1..]);
      if IsTerminator(s[0]) then
        if |s| > 1 && IsTerminator(s[1]) then
          assert TerminatorRun(rest[0]);
          [[s[0]] + rest[0]] + rest[1..]
        else [[s[0]]] + rest
      else rest
  }

  /** There is one separator fewer than there are parts. */
  lemma {:induction false} SentenceSepsCount(s: string)
    ensures |SentenceSeps(s)| + 1 == |SplitSentences(s)|
  {
    if s != [] {
      SentenceSepsCount(s[1..]);
    }
  }

  /** The parts with the separators put back between them. */
  function Interleave(parts: seq<string>, seps: seq<string>): string
    requires |seps| + 1 == |parts|
    decreases |seps|
  {
    if seps == [] then parts[0] else parts[0] + seps[0] + Interleave(parts[1..], seps[1..])
  }

  lemma InterleaveHead(x: string, parts: seq<string>, seps: seq<string>)
    requires |seps| + 1 == |parts|
    ensures Interleave([x + parts[0]] + parts[1..], seps) == x + Interleave(parts, seps)
  {
    var q := [x + parts[0]] + parts[1..];
    assert q[1..] == parts[1..];
    if seps != [] {
      AppendAssoc(x, parts[0], seps[0] + Interleave(parts[1..], seps[1..]));
      AppendAssoc(parts[0], seps[0], Interleave(parts[1..], seps[1..]));
      AppendAssoc(x + parts[0], seps[0], Interleave(parts[1..], seps[1..]));
    }
  }

  lemma InterleaveSep(x: string, parts: seq<string>, seps: seq<string>)
    requires |seps| + 1 == |parts|
    ensures Interleave([""] + parts, [x] + seps) == x + Interleave(parts, seps)
  {
    var p, q := [""] + parts, [x] + seps;
    assert p[0] == "" && q[0] == x && p[1..] == parts && q[1..] == seps;
    assert p[0] + q[0] == x;
  }

  lemma InterleaveLongerSep(x: string, parts: seq<string>, seps: seq<string>)
    requires |seps| + 1 == |parts| && seps != [] && parts[0] == ""
    ensures Interleave(parts, [x + seps[0]] + seps[1..]) == x + Interleave(parts, seps)
  {
    var q := [x + seps[0]] + seps[1..];
    assert q[0] == x + seps[0] && q[1..] == seps[1..];
    var tail := Interleave(parts[1..], seps[1..]);
    assert parts[0] + q[0] == x + seps[0];
    assert parts[0] + seps[0] == seps[0];
    AppendAssoc(x, seps[0], tail);
  }

  /** Splitting loses nothing: the parts and the separators give back the text. */
  lemma {:induction false} SplitSentencesRoundTrip(s: string)
    ensures |SentenceSeps(s)| + 1 == |SplitSentences(s)|
    ensures Interleave(SplitSentences(s), SentenceSeps(s)) == s
  {
    SentenceSepsCount(s);
    if s != [] {
      var c, parts, seps := s[0], SplitSentences(s[1..]), SentenceSeps(s[1..]);
      SplitSentencesRoundTrip(s[1..]);
      assert s == [c] + s[1..];
      if !IsTerminator(c) {
        InterleaveHead([c], parts, seps);
      } else if |s| > 1 && IsTerminator(s[1]) {
        SplitSentencesShape(s[1..]);
        InterleaveLongerSep([c], parts, seps);
      } else {
        InterleaveSep([c], parts, seps);
      }
    }
  }

  /** Total length of a list of strings. */
  function SumLen(parts: seq<string>): nat {
    if parts == [] then 0 else |parts[0]| + SumLen(parts[1..])
  }

  lemma SumLenAppend(a: seq<string>, b: seq<string>)
    ensures SumLen(a + b) == SumLen(a) + SumLen(b)
  {
    if a != [] {
      assert (a + b)[1..] == a[1..] + b;
      SumLenAppend(a[1..], b);
    } else {
      assert a + b == b;
    }
  }

  lemma {:induction false} SplitSentencesLength(s: string)
    ensures SumLen(SplitSentences(s)) <= |s|
  {
    if s != [] {
      SplitSentencesLength(s[1..]);
      var rest := SplitSentences(s[1..]);
      if !IsTerminator(s[0]) {
        assert SumLen(rest) == |rest[0]| + SumLen(rest[1..]);
        assert ([[s[0]] + rest[0]] + rest[1..])[1..] == rest[1..];
      } else if !(|s| > 1 && IsTerminator(s[1])) {
        assert ([""] + rest)[1..] == rest;
      }
    }
  }

  lemma {:induction false} SplitLength(s: string, sep: char)
    ensures SumLen(Split(s, sep)) <= |s|
  {
    if s != [] {
      SplitLength(s[1..], sep);
      var rest := Split(s[1..], sep);
      if s[0] != sep {
        assert SumLen(rest) == |rest[0]| + SumLen(rest[1..]);
        assert ([[s[0]] + rest[0]] + rest[1..])[1..] == rest[1..];
      } else {
        assert ([""] + rest)[1..] == rest;
      }
    }
  }

  lemma JoinLength(parts: seq<string>, sep: string)
    requires parts != []
    ensures |Join(parts, sep)| == SumLen(parts) + |sep| * (|parts| - 1)
  {
    if |parts| > 1 {
      JoinLength(parts[1..], sep);
    }
  }

  /** The characters of `s` that are not whitespace, in order. */
  function NonSpace(s: string): string {
    if s == [] then ""
    else if IsSpace(s[0]) then NonSpace(s[1..])
    else [s[0]] + NonSpace(s[1..])
  }

  lemma NonSpaceOfSpaces(w: string, x: string)
    requires AllSpace(w)
    ensures NonSpace(w + x) == NonSpace(x)
  {
    if w != [] {
      assert (w + x)[1..] == w[1..] + x;
      NonSpaceOfSpaces(w[1..], x);
    } else {
      assert w + x == x;
    }
  }

  lemma NonSpaceAppend(x: string, y: string)
    ensures NonSpace(x + y) == NonSpace(x) + NonSpace(y)
  {
    if x != [] {
      assert (x + y)[1..] == x[1..] + y;
      NonSpaceAppend(x[1..], y);
    } else {
      assert x + y == y;
    }
  }

  /** `s.replace(/\s+/g, " ")`: every whitespace run becomes one space. */
  function CollapseSpaces(s: string): (r: string)
    ensures r == [] <==> s == []
    ensures s != [] ==> (IsSpace(r[0]) <==> IsSpace(s[0]))
    decreases |s|
  {
    if s == [] then ""
    else if IsSpace(s[0]) then
      var t := TrimStart(s);
      assert t != s;
      " " + CollapseSpaces(t)
    else [s[0]] + CollapseSpaces(s[1..])
  }

  /** Collapsing keeps every non-whitespace character, in order. */
  lemma {:induction false} CollapseKeepsText(s: string)
    ensures NonSpace(CollapseSpaces(s)) == NonSpace(s)
    decreases |s|
  {
    if s != [] {
      if IsSpace(s[0]) {
        var t := TrimStart(s);
        CollapseKeepsText(t);
        var k := LeadingSpace(s);
        assert s == s[..k] + t;
        NonSpaceOfSpaces(s[..k], t);
        NonSpaceOfSpaces(" ", CollapseSpaces(t));
      } else {
        CollapseKeepsText(s[1..]);
        var c := CollapseSpaces(s[1..]);
        assert ([s[0]] + c)[1..] == c;
      }
    }
  }

  /** Collapsing leaves no two adjacent whitespace characters. */
  lemma {:induction false} CollapseNoDoubleSpace(s: string)
    ensures NoDoubleSpace(CollapseSpaces(s))
    decreases |s|
  {
    if s != [] {
      var r := CollapseSpaces(s);
      if IsSpace(s[0]) {
        var t := TrimStart(s);
        CollapseNoDoubleSpace(t);
        var c := CollapseSpaces(t);
        assert r == " " + c;
        forall i | 0 <= i < |r| - 1 ensures !(IsSpace(r[i]) && IsSpace(r[i + 1])) {
          if i > 0 { assert r[i] == c[i - 1] && r[i + 1] == c[i]; }
        }
      } else {
        CollapseNoDoubleSpace(s[1..]);
        var c := CollapseSpaces(s[1..]);
        assert r == [s[0]] + c;
        forall i | 0 <= i < |r| - 1 ensures !(IsSpace(r[i]) && IsSpace(r[i + 1])) {
          if i > 0 { assert r[i] == c[i - 1] && r[i + 1] == c[i]; }
        }
      }
    }
  }

  lemma NoDoubleSpaceSlice(s: string, i: int, j: int)
    requires 0 <= i <= j <= |s| && NoDoubleSpace(s)
    ensures NoDoubleSpace(s[i..j])
  {
    forall k | 0 <= k < j - i - 1
      ensures !(IsSpace(s[i..j][k]) && IsSpace(s[i..j][k + 1]))
    {
      assert s[i..j][k] == s[i + k] && s[i..j][k + 1] == s[i + k + 1];
    }
  }

  /** `text.replace(/\s+/g, " ").trim()`. */
  function CollapseAndTrim(s: string): (r: string)
    ensures r == [] || (!IsSpace(r[0]) && !IsSpace(r[|r| - 1]))
  {
    TrimSpec(CollapseSpaces(s));
    Trim(CollapseSpaces(s))
  }

  /** Trimming removes whitespace only. */
  lemma {:induction false} TrimKeepsText(c: string)
    ensures NonSpace(Trim(c)) == NonSpace(c)
  {
    var k := LeadingSpace(c);
    TrimIsSlice(c);
    TrimSurroundings(c);
    NonSpaceOfSlice(c, k, k + |Trim(c)|);
  }

  /** Whitespace around a slice contributes no characters to `NonSpace`. */
  lemma NonSpaceOfSlice(c: string, i: nat, j: nat)
    requires i <= j <= |c|
    requires AllSpace(c[..i]) && AllSpace(c[j..])
    ensures NonSpace(c[i..j]) == NonSpace(c)
  {
    var pre, mid, post := c[..i], c[i..j], c[j..];
    SplitThree(c, i, j);
    NonSpaceOfSpaces(pre, mid + post);
    NonSpaceAppend(mid, post);
    NonSpaceOfSpaces(post, "");
    assert post + "" == post;
  }

  lemma {:induction false} CollapseAndTrimSpec(s: string)
    ensures NoDoubleSpace(CollapseAndTrim(s))
    ensures NonSpace(CollapseAndTrim(s)) == NonSpace(s)
  {
    var c := CollapseSpaces(s);
    CollapseNoDoubleSpace(s);
    CollapseKeepsText(s);
    var r := Trim(c);
    TrimSpec(c);
    NoDoubleSpaceSlice(c, LeadingSpace(c), LeadingSpace(c) + |r|);
    TrimKeepsText(c);
  }
}

=== FILE: submit_form.dfy ===
/**
 * The memo form of frontend/src/App.jsx: the `cleanHtml` normaliser applied
 * to the generated memorandum, and `handleSubmit`'s checks and the form data
 * it sends.
 */
module SubmitForm {
  import opened Strings
  import opened Seqs
  import opened SeqFacts
  import FileUpload
  import UrlInputs

  const OpeningFence: string := "```html"
  const ClosingFence: string := "```"

  /** `replace(/^\s*```html\s*\/, "")`. */
  function StripOpeningFence(s: string): (r: string)
    ensures |r| <= |s| && r == s[|s| - |r|..]
  {
    var t := TrimStart(s);
    if StartsWith(t, OpeningFence) then TrimStart(t[|OpeningFence|..]) else s
  }

  /** `replace(/\s*```\s*$/, "")`. */
  function StripClosingFence(s: string): (r: string)
    ensures |r| <= |s| && r == s[..|r|]
  {
    var u := TrimEnd(s);
    if EndsWith(u, ClosingFence) then TrimEnd(u[..|u| - |ClosingFence|]) else s
  }

  function StripFences(s: string): string {
    StripClosingFence(StripOpeningFence(s))
  }

  lemma OpeningRemoved(w1: string, w2: string, tail: string)
    requires AllSpace(w1) && AllSpace(w2)
    requires tail == [] || !IsSpace(tail[0])
    ensures StripOpeningFence(w1 + OpeningFence + w2 + tail) == tail
  {
    var t := OpeningFence + (w2 + tail);
    Regroup(w1, OpeningFence, w2, tail);
    TrimStartOfSpaces(w1, t);
    assert t[0] == '`';
    TrimStartNoSpace(t);
    assert StartsWith(t, OpeningFence);
    SuffixOfConcat(OpeningFence, w2 + tail, |OpeningFence|);
    TrimStartOfSpaces(w2, tail);
    TrimStartNoSpace(tail);
  }

  lemma ClosingRemoved(body: string, w3: string, w4: string)
    requires AllSpace(w3) && AllSpace(w4)
    requires body == [] || !IsSpace(body[|body| - 1])
    ensures StripClosingFence(body + w3 + ClosingFence + w4) == body
  {
    var closed := body + w3 + ClosingFence;
    assert closed[|closed| - 1] == '`';
    TrimEndOfSpaces(closed, w4);
    TrimEndNoSpace(closed);
    assert closed[|closed| - |ClosingFence|..] == ClosingFence;
    assert closed[..|closed| - |ClosingFence|] == body + w3;
    TrimEndOfSpaces(body, w3);
    TrimEndNoSpace(body);
  }

  /**
   * A fenced body comes out whole: whatever whitespace surrounds the fences,
   * the text between them is what remains.
   */
  lemma FencesRemoved(w1: string, w2: string, body: string, w3: string, w4: string)
    requires AllSpace(w1) && AllSpace(w2) && AllSpace(w3) && AllSpace(w4)
    requires body != [] && !IsSpace(body[0]) && !IsSpace(body[|body| - 1])
    ensures StripFences(w1 + OpeningFence + w2 + (body + w3 + ClosingFence + w4)) == body
  {
    var tail := body + w3 + ClosingFence + w4;
    assert tail[0] == body[0];
    OpeningRemoved(w1, w2, tail);
    ClosingRemoved(body, w3, w4);
  }

  predicate NotLineBreak(c: char) {
    c != '\r' && c != '\n'
  }

  /** `replace(/(\r\n|\n|\r)/gm, "")`: every carriage return and line feed goes. */
  function RemoveLineBreaks(s: string): (r: string)
    ensures '\r' !in r && '\n' !in r
    ensures forall c :: c in r <==> c in s && NotLineBreak(c)
  {
    Filter(s, NotLineBreak)
  }

  /** A whitespace run, then `b`, at the start of `t[|a|..]` after `a`. */
  predicate MatchAt(t: string, a: string, b: string) {
    StartsWith(t, a) && StartsWith(TrimStart(t[|a|..]), b)
  }

  /** What follows a match. */
  function AfterMatch(t: string, a: string, b: string): (r: string)
    requires MatchAt(t, a, b)
    ensures |r| <= |t| - |a| - |b| && r == t[|t| - |r|..]
  {
    var rest := t[|a|..];
    var trimmed := TrimStart(rest);
    assert trimmed[|b|..] == rest[|rest| - |trimmed| + |b|..];
    trimmed[|b|..]
  }

  /**
   * `replace(/a\s*b/g, a + b)` for a tag pair `a`, `b`: scanning from the
   * left, each `a`, whitespace, `b` becomes `a` + `b` and the scan resumes
   * after it.
   */
  function CloseGap(t: string, a: string, b: string): string
    requires a != []
    decreases |t|
  {
    if t == [] then []
    else if MatchAt(t, a, b) then a + b + CloseGap(AfterMatch(t, a, b), a, b)
    else [t[0]] + CloseGap(t[1..], a, b)
  }

  /** `x` and `y` agree on their common length. */
  predicate Agree(x: string, y: string) {
    forall j :: 0 <= j < |x| && j < |y| ==> x[j] == y[j]
  }

  /**
   * No suffix of `p` agrees with the replacement `ab`, and `p` agrees with
   * no suffix of it: an occurrence of `p` in the output can neither begin
   * inside a replacement nor run into one.
   */
  predicate Clashes(p: string, ab: string) {
    (forall k :: 0 <= k < |p| ==> !Agree(p[k..], ab))
    && (forall i :: 0 <= i < |ab| ==> !Agree(p, ab[i..]))
  }

  /** Two prefixes of one string agree. */
  lemma PrefixesAgree(r: string, x: string, y: string)
    requires StartsWith(r, x) && StartsWith(r, y)
    ensures Agree(x, y)
  {
    forall j | 0 <= j < |x| && j < |y| ensures x[j] == y[j] {
      assert x[j] == r[..|x|][j] == r[j] == r[..|y|][j];
    }
  }

  /** Where a replacement starts, the output begins with `a` + `b`. */
  lemma ReplacedAgrees(t: string, a: string, b: string, p: string, i: nat)
    requires a != [] && MatchAt(t, a, b)
    requires i <= |CloseGap(t, a, b)| && StartsWith(CloseGap(t, a, b)[i..], p)
    ensures i < |a + b| ==> Agree(p, (a + b)[i..])
  {
    if i < |a + b| {
      var ab := a + b;
      var rest := CloseGap(AfterMatch(t, a, b), a, b);
      var r := CloseGap(t, a, b);
      assert r == ab + rest;
      PrefixOfConcat(ab, rest, i);
      PrefixesAgree(r[i..], p, ab[i..]);
    }
  }

  /** An output that starts with a clashing `p` copied `p` from the input. */
  lemma {:induction false} Trace(u: string, a: string, b: string, p: string)
    requires a != []
    requires forall k :: 0 <= k < |p| ==> !Agree(p[k..], a + b)
    requires StartsWith(CloseGap(u, a, b), p)
    ensures StartsWith(u, p)
    decreases |p|
  {
    if p != [] {
      var r := CloseGap(u, a, b);
      assert p[0..] == p;
      ReplacedAgreesAtStart(u, a, b, p);
      assert !MatchAt(u, a, b);
      assert r == [u[0]] + CloseGap(u[1..], a, b);
      forall k | 0 <= k < |p[1..]| ensures !Agree(p[1..][k..], a + b) {
        assert p[1..][k..] == p[k + 1..];
      }
      assert r[1..][..|p| - 1] == p[1..];
      Trace(u[1..], a, b, p[1..]);
    }
  }

  lemma ReplacedAgreesAtStart(u: string, a: string, b: string, p: string)
    requires a != [] && p != [] && StartsWith(CloseGap(u, a, b), p)
    ensures MatchAt(u, a, b) ==> Agree(p, a + b)
  {
    if MatchAt(u, a, b) {
      ReplacedAgrees(u, a, b, p, 0);
      assert (a + b)[0..] == a + b;
    }
  }

  /**
   * Every occurrence of a clashing pattern in the output was already in the
   * input, at a place where no replacement started.
   */
  lemma {:induction false} Origin(t: string, a: string, b: string, p: string, i: nat)
    requires a != [] && p != [] && Clashes(p, a + b)
    requires i <= |CloseGap(t, a, b)| && StartsWith(CloseGap(t, a, b)[i..], p)
    ensures exists j :: 0 <= j <= |t| - |p| && StartsWith(t[j..], p) && !MatchAt(t[j..], a, b)
    decreases |t|
  {
    var r := CloseGap(t, a, b);
    if MatchAt(t, a, b) {
      var after := AfterMatch(t, a, b);
      var ab := a + b;
      ReplacedAgrees(t, a, b, p, i);
      assert i >= |ab|;
      assert r == ab + CloseGap(after, a, b);
      SuffixOfConcat(ab, CloseGap(after, a, b), i);
      Origin(after, a, b, p, i - |ab|);
      var j' :| 0 <= j' <= |after| - |p| && StartsWith(after[j'..], p) && !MatchAt(after[j'..], a, b);
      var d := |t| - |after|;
      SuffixOfSuffix(t, d, j');
    } else {
      assert r == [t[0]] + CloseGap(t[1..], a, b);
      if i == 0 {
        Trace(t, a, b, p);
        assert t[0..] == t;
      } else {
        SuffixOfConcat([t[0]], CloseGap(t[1..], a, b), i);
        Origin(t[1..], a, b, p, i - 1);
        var j' :| 0 <= j' <= |t[1..]| - |p| && StartsWith(t[1..][j'..], p) && !MatchAt(t[1..][j'..], a, b);
        SuffixOfSuffix(t, 1, j');
      }
    }
  }

  /** A match is `a`, a whitespace run `w`, `b`, and what follows. */
  lemma MatchShape(t: string, a: string, b: string) returns (w: string)
    requires MatchAt(t, a, b)
    ensures AllSpace(w) && t == a + (w + (b + AfterMatch(t, a, b)))
  {
    var rest := t[|a|..];
    var trimmed := TrimStart(rest);
    var after := AfterMatch(t, a, b);
    w := rest[..|rest| - |trimmed|];
    assert after == trimmed[|b|..];
    assert trimmed[..|b|] == b;
    SplitAt(trimmed, |b|);
    assert trimmed == b + after;
    SplitAt(rest, |rest| - |trimmed|);
    assert rest == w + trimmed;
    SplitAt(t, |a|);
    assert t == a + rest;
  }

  lemma SplitAt(s: string, n: nat)
    requires n <= |s|
    ensures s == s[..n] + s[n..]
  {
  }

  /** A match removes only the whitespace between `a` and `b`. */
  lemma MatchKeepsText(t: string, a: string, b: string)
    requires MatchAt(t, a, b)
    ensures NonSpace(t) == NonSpace(a) + NonSpace(b) + NonSpace(AfterMatch(t, a, b))
  {
    var after := AfterMatch(t, a, b);
    var w := MatchShape(t, a, b);
    NonSpaceAppend(a, w + (b + after));
    NonSpaceOfSpaces(w, b + after);
    NonSpaceAppend(b, after);
  }

  /** Closing a gap only ever removes whitespace. */
  lemma {:induction false} CloseGapKeepsText(t: string, a: string, b: string)
    requires a != []
    ensures NonSpace(CloseGap(t, a, b)) == NonSpace(t)
    decreases |t|
  {
    if t != [] {
      if MatchAt(t, a, b) {
        var after := AfterMatch(t, a, b);
        CloseGapKeepsText(after, a, b);
        MatchKeepsText(t, a, b);
        NonSpaceAppend(a + b, CloseGap(after, a, b));
        NonSpaceAppend(a, b);
      } else {
        CloseGapKeepsText(t[1..], a, b);
        NonSpaceAppend([t[0]], CloseGap(t[1..], a, b));
        NonSpaceAppend([t[0]], t[1..]);
        assert t == [t[0]] + t[1..];
      }
    }
  }

  /** A string that starts with `p` continues with the rest of `p` from any point of it. */
  lemma PrefixFrom(t: string, p: string, i: nat)
    requires StartsWith(t, p) && i <= |p|
    ensures StartsWith(t[i..], p[i..])
  {
    assert t[i..][..|p| - i] == t[..|p|][i..];
  }

  /** A pattern that starts with `a`, one whitespace and `b` is a match. */
  lemma GapIsMatch(t: string, a: string, b: string, c: char)
    requires IsSpace(c) && b != [] && !IsSpace(b[0])
    requires StartsWith(t, a + [c] + b)
    ensures MatchAt(t, a, b)
  {
    var p := a + [c] + b;
    assert p[..|a|] == a && p[|a|] == c && p[|a| + 1..] == b;
    assert t[..|a|] == t[..|p|][..|a|];
    PrefixFrom(t, p, |a| + 1);
    var rest := t[|a|..];
    assert rest[0] == c;
    assert rest[1..] == t[|a| + 1..];
    assert rest[1..][0] == b[0];
    TrimStartNoSpace(rest[1..]);
  }

  /** After closing, no `a`, one whitespace, `b` is left. */
  lemma GapClosed(t: string, a: string, b: string, c: char)
    requires a != [] && b != [] && !IsSpace(b[0]) && IsSpace(c)
    requires Clashes(a + [c] + b, a + b)
    ensures !Contains(CloseGap(t, a, b), a + [c] + b)
  {
    var p := a + [c] + b;
    if Contains(CloseGap(t, a, b), p) {
      var i :| 0 <= i <= |CloseGap(t, a, b)| - |p| && StartsWith(CloseGap(t, a, b)[i..], p);
      Origin(t, a, b, p, i);
      var j :| 0 <= j <= |t| - |p| && StartsWith(t[j..], p) && !MatchAt(t[j..], a, b);
      GapIsMatch(t[j..], a, b, c);
    }
  }

  /** Closing a gap does not create a clashing pattern. */
  lemma NoNewPattern(t: string, a: string, b: string, p: string)
    requires a != [] && p != [] && Clashes(p, a + b) && !Contains(t, p)
    ensures !Contains(CloseGap(t, a, b), p)
  {
    if Contains(CloseGap(t, a, b), p) {
      var i :| 0 <= i <= |CloseGap(t, a, b)| - |p| && StartsWith(CloseGap(t, a, b)[i..], p);
      Origin(t, a, b, p, i);
    }
  }

  /** A whitespace-only pattern clashes with a replacement that has no whitespace. */
  lemma SpacesClash(p: string, ab: string)
    requires p != [] && AllSpace(p) && ab != []
    requires forall i :: 0 <= i < |ab| ==> !IsSpace(ab[i])
    ensures Clashes(p, ab)
  {
    forall k | 0 <= k < |p| ensures !Agree(p[k..], ab) {
      assert p[k..][0] == p[k];
    }
    forall i | 0 <= i < |ab| ensures !Agree(p, ab[i..]) {
      assert ab[i..][0] == ab[i];
    }
  }

  const LiClose: string := "</li>"
  const LiOpen: string := "<li>"
  const H2Close: string := "</h2>"
  const POpen: string := "<p>"

  lemma LiGapClashes(c: char)
    requires IsSpace(c)
    ensures Clashes(LiClose + [c] + LiOpen, LiClose + LiOpen)
    ensures Clashes(LiClose + [c] + LiOpen, H2Close + POpen)
  {
    LiGapClashesLi(c);
    LiGapClashesH2(c);
  }

  lemma {:induction false} LiGapClashesLi(c: char)
    requires IsSpace(c)
    ensures Clashes(LiClose + [c] + LiOpen, LiClose + LiOpen)
  {
    var p := LiClose + [c] + LiOpen;
    assert p == ['<', '/', 'l', 'i', '>', c, '<', 'l', 'i', '>'];
    var li := LiClose + LiOpen;
    assert li == ['<', '/', 'l', 'i', '>', '<', 'l', 'i', '>'];
    forall k | 0 <= k < |p| ensures !Agree(p[k..], li) {
      if k == 0 {
        assert p[k..][5] != li[5];
      } else if k == 6 {
        assert p[k..][1] != li[1];
      } else {
        assert p[k..][0] == p[k] != '<';
      }
    }
    forall i | 0 <= i < |li| ensures !Agree(p, li[i..]) {
      if i == 0 {
        assert p[5] != li[5];
      } else if i == 5 {
        assert p[1] != li[i..][1];
      } else {
        assert li[i..][0] == li[i] != '<';
      }
    }
  }

  lemma {:induction false} LiGapClashesH2(c: char)
    requires IsSpace(c)
    ensures Clashes(LiClose + [c] + LiOpen, H2Close + POpen)
  {
    var p := LiClose + [c] + LiOpen;
    assert p == ['<', '/', 'l', 'i', '>', c, '<', 'l', 'i', '>'];
    var h2 := H2Close + POpen;
    assert h2 == ['<', '/', 'h', '2', '>', '<', 'p', '>'];
    forall k | 0 <= k < |p| ensures !Agree(p[k..], h2) {
      if k == 0 {
        assert p[k..][2] != h2[2];
      } else if k == 6 {
        assert p[k..][1] != h2[1];
      } else {
        assert p[k..][0] == p[k] != '<';
      }
    }
    forall i | 0 <= i < |h2| ensures !Agree(p, h2[i..]) {
      if i == 0 {
        assert p[2] != h2[2];
      } else if i == 5 {
        assert p[1] != h2[i..][1];
      } else {
        assert h2[i..][0] == h2[i] != '<';
      }
    }
  }

  lemma {:induction false} H2GapClashes(c: char)
    requires IsSpace(c)
    ensures Clashes(H2Close + [c] + POpen, H2Close + POpen)
  {
    var p := H2Close + [c] + POpen;
    assert p == ['<', '/', 'h', '2', '>', c, '<', 'p', '>'];
    var h2 := H2Close + POpen;
    assert h2 == ['<', '/', 'h', '2', '>', '<', 'p', '>'];
    forall k | 0 <= k < |p| ensures !Agree(p[k..], h2) {
      if k == 0 {
        assert p[k..][5] != h2[5];
      } else if k == 6 {
        assert p[k..][1] != h2[1];
      } else {
        assert p[k..][0] == p[k] != '<';
      }
    }
    forall i | 0 <= i < |h2| ensures !Agree(p, h2[i..]) {
      if i == 0 {
        assert p[5] != h2[5];
      } else if i == 5 {
        assert p[1] != h2[i..][1];
      } else {
        assert h2[i..][0] == h2[i] != '<';
      }
    }
  }

  /** The fences gone, line breaks removed and whitespace runs collapsed. */
  function Collapsed(html: string): string {
    CollapseSpaces(RemoveLineBreaks(StripFences(html)))
  }

  /** `cleanHtml`. */
  function CleanHtml(html: string): string {
    CloseGap(CloseGap(Collapsed(html), LiClose, LiOpen), H2Close, POpen)
  }

  /** Collapsing only brings in spaces. */
  lemma {:induction false} CollapseChars(s: string)
    ensures forall x :: x in CollapseSpaces(s) ==> x == ' ' || x in s
    decreases |s|
  {
    if s != [] {
      if IsSpace(s[0]) {
        var t := TrimStart(s);
        CollapseChars(t);
        assert forall x :: x in t ==> x in s;
      } else {
        CollapseChars(s[1..]);
        assert forall x :: x in s[1..] ==> x in s;
      }
    }
  }

  lemma NoDoubleFromPatterns(r: string)
    requires forall c1, c2 :: IsSpace(c1) && IsSpace(c2) ==> !Contains(r, [c1, c2])
    ensures NoDoubleSpace(r)
  {
    forall i | 0 <= i < |r| - 1 ensures !(IsSpace(r[i]) && IsSpace(r[i + 1])) {
      if IsSpace(r[i]) && IsSpace(r[i + 1]) {
        assert StartsWith(r[i..], [r[i], r[i + 1]]);
        assert Contains(r, [r[i], r[i + 1]]);
      }
    }
  }

  lemma CharPattern(r: string, x: char)
    ensures x in r <==> Contains(r, [x])
  {
    if x in r {
      var i :| 0 <= i < |r| && r[i] == x;
      assert StartsWith(r[i..], [x]);
    }
    if Contains(r, [x]) {
      var i :| 0 <= i <= |r| - 1 && StartsWith(r[i..], [x]);
      assert r[i] == x;
    }
  }

  lemma NoPair(t: string, c1: char, c2: char)
    requires NoDoubleSpace(t) && IsSpace(c1) && IsSpace(c2)
    ensures !Contains(t, [c1, c2])
  {
    forall i | 0 <= i <= |t| - 2 ensures !StartsWith(t[i..], [c1, c2]) {
      assert !(IsSpace(t[i]) && IsSpace(t[i + 1]));
      assert t[i..][..2][0] == t[i] && t[i..][..2][1] == t[i + 1];
    }
  }

  /** A tag-pair pass leaves no two whitespace characters in a row when its input had none. */
  lemma PassKeepsNoDoubleSpace(t: string, a: string, b: string)
    requires a != [] && forall i :: 0 <= i < |a + b| ==> !IsSpace((a + b)[i])
    requires NoDoubleSpace(t)
    ensures NoDoubleSpace(CloseGap(t, a, b))
  {
    var r := CloseGap(t, a, b);
    forall c1, c2 | IsSpace(c1) && IsSpace(c2) ensures !Contains(r, [c1, c2]) {
      SpacesClash([c1, c2], a + b);
      NoPair(t, c1, c2);
      NoNewPattern(t, a, b, [c1, c2]);
    }
    NoDoubleFromPatterns(r);
  }

  /** A tag-pair pass brings in no character absent from its input but those of the tags. */
  lemma PassKeepsNoBreak(t: string, a: string, b: string, x: char)
    requires a != [] && forall i :: 0 <= i < |a + b| ==> !IsSpace((a + b)[i])
    requires IsSpace(x) && x !in t
    ensures x !in CloseGap(t, a, b)
  {
    SpacesClash([x], a + b);
    CharPattern(t, x);
    NoNewPattern(t, a, b, [x]);
    CharPattern(CloseGap(t, a, b), x);
  }

  lemma TagsHaveNoSpace()
    ensures forall i :: 0 <= i < |LiClose + LiOpen| ==> !IsSpace((LiClose + LiOpen)[i])
    ensures forall i :: 0 <= i < |H2Close + POpen| ==> !IsSpace((H2Close + POpen)[i])
  {
    assert LiClose + LiOpen == ['<', '/', 'l', 'i', '>', '<', 'l', 'i', '>'];
    assert H2Close + POpen == ['<', '/', 'h', '2', '>', '<', 'p', '>'];
  }

  /** The cleaned memorandum has no line breaks and no two whitespace characters in a row. */
  lemma CleanHtmlSpacing(html: string)
    ensures '\r' !in CleanHtml(html) && '\n' !in CleanHtml(html)
    ensures NoDoubleSpace(CleanHtml(html))
  {
    var lines := RemoveLineBreaks(StripFences(html));
    var collapsed := Collapsed(html);
    var li := CloseGap(collapsed, LiClose, LiOpen);
    CollapseChars(lines);
    CollapseNoDoubleSpace(lines);
    TagsHaveNoSpace();
    PassKeepsNoDoubleSpace(collapsed, LiClose, LiOpen);
    PassKeepsNoDoubleSpace(li, H2Close, POpen);
    PassKeepsNoBreak(collapsed, LiClose, LiOpen, '\r');
    PassKeepsNoBreak(collapsed, LiClose, LiOpen, '\n');
    PassKeepsNoBreak(li, H2Close, POpen, '\r');
    PassKeepsNoBreak(li, H2Close, POpen, '\n');
  }

  /** The cleaned memorandum has no whitespace between `</li>` and `<li>`, or `</h2>` and `<p>`. */
  lemma CleanHtmlGaps(html: string, c: char)
    requires IsSpace(c)
    ensures !Contains(CleanHtml(html), LiClose + [c] + LiOpen)
    ensures !Contains(CleanHtml(html), H2Close + [c] + POpen)
  {
    var li := CloseGap(Collapsed(html), LiClose, LiOpen);
    LiGapClashes(c);
    H2GapClashes(c);
    GapClosed(Collapsed(html), LiClose, LiOpen, c);
    NoNewPattern(li, H2Close, POpen, LiClose + [c] + LiOpen);
    GapClosed(li, H2Close, POpen, c);
  }

  lemma {:induction false} LineBreaksAreSpace(s: string)
    ensures NonSpace(RemoveLineBreaks(s)) == NonSpace(s)
  {
    if s != [] {
      LineBreaksAreSpace(s[1..]);
      if NotLineBreak(s[0]) {
        assert RemoveLineBreaks(s) == [s[0]] + RemoveLineBreaks(s[1..]);
        assert ([s[0]] + RemoveLineBreaks(s[1..]))[1..] == RemoveLineBreaks(s[1..]);
      }
    }
  }

  /** Between the fences, cleaning removes whitespace only. */
  lemma CleanHtmlKeepsText(html: string)
    ensures NonSpace(CleanHtml(html)) == NonSpace(StripFences(html))
  {
    var lines := RemoveLineBreaks(StripFences(html));
    var li := CloseGap(Collapsed(html), LiClose, LiOpen);
    CloseGapKeepsText(Collapsed(html), LiClose, LiOpen);
    CloseGapKeepsText(li, H2Close, POpen);
    CollapseKeepsText(lines);
    LineBreaksAreSpace(StripFences(html));
  }

  /** A form-data value: an uploaded file or a text field. */
  datatype FormValue = FileValue(file: FileUpload.File) | TextValue(text: string)

  /** The names `handleSubmit` appends under. */
  datatype FieldName =
    | DocumentsField | OcrDocumentsField | CurrentRoundField | ProposedValuationField
    | ValuationDateField | LinkedInUrlsField | UrlsField

  /** The name as it appears on the wire. */
  function Key(name: FieldName): string {
    match name
    case DocumentsField => "documents"
    case OcrDocumentsField => "ocrDocuments"
    case CurrentRoundField => "currentRound"
    case ProposedValuationField => "proposedValuation"
    case ValuationDateField => "valuationDate"
    case LinkedInUrlsField => "linkedInUrls[]"
    case UrlsField => "urls[]"
  }

  datatype FormEntry = FormEntry(name: FieldName, value: FormValue)

  /** The form state `handleSubmit` reads. */
  datatype MemoForm = MemoForm(
    valuationDate: string,
    currentRound: string,
    proposedValuation: string,
    linkedInUrls: seq<string>,
    urls: seq<UrlInputs.PublishedUrl>,
    documents: FileUpload.Documents)

  /** How a submission ends before the request: an error, or the form data to post. */
  datatype SubmitOutcome = Invalid(error: string) | Send(formData: seq<FormEntry>)

  const DateError: string := "Please fill in the Analysis Date."
  const DocumentsError: string := "Please upload at least one document."

  predicate NotComma(c: char) {
    c != ','
  }

  /** `replace(/,/g, "")`. */
  function StripCommas(s: string): (r: string)
    ensures ',' !in r
    ensures forall c :: c in r <==> c in s && c != ','
    ensures |r| <= |s|
  {
    Filter(s, NotComma)
  }

  /** Removing commas keeps the other characters in order. */
  lemma StripCommasAppend(x: string, y: string)
    ensures StripCommas(x + y) == StripCommas(x) + StripCommas(y)
  {
    FilterAppend(x, y, NotComma);
  }

  function FileValues(files: seq<FileUpload.File>): (r: seq<FormValue>)
    ensures |r| == |files|
    ensures forall i :: 0 <= i < |files| ==> r[i] == FileValue(files[i])
  {
    if files == [] then [] else FileValues(files[..|files| - 1]) + [FileValue(files[|files| - 1])]
  }

  function TextValues(texts: seq<string>): (r: seq<FormValue>)
    ensures |r| == |texts|
    ensures forall i :: 0 <= i < |texts| ==> r[i] == TextValue(texts[i])
  {
    if texts == [] then [] else TextValues(texts[..|texts| - 1]) + [TextValue(texts[|texts| - 1])]
  }

  /** One entry per value, all under `name`. */
  function Entries(name: FieldName, values: seq<FormValue>): (r: seq<FormEntry>)
    ensures |r| == |values|
  {
    if values == [] then [] else Entries(name, values[..|values| - 1]) + [FormEntry(name, values[|values| - 1])]
  }

  /** `JSON.stringify` of each published URL; `stringify` stands for it. */
  function Stringified(urls: seq<UrlInputs.PublishedUrl>, stringify: UrlInputs.PublishedUrl -> string): (r: seq<string>)
    ensures |r| == |urls|
  {
    if urls == [] then [] else Stringified(urls[..|urls| - 1], stringify) + [stringify(urls[|urls| - 1])]
  }

  function DealFields(form: MemoForm): seq<FormEntry> {
    [FormEntry(CurrentRoundField, TextValue(StripCommas(form.currentRound))),
     FormEntry(ProposedValuationField, TextValue(StripCommas(form.proposedValuation))),
     FormEntry(ValuationDateField, TextValue(form.valuationDate))]
  }

  /** The entries `handleSubmit` appends, in order. */
  function FormDataOf(form: MemoForm, stringify: UrlInputs.PublishedUrl -> string): seq<FormEntry> {
    Entries(DocumentsField, FileValues(form.documents.regular))
    + Entries(OcrDocumentsField, FileValues(form.documents.ocr))
    + DealFields(form)
    + Entries(LinkedInUrlsField, TextValues(form.linkedInUrls))
    + Entries(UrlsField, TextValues(Stringified(form.urls, stringify)))
  }

  /** The outcome of a submission: the two checks, then the form data. */
  function Submit(form: MemoForm, stringify: UrlInputs.PublishedUrl -> string): SubmitOutcome {
    if form.valuationDate == "" then Invalid(DateError)
    else if form.documents.regular == [] && form.documents.ocr == [] then Invalid(DocumentsError)
    else Send(FormDataOf(form, stringify))
  }

  /** The values sent under `name`, in order. */
  function ValuesNamed(entries: seq<FormEntry>, name: FieldName): (r: seq<FormValue>)
    ensures |r| <= |entries|
  {
    if entries == [] then []
    else
      var last := entries[|entries| - 1];
      ValuesNamed(entries[..|entries| - 1], name) + (if last.name == name then [last.value] else [])
  }

  lemma {:induction false} ValuesNamedAppend(a: seq<FormEntry>, b: seq<FormEntry>, name: FieldName)
    ensures ValuesNamed(a + b, name) == ValuesNamed(a, name) + ValuesNamed(b, name)
    decreases |b|
  {
    if b == [] {
      assert a + b == a;
    } else {
      var last := b[|b| - 1];
      assert (a + b)[..|a + b| - 1] == a + b[..|b| - 1];
      ValuesNamedAppend(a, b[..|b| - 1], name);
    }
  }

  lemma {:induction false} ValuesOfEntries(n: FieldName, values: seq<FormValue>, name: FieldName)
    ensures ValuesNamed(Entries(n, values), name) == if n == name then values else []
  {
    if values != [] {
      var init := values[..|values| - 1];
      ValuesOfEntries(n, init, name);
      var es := Entries(n, values);
      assert es[..|es| - 1] == Entries(n, init);
      assert values == init + [values[|values| - 1]];
    }
  }

  /** The values a submission sends under each name. */
  function Expected(form: MemoForm, stringify: UrlInputs.PublishedUrl -> string, name: FieldName): seq<FormValue> {
    match name
    case DocumentsField => FileValues(form.documents.regular)
    case OcrDocumentsField => FileValues(form.documents.ocr)
    case CurrentRoundField => [TextValue(StripCommas(form.currentRound))]
    case ProposedValuationField => [TextValue(StripCommas(form.proposedValuation))]
    case ValuationDateField => [TextValue(form.valuationDate)]
    case LinkedInUrlsField => TextValues(form.linkedInUrls)
    case UrlsField => TextValues(Stringified(form.urls, stringify))
  }

  predicate IsDealField(name: FieldName) {
    name == CurrentRoundField || name == ProposedValuationField || name == ValuationDateField
  }

  lemma ValuesOfDealFields(form: MemoForm, stringify: UrlInputs.PublishedUrl -> string, name: FieldName)
    ensures ValuesNamed(DealFields(form), name) == if IsDealField(name) then Expected(form, stringify, name) else []
  {
    var f := DealFields(form);
    assert f[..2][..1][..0] == [];
    assert f[..2][..1] == [f[0]];
    assert f[..2] == [f[0], f[1]];
    assert ValuesNamed(f[..2][..1], name) == if f[0].name == name then [f[0].value] else [];
    assert ValuesNamed(f[..2], name) == ValuesNamed(f[..2][..1], name) + if f[1].name == name then [f[1].value] else [];
    assert ValuesNamed(f, name) == ValuesNamed(f[..2], name) + if f[2].name == name then [f[2].value] else [];
  }

  /**
   * A submission without a date is refused with the date message, one
   * with a date but no document of either kind with the documents message,
   * and any other is sent.
   */
  lemma SubmitChecks(form: MemoForm, stringify: UrlInputs.PublishedUrl -> string)
    ensures Submit(form, stringify) == Invalid(DateError) <==> form.valuationDate == ""
    ensures Submit(form, stringify) == Invalid(DocumentsError) <==>
      form.valuationDate != "" && form.documents.regular == [] && form.documents.ocr == []
    ensures Submit(form, stringify).Send? <==>
      form.valuationDate != "" && (form.documents.regular != [] || form.documents.ocr != [])
  {
    assert DateError != DocumentsError by {
      assert |DateError| != |DocumentsError|;
    }
  }

  /** The values under a name are those of each block of the form data in turn. */
  lemma FormDataValues(form: MemoForm, stringify: UrlInputs.PublishedUrl -> string, name: FieldName)
    ensures ValuesNamed(FormDataOf(form, stringify), name) ==
      ValuesNamed(Entries(DocumentsField, FileValues(form.documents.regular)), name)
      + ValuesNamed(Entries(OcrDocumentsField, FileValues(form.documents.ocr)), name)
      + ValuesNamed(DealFields(form), name)
      + ValuesNamed(Entries(LinkedInUrlsField, TextValues(form.linkedInUrls)), name)
      + ValuesNamed(Entries(UrlsField, TextValues(Stringified(form.urls, stringify))), name)
  {
    var d := Entries(DocumentsField, FileValues(form.documents.regular));
    var o := Entries(OcrDocumentsField, FileValues(form.documents.ocr));
    var f := DealFields(form);
    var l := Entries(LinkedInUrlsField, TextValues(form.linkedInUrls));
    var u := Entries(UrlsField, TextValues(Stringified(form.urls, stringify)));
    ValuesNamedAppend(d + o + f + l, u, name);
    ValuesNamedAppend(d + o + f, l, name);
    ValuesNamedAppend(d + o, f, name);
    ValuesNamedAppend(d, o, name);
  }

  /** The list-valued blocks contribute nothing under any other name. */
  lemma NoValuesOfOthers(form: MemoForm, stringify: UrlInputs.PublishedUrl -> string, name: FieldName)
    ensures name != DocumentsField ==>
      ValuesNamed(Entries(DocumentsField, FileValues(form.documents.regular)), name) == []
    ensures name != OcrDocumentsField ==>
      ValuesNamed(Entries(OcrDocumentsField, FileValues(form.documents.ocr)), name) == []
    ensures name != LinkedInUrlsField ==>
      ValuesNamed(Entries(LinkedInUrlsField, TextValues(form.linkedInUrls)), name) == []
    ensures name != UrlsField ==>
      ValuesNamed(Entries(UrlsField, TextValues(Stringified(form.urls, stringify))), name) == []
  {
    ValuesOfEntries(DocumentsField, FileValues(form.documents.regular), name);
    ValuesOfEntries(OcrDocumentsField, FileValues(form.documents.ocr), name);
    ValuesOfEntries(LinkedInUrlsField, TextValues(form.linkedInUrls), name);
    ValuesOfEntries(UrlsField, TextValues(Stringified(form.urls, stringify)), name);
  }

  /**
   * The server receives under each name exactly its values: the regular
   * files under `documents` and the OCR files under `ocrDocuments` in order,
   * the deal terms without commas, the date, every founder URL in order and
   * every published URL in order.
   */
  lemma SubmitValues(form: MemoForm, stringify: UrlInputs.PublishedUrl -> string, name: FieldName)
    ensures ValuesNamed(FormDataOf(form, stringify), name) == Expected(form, stringify, name)
  {
    if IsDealField(name) {
      DealFieldValues(form, stringify, name);
    } else {
      ListFieldValues(form, stringify, name);
    }
  }

  /** Each deal term is sent once, as the text field the form holds. */
  lemma DealFieldValues(form: MemoForm, stringify: UrlInputs.PublishedUrl -> string, name: FieldName)
    requires IsDealField(name)
    ensures ValuesNamed(FormDataOf(form, stringify), name) == Expected(form, stringify, name)
  {
    FormDataValues(form, stringify, name);
    ValuesOfDealFields(form, stringify, name);
    NoValuesOfOthers(form, stringify, name);
    OneBlock(ValuesNamed(Entries(DocumentsField, FileValues(form.documents.regular)), name),
      ValuesNamed(Entries(OcrDocumentsField, FileValues(form.documents.ocr)), name),
      ValuesNamed(DealFields(form), name),
      ValuesNamed(Entries(LinkedInUrlsField, TextValues(form.linkedInUrls)), name),
      ValuesNamed(Entries(UrlsField, TextValues(Stringified(form.urls, stringify))), name),
      Expected(form, stringify, name));
  }

  /** Five blocks of which all but one are empty concatenate to that one. */
  lemma OneBlock(vd: seq<FormValue>, vo: seq<FormValue>, vf: seq<FormValue>, vl: seq<FormValue>, vu: seq<FormValue>,
                 v: seq<FormValue>)
    requires || (vd == v && vo == [] && vf == [] && vl == [] && vu == [])
             || (vd == [] && vo == v && vf == [] && vl == [] && vu == [])
             || (vd == [] && vo == [] && vf == v && vl == [] && vu == [])
             || (vd == [] && vo == [] && vf == [] && vl == v && vu == [])
             || (vd == [] && vo == [] && vf == [] && vl == [] && vu == v)
    ensures vd + vo + vf + vl + vu == v
  {
  }

  /** The files and the URLs are sent in order under their own names. */
  lemma ListFieldValues(form: MemoForm, stringify: UrlInputs.PublishedUrl -> string, name: FieldName)
    requires !IsDealField(name)
    ensures ValuesNamed(FormDataOf(form, stringify), name) == Expected(form, stringify, name)
  {
    FormDataValues(form, stringify, name);
    ValuesOfDealFields(form, stringify, name);
    NoValuesOfOthers(form, stringify, name);
    var vd := ValuesNamed(Entries(DocumentsField, FileValues(form.documents.regular)), name);
    var vo := ValuesNamed(Entries(OcrDocumentsField, FileValues(form.documents.ocr)), name);
    var vf := ValuesNamed(DealFields(form), name);
    var vl := ValuesNamed(Entries(LinkedInUrlsField, TextValues(form.linkedInUrls)), name);
    var vu := ValuesNamed(Entries(UrlsField, TextValues(Stringified(form.urls, stringify))), name);
    match name
    case DocumentsField =>
      ValuesOfEntries(DocumentsField, FileValues(form.documents.regular), name);
      OneBlock(vd, vo, vf, vl, vu, Expected(form, stringify, name));
    case OcrDocumentsField =>
      ValuesOfEntries(OcrDocumentsField, FileValues(form.documents.ocr), name);
      OneBlock(vd, vo, vf, vl, vu, Expected(form, stringify, name));
    case LinkedInUrlsField =>
      ValuesOfEntries(LinkedInUrlsField, TextValues(form.linkedInUrls), name);
      OneBlock(vd, vo, vf, vl, vu, Expected(form, stringify, name));
    case UrlsField =>
      ValuesOfEntries(UrlsField, TextValues(Stringified(form.urls, stringify)), name);
      OneBlock(vd, vo, vf, vl, vu, Expected(form, stringify, name));
  }

  lemma TextValuesStep(formData: seq<FormEntry>, name: FieldName, texts: seq<string>, i: nat)
    requires i < |texts|
    ensures formData + Entries(name, TextValues(texts[..i])) + [FormEntry(name, TextValue(texts[i]))]
      == formData + Entries(name, TextValues(texts[..i + 1]))
  {
    assert texts[..i + 1] == texts[..i] + [texts[i]];
    TextValuesSnoc(texts[..i], texts[i]);
    EntriesSnoc(name, TextValues(texts[..i]), TextValue(texts[i]));
  }

  lemma FileValuesStep(formData: seq<FormEntry>, name: FieldName, files: seq<FileUpload.File>, i: nat)
    requires i < |files|
    ensures formData + Entries(name, FileValues(files[..i])) + [FormEntry(name, FileValue(files[i]))]
      == formData + Entries(name, FileValues(files[..i + 1]))
  {
    assert files[..i + 1] == files[..i] + [files[i]];
    FileValuesSnoc(files[..i], files[i]);
    EntriesSnoc(name, FileValues(files[..i]), FileValue(files[i]));
  }

  lemma EntriesSnoc(name: FieldName, values: seq<FormValue>, v: FormValue)
    ensures Entries(name, values + [v]) == Entries(name, values) + [FormEntry(name, v)]
  {
    assert (values + [v])[..|values|] == values;
  }

  lemma TextValuesSnoc(texts: seq<string>, t: string)
    ensures TextValues(texts + [t]) == TextValues(texts) + [TextValue(t)]
  {
    assert (texts + [t])[..|texts|] == texts;
  }

  lemma FileValuesSnoc(files: seq<FileUpload.File>, f: FileUpload.File)
    ensures FileValues(files + [f]) == FileValues(files) + [FileValue(f)]
  {
    assert (files + [f])[..|files|] == files;
  }

  /**
   * `handleSubmit` up to the request: the two checks with early returns,
   * then the `formData.append` loops.
   */
  method HandleSubmit(form: MemoForm, stringify: UrlInputs.PublishedUrl -> string) returns (outcome: SubmitOutcome)
    ensures outcome == Submit(form, stringify)
  {
    if form.valuationDate == "" {
      return Invalid(DateError);
    }
    var hasDocuments := |form.documents.regular| > 0;
    var hasOcrDocuments := |form.documents.ocr| > 0;
    if !hasDocuments && !hasOcrDocuments {
      return Invalid(DocumentsError);
    }
    var regular := AppendFiles([], DocumentsField, form.documents.regular);
    assert regular == Entries(DocumentsField, FileValues(form.documents.regular));
    var withOcr := AppendFiles(regular, OcrDocumentsField, form.documents.ocr);
    var formData := withOcr + DealFields(form);
    var withFounders := AppendTexts(formData, LinkedInUrlsField, form.linkedInUrls);
    var urls := Stringify(form.urls, stringify);
    formData := AppendTexts(withFounders, UrlsField, urls);
    outcome := Send(formData);
  }

  /** `for (...) formData.append(name, files[i])`. */
  method AppendFiles(formData: seq<FormEntry>, name: FieldName, files: seq<FileUpload.File>) returns (r: seq<FormEntry>)
    ensures r == formData + Entries(name, FileValues(files))
  {
    r := formData;
    var i := 0;
    while i < |files|
      invariant i <= |files|
      invariant r == formData + Entries(name, FileValues(files[..i]))
    {
      FileValuesStep(formData, name, files, i);
      r := r + [FormEntry(name, FileValue(files[i]))];
      i := i + 1;
    }
    assert files[..i] == files;
  }

  /** `texts.forEach(t => formData.append(name, t))`. */
  method AppendTexts(formData: seq<FormEntry>, name: FieldName, texts: seq<string>) returns (r: seq<FormEntry>)
    ensures r == formData + Entries(name, TextValues(texts))
  {
    r := formData;
    var i := 0;
    while i < |texts|
      invariant i <= |texts|
      invariant r == formData + Entries(name, TextValues(texts[..i]))
    {
      TextValuesStep(formData, name, texts, i);
      r := r + [FormEntry(name, TextValue(texts[i]))];
      i := i + 1;
    }
    assert texts[..i] == texts;
  }

  method Stringify(urls: seq<UrlInputs.PublishedUrl>, stringify: UrlInputs.PublishedUrl -> string) returns (r: seq<string>)
    ensures r == Stringified(urls, stringify)
  {
    r := [];
    var i := 0;
    while i < |urls|
      invariant i <= |urls|
      invariant r == Stringified(urls[..i], stringify)
    {
      assert urls[..i + 1][..i] == urls[..i];
      r := r + [stringify(urls[i])];
      i := i + 1;
    }
    assert urls[..i] == urls;
  }
}

=== FILE: summaries.dfy ===
/**
 * `createSectionSummary` and the `summarize*` helpers of the backend context
 * manager: the digests that stand in for a section that does not fit.
 */
module Summaries {
  import opened Strings
  import opened Seqs
  import opened Sections
  import opened Phrases

  const BusinessTerms: seq<string> :=
    ["revenue", "growth", "market", "customers", "product", "technology", "team", "funding", "valuation", "competitors"]

  predicate MentionsBusiness(sentence: string) {
    exists t :: t in BusinessTerms && Contains(Lower(sentence), t)
  }

  /** The first three sentences that mention a business term. */
  function DocumentKeySentences(content: string): (r: seq<string>)
    ensures |r| <= 3
    ensures forall x :: x in r ==> x in SplitSentences(content) && MentionsBusiness(x)
    ensures SumLen(r) <= |content|
  {
    var sentences := SplitSentences(content);
    var r := Take(Filter(sentences, MentionsBusiness), 3);
    SplitSentencesLength(content);
    FilterSumLen(sentences, MentionsBusiness);
    TakeSumLen(Filter(sentences, MentionsBusiness), 3);
    r
  }

  /** A summary of a document section is at most 23 characters longer than it. */
  function SummarizeDocumentContent(content: string): (r: string)
    ensures |r| <= |content| + 23
  {
    var ks := DocumentKeySentences(content);
    JoinBound(ks, ". ", 3);
    "Business Summary: " + Join(ks, ". ") + "."
  }

  /** A joined list of at most `n` pieces is no longer than the pieces and `n - 1` separators. */
  lemma JoinBound(parts: seq<string>, sep: string, n: nat)
    requires |parts| <= n
    ensures n >= 1 ==> |Join(parts, sep)| <= SumLen(parts) + |sep| * (n - 1)
  {
    if parts != [] {
      JoinLength(parts, sep);
      MulMono(|sep|, |parts| - 1, n - 1);
    }
  }

  lemma MulMono(a: nat, b: nat, c: nat)
    requires b <= c
    ensures a * b <= a * c
  {
  }

  predicate NonBlank(line: string) {
    Trim(line) != ""
  }

  predicate NamesFounderField(line: string) {
    Contains(line, "Name:") || Contains(line, "Position:") || Contains(line, "Experience:") || Contains(line, "Education:")
  }

  /** `lines.map(l => l.trim())`. */
  function TrimAll(lines: seq<string>): (r: seq<string>)
    ensures |r| == |lines|
    ensures forall i :: 0 <= i < |r| ==> r[i] == Trim(lines[i])
    ensures SumLen(r) <= SumLen(lines)
  {
    if lines == [] then [] else [Trim(lines[0])] + TrimAll(lines[1..])
  }

  /**
   * The lines of `summarizeFounderInfo`: the non-blank lines naming a founder
   * field, trimmed, and at most four of them.
   */
  function FounderKeyLines(content: string): (r: seq<string>)
    ensures |r| <= 4
    ensures forall i :: 0 <= i < |r| ==>
      exists line :: line in Split(content, '\n') && NamesFounderField(line) && r[i] == Trim(line)
    ensures SumLen(r) <= |content|
  {
    var lines := Filter(Split(content, '\n'), NonBlank);
    var keyInfo := TrimAll(Filter(lines, NamesFounderField));
    var r := Take(keyInfo, 4);
    SplitLength(content, '\n');
    FilterSumLen(Split(content, '\n'), NonBlank);
    FilterSumLen(lines, NamesFounderField);
    TakeSumLen(keyInfo, 4);
    forall i | 0 <= i < |r|
      ensures exists line :: line in Split(content, '\n') && NamesFounderField(line) && r[i] == Trim(line)
    {
      var line := Filter(lines, NamesFounderField)[i];
      assert line in Filter(lines, NamesFounderField);
      assert r[i] == Trim(line);
    }
    r
  }

  /** A summary of a founder section is at most 24 characters longer than it. */
  function SummarizeFounderInfo(content: string): (r: string)
    ensures |r| <= |content| + 24
  {
    var ks := FounderKeyLines(content);
    JoinBound(ks, ", ", 4);
    "Founder Details: " + Join(ks, ", ") + "."
  }

  predicate LongerThan30(sentence: string) {
    |Trim(sentence)| > 30
  }

  predicate LongerThan20(sentence: string) {
    |Trim(sentence)| > 20
  }

  /** The first two sentences whose trimmed length exceeds 30. */
  function WebKeySentences(content: string): (r: seq<string>)
    ensures |r| <= 2
    ensures forall x :: x in r ==> x in SplitSentences(content) && |Trim(x)| > 30
    ensures SumLen(r) <= |content|
  {
    var sentences := SplitSentences(content);
    SplitSentencesLength(content);
    FilterSumLen(sentences, LongerThan30);
    TakeSumLen(Filter(sentences, LongerThan30), 2);
    Take(Filter(sentences, LongerThan30), 2)
  }

  /** A summary of a web section is at most 24 characters longer than it. */
  function SummarizeWebContent(content: string): (r: string)
    ensures |r| <= |content| + 24
  {
    var ks := WebKeySentences(content);
    JoinBound(ks, ". ", 2);
    "Web Content Summary: " + Join(ks, ". ") + "."
  }

  /** The first two sentences whose trimmed length exceeds 20. */
  function GenericKeySentences(content: string): (r: seq<string>)
    ensures |r| <= 2
    ensures forall x :: x in r ==> x in SplitSentences(content) && |Trim(x)| > 20
    ensures SumLen(r) <= |content|
  {
    var sentences := SplitSentences(content);
    SplitSentencesLength(content);
    FilterSumLen(sentences, LongerThan20);
    TakeSumLen(Filter(sentences, LongerThan20), 2);
    Take(Filter(sentences, LongerThan20), 2)
  }

  /**
   * The three leading key phrases: the most frequent long words of the
   * content, and no word outside them occurs more often than any of them.
   */
  function TopPhrases(content: string): (r: seq<string>)
    ensures |r| <= 3
    ensures forall w :: w in r ==> w in Words(content)
    ensures forall w, i :: w in Words(content) && w !in r && 0 <= i < |r| ==>
      multiset(Words(content))[w] <= multiset(Words(content))[r[i]]
    ensures forall w :: w in Words(content) && w !in r ==> |r| == 3
  {
    var all, ws := KeyPhrases(content), Words(content);
    assert (forall i, j :: 0 <= i < j < |all| ==> multiset(ws)[all[i]] >= multiset(ws)[all[j]])
      && (forall x :: x in all ==> x in ws) by {
      KeyPhrasesAreFrequentWords(content);
    }
    forall x | x in ws && x !in all
      ensures |all| == 10 && forall i :: 0 <= i < |all| ==> multiset(ws)[x] <= multiset(ws)[all[i]]
    {
      KeyPhrasesAreTop(content, x);
    }
    TopThree(all, ws);
    Take(all, 3)
  }

  /** The first three of a ranked list that outranks every word it leaves out. */
  lemma TopThree(all: seq<string>, ws: seq<string>)
    requires forall i, j :: 0 <= i < j < |all| ==> multiset(ws)[all[i]] >= multiset(ws)[all[j]]
    requires forall x :: x in all ==> x in ws
    requires forall x :: x in ws && x !in all ==>
      |all| == 10 && forall i :: 0 <= i < |all| ==> multiset(ws)[x] <= multiset(ws)[all[i]]
    ensures forall w :: w in Take(all, 3) ==> w in ws
    ensures forall w, i :: w in ws && w !in Take(all, 3) && 0 <= i < |Take(all, 3)| ==>
      multiset(ws)[w] <= multiset(ws)[Take(all, 3)[i]]
    ensures forall w :: w in ws && w !in Take(all, 3) ==> |Take(all, 3)| == 3
  {
    var r := Take(all, 3);
    forall w | w in ws && w !in r
      ensures |r| == 3 && forall i :: 0 <= i < |r| ==> multiset(ws)[w] <= multiset(ws)[r[i]]
    {
      OutsideTopIsLower(all, ws, w);
    }
  }

  /**
   * Cut to three, a list ordered by count and holding every word that
   * outranks a word left out still outranks every word left out.
   */
  lemma OutsideTopIsLower(all: seq<string>, ws: seq<string>, w: string)
    requires forall i, j :: 0 <= i < j < |all| ==> multiset(ws)[all[i]] >= multiset(ws)[all[j]]
    requires forall x :: x in ws && x !in all ==>
      |all| == 10 && forall i :: 0 <= i < |all| ==> multiset(ws)[x] <= multiset(ws)[all[i]]
    requires w in ws && w !in Take(all, 3)
    ensures |Take(all, 3)| == 3
    ensures forall i :: 0 <= i < 3 ==> multiset(ws)[w] <= multiset(ws)[Take(all, 3)[i]]
  {
    if w in all {
      LeftOutIsLower(all, ws, w, 3);
    } else {
      TopPrefix(all, ws, w, 3);
    }
  }

  /** Whatever bounds every entry of a list bounds every entry of its prefix. */
  lemma TopPrefix(all: seq<string>, ws: seq<string>, w: string, n: nat)
    requires n <= |all|
    requires forall i :: 0 <= i < |all| ==> multiset(ws)[w] <= multiset(ws)[all[i]]
    ensures |Take(all, n)| == n
    ensures forall i :: 0 <= i < n ==> multiset(ws)[w] <= multiset(ws)[Take(all, n)[i]]
  {
    assert forall i :: 0 <= i < n ==> Take(all, n)[i] == all[i];
  }

  /** The digest of a section of any other type. */
  function SummarizeGeneric(content: string): string {
    "Key points: " + Join(TopPhrases(content), ", ") + ". " + Join(GenericKeySentences(content), ". ") + "."
  }

  /** `createSectionSummary`: the digest is chosen by the section's type. */
  function CreateSectionSummary(section: Section): string {
    match section.sectionType
    case DocumentContent => SummarizeDocumentContent(section.content)
    case FounderInfo => SummarizeFounderInfo(section.content)
    case WebContent => SummarizeWebContent(section.content)
    case _ => SummarizeGeneric(section.content)
  }
}

=== FILE: upload_route.dfy ===
/**
 * The decision logic of the upload routes (api/index.js and
 * backend/index.js): form-field normalisation, the building of the
 * extracted text, the content and moderation gates, the scraped-text clean
 * up, the market-analysis output slicing and the error-to-status mapping.
 * Fetches, moderation calls and the subprocess are inputs to these
 * functions.
 */
module UploadRoute {
  import opened Strings
  import opened Seqs
  import opened SeqFacts

  /** A multipart form field: absent, sent once, or sent several times. */
  datatype FormField = Absent | Single(value: string) | Many(values: seq<string>)

  /**
   * `linkedInUrls`: the array itself, a one-element array for a single
   * (non-empty) value, else the empty array.
   */
  function LinkedInUrls(field: FormField): (urls: seq<string>)
    ensures field.Many? ==> urls == field.values
    ensures field.Single? ==> urls == if field.value != "" then [field.value] else []
    ensures field.Absent? ==> urls == []
  {
    match field
    case Many(values) => values
    case Single(value) => if value != "" then [value] else []
    case Absent => []
  }

  predicate NonEmpty(s: string) {
    s != ""
  }

  /**
   * The founder block: one description per non-empty URL, in order; the
   * `null`s of empty URLs are dropped before the join. `describe` stands
   * for the fetch and formatting of one profile.
   */
  function FounderBlock(urls: seq<string>, describe: string -> string): (r: seq<string>)
    ensures |r| == |Filter(urls, NonEmpty)|
    ensures forall i :: 0 <= i < |r| ==> r[i] == describe(Filter(urls, NonEmpty)[i])
  {
    if urls == [] then []
    else if urls[0] != "" then [describe(urls[0])] + FounderBlock(urls[1..], describe)
    else FounderBlock(urls[1..], describe)
  }

  function FounderText(urls: seq<string>, describe: string -> string): string {
    Join(FounderBlock(urls, describe), "\n\n")
  }

  /** An uploaded regular document and the text its extractor returns. */
  datatype Document = Document(mimetype: string, text: string)

  const PdfType: string := "application/pdf"
  const DocxType: string := "application/vnd.openxmlformats-officedocument.wordprocessingml.document"

  /** What one regular document adds to the extracted text. */
  function DocumentPiece(d: Document): string {
    if d.mimetype == PdfType || d.mimetype == DocxType then d.text + "\n\n" else ""
  }

  /** The text of the regular documents, in upload order. */
  function DocumentsText(docs: seq<Document>): string {
    if docs == [] then "" else DocumentsText(docs[..|docs| - 1]) + DocumentPiece(docs[|docs| - 1])
  }

  /** The documents contribute in upload order: the text of a concatenation is the concatenation of the texts. */
  lemma {:induction false} DocumentsTextAppend(a: seq<Document>, b: seq<Document>)
    ensures DocumentsText(a + b) == DocumentsText(a) + DocumentsText(b)
    decreases |b|
  {
    if b == [] {
      assert a + b == a;
    } else {
      var c := a + b;
      assert c[..|c| - 1] == a + b[..|b| - 1];
      assert c[|c| - 1] == b[|b| - 1];
      DocumentsTextAppend(a, b[..|b| - 1]);
      AppendAssoc(DocumentsText(a), DocumentsText(b[..|b| - 1]), DocumentPiece(b[|b| - 1]));
    }
  }

  /** A PDF or Word document adds its text and a blank line; any other upload adds nothing. */
  lemma DocumentsTextSingle(d: Document)
    ensures DocumentsText([d]) == if d.mimetype == PdfType || d.mimetype == DocxType then d.text + "\n\n" else ""
  {
    assert [d][..0] == [];
  }

  /** The documents add nothing exactly when none is a PDF or a DOCX. */
  lemma {:induction false} DocumentsTextEmpty(docs: seq<Document>)
    ensures DocumentsText(docs) == "" <==>
      forall i :: 0 <= i < |docs| ==> docs[i].mimetype != PdfType && docs[i].mimetype != DocxType
  {
    if docs != [] {
      var last := docs[|docs| - 1];
      DocumentsTextEmpty(docs[..|docs| - 1]);
      assert forall i :: 0 <= i < |docs| - 1 ==> docs[..|docs| - 1][i] == docs[i];
      if last.mimetype == PdfType || last.mimetype == DocxType {
        assert |DocumentPiece(last)| >= 2;
      }
    }
  }

  /**
   * The `extractedText +=` loop over the regular documents, after the OCR
   * text (which is `""` when there are no OCR files).
   */
  method BuildExtractedText(ocrText: string, docs: seq<Document>) returns (extractedText: string)
    ensures extractedText == ocrText + DocumentsText(docs)
  {
    extractedText := ocrText;
    var i := 0;
    while i < |docs|
      invariant i <= |docs|
      invariant extractedText == ocrText + DocumentsText(docs[..i])
    {
      var doc := docs[i];
      DocumentsTextStep(ocrText, docs, i);
      if doc.mimetype == PdfType || doc.mimetype == DocxType {
        extractedText := extractedText + (doc.text + "\n\n");
      } else {
        assert DocumentPiece(doc) == "";
        assert extractedText + "" == extractedText;
      }
      i := i + 1;
    }
    assert docs[..|docs|] == docs;
  }

  lemma DocumentsTextStep(ocrText: string, docs: seq<Document>, i: nat)
    requires i < |docs|
    ensures ocrText + DocumentsText(docs[..i + 1]) == ocrText + DocumentsText(docs[..i]) + DocumentPiece(docs[i])
  {
    assert docs[..i + 1][..i] == docs[..i];
    AppendAssoc(ocrText, DocumentsText(docs[..i]), DocumentPiece(docs[i]));
  }

  /** A moderation verdict. */
  datatype Moderation = Moderation(flagged: bool, categories: seq<string>)

  /** How the route ends after its content gates. */
  datatype GateOutcome = Blocked(categories: seq<string>) | NoText | Proceed(text: string)

  const UrlMarker: string := "\n\nContent from provided URL:\n"

  /** The extracted text after the URL step. */
  function WithUrlContent(docText: string, url: string, urlContent: string): string {
    if url != "" then docText + UrlMarker + urlContent else docText
  }

  /**
   * The gates of the serverless upload route: moderate the document text if
   * there is any, add the URL's content, moderate everything, then refuse an
   * empty text. `moderate` stands for the moderation call.
   */
  function UploadGates(docText: string, url: string, urlContent: string, moderate: string -> Moderation): (o: GateOutcome)
    ensures o.NoText? <==>
      docText == "" && url == "" && !moderate("").flagged
    ensures o.Proceed? ==>
      o.text == WithUrlContent(docText, url, urlContent) && o.text != ""
      && !moderate(o.text).flagged && (docText == "" || !moderate(docText).flagged)
    ensures docText != "" && moderate(docText).flagged ==> o == Blocked(moderate(docText).categories)
    ensures (!(docText != "" && moderate(docText).flagged)
             && moderate(WithUrlContent(docText, url, urlContent)).flagged) ==>
      o == Blocked(moderate(WithUrlContent(docText, url, urlContent)).categories)
    ensures o.Blocked? ==>
      (docText != "" && moderate(docText).flagged) || moderate(WithUrlContent(docText, url, urlContent)).flagged
  {
    if docText != "" && moderate(docText).flagged then Blocked(moderate(docText).categories)
    else
      var text := WithUrlContent(docText, url, urlContent);
      if moderate(text).flagged then Blocked(moderate(text).categories)
      else if |text| == 0 then NoText
      else Proceed(text)
  }

  /** Only a non-empty document text is moderated before the URL step. */
  lemma InitialModerationOnlyOnText(url: string, urlContent: string, m1: string -> Moderation, m2: string -> Moderation)
    requires forall s :: s != "" ==> m1(s) == m2(s)
    requires m1(WithUrlContent("", url, urlContent)) == m2(WithUrlContent("", url, urlContent))
    ensures UploadGates("", url, urlContent, m1) == UploadGates("", url, urlContent, m2)
  {
  }

  /**
   * The backend route's first gate: some file, a non-empty `urls[]` array,
   * or a non-empty `linkedInUrls` value must be present.
   */
  function HasContent(files: nat, ocrFiles: nat, urls: FormField, linkedInUrls: FormField): (ok: bool)
    ensures !ok <==>
      files == 0 && ocrFiles == 0
      && !(urls.Many? && |urls.values| > 0)
      && !(linkedInUrls.Single? && linkedInUrls.value != "")
      && !(linkedInUrls.Many? && |linkedInUrls.values| > 0)
  {
    var hasFiles := files > 0 || ocrFiles > 0;
    var hasUrls := urls.Many? && |urls.values| > 0;
    var hasLinkedIn := match linkedInUrls
      case Absent => false
      case Single(value) => |value| > 0
      case Many(values) => |values| > 0;
    hasFiles || hasUrls || hasLinkedIn
  }

  const FlaggedMessage: string := "Content flagged by moderation system"

  /** The backend route's catch block: the HTTP status for an error message. */
  function ErrorStatus(message: string): (status: int)
    ensures status == 400 <==> message == FlaggedMessage
    ensures status == 408 <==> message != FlaggedMessage && Contains(message, "timeout")
    ensures status == 500 <==> message != FlaggedMessage && !Contains(message, "timeout")
  {
    if message == FlaggedMessage then 400
    else if Contains(message, "timeout") then 408
    else 500
  }

  /**
   * `extractContentFromUrl`: the page text with every whitespace run turned
   * into one space and trimmed; `""` when the fetch fails (`None`).
   */
  function ExtractContentFromUrl(page: Option<string>): (r: string)
    ensures page.None? ==> r == ""
    ensures r == [] || (!IsSpace(r[0]) && !IsSpace(r[|r| - 1]))
  {
    if page.None? then "" else CollapseAndTrim(page.value)
  }

  /**
   * The scraped text keeps every non-whitespace character of the page, in
   * order, and has no two whitespace characters in a row.
   */
  lemma ExtractedContentClean(page: string)
    ensures NoDoubleSpace(ExtractContentFromUrl(Some(page)))
    ensures NonSpace(ExtractContentFromUrl(Some(page))) == NonSpace(page)
  {
    CollapseAndTrimSpec(page);
  }

  /** `s.lastIndexOf(c)`: the last index holding `c`, or -1. */
  function LastIndexOf(s: string, c: char): (i: int)
    ensures -1 <= i < |s|
    ensures i >= 0 ==> s[i] == c
    ensures forall j :: i < j < |s| ==> s[j] != c
  {
    if s == [] then -1
    else if s[|s| - 1] == c then |s| - 1
    else LastIndexOf(s[..|s| - 1], c)
  }

  /**
   * `v` sits at index `i` of `output`, no `{` comes after its first
   * character and no `}` after its end.
   */
  predicate LastBraceSpan(output: string, i: nat, v: string) {
    0 < |v| && i + |v| <= |output| && output[i..i + |v|] == v
    && '{' !in output[i + 1..] && '}' !in output[i + |v|..]
  }

  lemma NotInSuffix(s: string, c: char, k: nat)
    requires k <= |s|
    requires forall j :: k <= j < |s| ==> s[j] != c
    ensures c !in s[k..]
  {
    forall m | 0 <= m < |s| - k
      ensures s[k..][m] != c
    {
      assert s[k..][m] == s[k + m];
    }
  }

  /**
   * The candidate JSON text of the script output: from the last `{` to the
   * last `}` inclusive, when both exist and the `}` comes after the `{`.
   */
  function JsonSlice(output: string): (r: Option<string>)
    ensures r.None? <==> LastIndexOf(output, '{') == -1 || LastIndexOf(output, '}') <= LastIndexOf(output, '{')
    ensures r.Some? ==> |r.value| >= 2 && r.value[0] == '{' && r.value[|r.value| - 1] == '}'
    ensures r.Some? ==> '{' !in r.value[1..] && Contains(output, r.value)
    ensures r.Some? ==> exists i :: LastBraceSpan(output, i, r.value)
  {
    var start := LastIndexOf(output, '{');
    var end := LastIndexOf(output, '}');
    if start != -1 && end != -1 && end > start then
      var slice := output[start..end + 1];
      assert forall j :: 0 <= j < |slice| - 1 ==> slice[1..][j] == output[start + 1 + j];
      assert StartsWith(output[start..], slice);
      NotInSuffix(output, '{', start + 1);
      NotInSuffix(output, '}', end + 1);
      assert LastBraceSpan(output, start, slice);
      Some(slice)
    else None
  }

  /** With two objects in the output, the second one is taken. */
  lemma JsonSliceTakesLastObject()
    ensures JsonSlice("{a}{b}") == Some("{b}")
  {
    assert LastIndexOf("{a}{b}", '{') == 3;
    assert LastIndexOf("{a}{b}", '}') == 5;
    assert "{a}{b}"[3..6] == "{b}";
  }

  /** How `runMarketAnalysis` settles. */
  datatype AnalysisOutcome = Rejected(reason: string) | Resolved(json: string) | ParseFailed

  /** The decimal text of an exit code. */
  function IntToString(n: int): string
    decreases if n < 0 then 1 - n else n
  {
    if n < 0 then "-" + IntToString(-n)
    else if n < 10 then [(n + '0' as int) as char]
    else IntToString(n / 10) + IntToString(n % 10)
  }

  /**
   * The close handler: a non-zero (or missing) exit code rejects; on exit 0
   * the JSON slice is parsed, and a missing slice or a parse failure gives
   * the parse-failure result. `parses` stands for `JSON.parse` succeeding.
   */
  function MarketAnalysisOutcome(code: Option<int>, output: string, parses: string -> bool): (o: AnalysisOutcome)
    ensures o.Rejected? <==> code != Some(0)
    ensures o.Resolved? ==> JsonSlice(output) == Some(o.json) && parses(o.json)
    ensures o.ParseFailed? <==> code == Some(0) && (JsonSlice(output).None? || !parses(JsonSlice(output).value))
  {
    if code != Some(0) then
      Rejected("Python script exited with code " + if code.None? then "null" else IntToString(code.value))
    else
      match JsonSlice(output)
      case Some(json) => if parses(json) then Resolved(json) else ParseFailed
      case None => ParseFailed
  }

  /** The output collected from the `data` events, in order. */
  function Concat(chunks: seq<string>): string {
    if chunks == [] then "" else Concat(chunks[..|chunks| - 1]) + chunks[|chunks| - 1]
  }

  /** `runMarketAnalysis`: `result += output` per stdout chunk, then the close handler. */
  method RunMarketAnalysis(stdout: seq<string>, code: Option<int>, parses: string -> bool) returns (o: AnalysisOutcome)
    ensures o == MarketAnalysisOutcome(code, Concat(stdout), parses)
  {
    var result := "";
    var i := 0;
    while i < |stdout|
      invariant i <= |stdout|
      invariant result == Concat(stdout[..i])
    {
      assert stdout[..i + 1][..i] == stdout[..i];
      result := result + stdout[i];
      i := i + 1;
    }
    assert stdout[..|stdout|] == stdout;
    o := MarketAnalysisOutcome(code, result, parses);
  }
}

=== FILE: url_inputs.dfy ===
/**
 * The `MultiUrlInput` component (src/components/MultiUrlInput.jsx): an
 * editable list of URL inputs, each with a numeric id, a value, a type and a
 * placeholder, and the list of non-blank URLs it publishes to the form.
 */
module UrlInputs {
  import opened Strings
  import opened Seqs
  import opened SeqFacts

  datatype UrlInput = UrlInput(id: int, value: string, urlType: string, placeholder: string)

  /** The fields `updateUrl` is called with. */
  datatype Field = ValueField | TypeField | PlaceholderField

  /** An entry of the published list, `{ url, type }`. */
  datatype PublishedUrl = PublishedUrl(url: string, urlType: string)

  const InitialInputs: seq<UrlInput> := [
    UrlInput(1, "", "company", "Company website URL"),
    UrlInput(2, "", "news", "News article URL"),
    UrlInput(3, "", "other", "Additional resource URL")
  ]

  /** One of the selectable URL types and its icon. */
  datatype UrlType = UrlType(value: string, icon: string)

  const UrlTypes: seq<UrlType> := [
    UrlType("company", "\U{1F3E2}"),
    UrlType("news", "\U{1F4F0}"),
    UrlType("product", "\U{1F6CD}\U{FE0F}"),
    UrlType("social", "\U{1F4F1}"),
    UrlType("blog", "\U{1F4DD}"),
    UrlType("other", "\U{1F517}")
  ]

  const DefaultIcon: string := "\U{1F517}"

  /** No two inputs share an id. */
  predicate UniqueIds(inputs: seq<UrlInput>) {
    forall i, j :: 0 <= i < j < |inputs| ==> DistinctIds(inputs, i, j)
  }

  predicate DistinctIds(inputs: seq<UrlInput>, i: nat, j: nat)
    requires i < |inputs| && j < |inputs|
  {
    inputs[i].id != inputs[j].id
  }

  /** `{ ...input, [field]: value }`. */
  function SetField(input: UrlInput, field: Field, v: string): (r: UrlInput)
    ensures r.id == input.id
    ensures r.value == (if field == ValueField then v else input.value)
    ensures r.urlType == (if field == TypeField then v else input.urlType)
    ensures r.placeholder == (if field == PlaceholderField then v else input.placeholder)
  {
    match field
    case ValueField => input.(value := v)
    case TypeField => input.(urlType := v)
    case PlaceholderField => input.(placeholder := v)
  }

  /** The list after `updateUrl(id, field, value)`. */
  function UpdateInputs(inputs: seq<UrlInput>, id: int, field: Field, v: string): (r: seq<UrlInput>)
    ensures |r| == |inputs|
    ensures forall i :: 0 <= i < |inputs| ==> r[i].id == inputs[i].id
    ensures forall i :: 0 <= i < |inputs| && inputs[i].id != id ==> r[i] == inputs[i]
    ensures forall i :: 0 <= i < |inputs| && inputs[i].id == id ==> r[i] == SetField(inputs[i], field, v)
  {
    seq(|inputs|, i requires 0 <= i < |inputs| =>
      if inputs[i].id == id then SetField(inputs[i], field, v) else inputs[i])
  }

  /** Updating a field keeps the ids, so unique ids stay unique. */
  lemma UpdateKeepsIdsUnique(inputs: seq<UrlInput>, id: int, field: Field, v: string)
    requires UniqueIds(inputs)
    ensures UniqueIds(UpdateInputs(inputs, id, field, v))
  {
    var r := UpdateInputs(inputs, id, field, v);
    forall i, j | 0 <= i < j < |r| ensures DistinctIds(r, i, j) {
      assert DistinctIds(inputs, i, j);
    }
  }

  predicate NonBlank(input: UrlInput) {
    Trim(input.value) != ""
  }

  function ToPublished(input: UrlInput): PublishedUrl {
    PublishedUrl(input.value, input.urlType)
  }

  /** `inputs.filter(input => input.value.trim()).map(...)`. */
  function Published(inputs: seq<UrlInput>): (urls: seq<PublishedUrl>)
    ensures |urls| <= |inputs|
  {
    if inputs == [] then []
    else (if NonBlank(inputs[0]) then [ToPublished(inputs[0])] else []) + Published(inputs[1..])
  }

  /** Every published URL is non-blank and comes from an input of the same type. */
  lemma {:induction false} PublishedFromInputs(inputs: seq<UrlInput>)
    ensures forall u :: u in Published(inputs) ==> Trim(u.url) != ""
    ensures forall u :: u in Published(inputs) ==> exists i :: 0 <= i < |inputs| && ToPublished(inputs[i]) == u
  {
    if inputs != [] {
      PublishedFromInputs(inputs[1..]);
      forall u | u in Published(inputs[1..])
        ensures exists i :: 0 <= i < |inputs| && ToPublished(inputs[i]) == u
      {
        var i :| 0 <= i < |inputs[1..]| && ToPublished(inputs[1..][i]) == u;
        assert ToPublished(inputs[i + 1]) == u;
      }
    }
  }

  /**
   * The published list is exactly the non-blank inputs in order: it
   * distributes over concatenation and keeps a single input just when its
   * trimmed value is non-empty.
   */
  lemma {:induction false} PublishedAppend(a: seq<UrlInput>, b: seq<UrlInput>)
    ensures Published(a + b) == Published(a) + Published(b)
  {
    if a == [] {
      assert a + b == b;
    } else {
      var head := if NonBlank(a[0]) then [ToPublished(a[0])] else [];
      assert (a + b)[0] == a[0];
      assert (a + b)[1..] == a[1..] + b;
      assert Published(a + b) == head + Published(a[1..] + b);
      PublishedAppend(a[1..], b);
      AppendAssoc(head, Published(a[1..]), Published(b));
    }
  }

  lemma PublishedSingle(input: UrlInput)
    ensures Published([input]) == if Trim(input.value) != "" then [PublishedUrl(input.value, input.urlType)] else []
  {
    assert [input][1..] == [];
  }

  /** `Math.max(...inputs.map(u => u.id))`. */
  function MaxId(inputs: seq<UrlInput>): (m: int)
    requires inputs != []
    ensures forall i :: 0 <= i < |inputs| ==> inputs[i].id <= m
    ensures exists i :: 0 <= i < |inputs| && inputs[i].id == m
  {
    if |inputs| == 1 then inputs[0].id
    else
      var rest := MaxId(inputs[1..]);
      assert forall i :: 1 <= i < |inputs| ==> inputs[i] == inputs[1..][i - 1];
      if inputs[0].id >= rest then inputs[0].id else rest
  }

  /** The entry `addUrlInput` appends. */
  function NewInput(inputs: seq<UrlInput>): UrlInput
    requires inputs != []
  {
    UrlInput(MaxId(inputs) + 1, "", "other", "Additional URL")
  }

  /** Appending the new entry keeps ids unique. */
  lemma AddKeepsIdsUnique(inputs: seq<UrlInput>)
    requires inputs != [] && UniqueIds(inputs)
    ensures UniqueIds(inputs + [NewInput(inputs)])
  {
    var r := inputs + [NewInput(inputs)];
    forall i, j | 0 <= i < j < |r| ensures DistinctIds(r, i, j) {
      if j < |inputs| {
        assert DistinctIds(inputs, i, j);
      }
    }
  }

  predicate HasOtherId(id: int, input: UrlInput) {
    input.id != id
  }

  /** `inputs.filter(input => input.id !== id)`. */
  function WithoutId(inputs: seq<UrlInput>, id: int): (r: seq<UrlInput>)
    ensures forall x :: x in r <==> x in inputs && x.id != id
  {
    Filter(inputs, x => HasOtherId(id, x))
  }

  /** With unique ids, removing one id removes at most one input. */
  lemma {:induction false} RemoveAtMostOne(inputs: seq<UrlInput>, id: int)
    requires UniqueIds(inputs)
    ensures |WithoutId(inputs, id)| >= |inputs| - 1
    ensures UniqueIds(WithoutId(inputs, id))
  {
    if inputs != [] {
      var rest := inputs[1..];
      TailIdsUnique(inputs);
      HeadIdNotInTail(inputs);
      RemoveAtMostOne(rest, id);
      if inputs[0].id == id {
        KeepAll(rest, id);
      } else {
        var kept := WithoutId(rest, id);
        assert WithoutId(inputs, id) == [inputs[0]] + kept;
        ConsIdsUnique(inputs[0], kept);
      }
    }
  }

  lemma TailIdsUnique(inputs: seq<UrlInput>)
    requires inputs != [] && UniqueIds(inputs)
    ensures UniqueIds(inputs[1..])
  {
    var rest := inputs[1..];
    forall i, j | 0 <= i < j < |rest| ensures DistinctIds(rest, i, j) {
      assert DistinctIds(inputs, i + 1, j + 1);
    }
  }

  lemma HeadIdNotInTail(inputs: seq<UrlInput>)
    requires inputs != [] && UniqueIds(inputs)
    ensures forall x :: x in inputs[1..] ==> x.id != inputs[0].id
  {
    forall x | x in inputs[1..] ensures x.id != inputs[0].id {
      var k :| 0 <= k < |inputs[1..]| && inputs[1..][k] == x;
      assert DistinctIds(inputs, 0, k + 1);
    }
  }

  lemma ConsIdsUnique(x: UrlInput, rest: seq<UrlInput>)
    requires UniqueIds(rest) && forall y :: y in rest ==> y.id != x.id
    ensures UniqueIds([x] + rest)
  {
    var r := [x] + rest;
    forall i, j | 0 <= i < j < |r| ensures DistinctIds(r, i, j) {
      if i > 0 {
        assert DistinctIds(rest, i - 1, j - 1);
      } else {
        assert r[j] in rest;
      }
    }
  }

  lemma {:induction false} KeepAll(inputs: seq<UrlInput>, id: int)
    requires forall x :: x in inputs ==> x.id != id
    ensures WithoutId(inputs, id) == inputs
  {
    if inputs != [] {
      assert inputs[0] in inputs;
      assert forall x :: x in inputs[1..] ==> x in inputs;
      KeepAll(inputs[1..], id);
    }
  }

  /**
   * `urlTypes.find(t => t.value === type)?.icon`, defaulting to the link
   * icon.
   */
  function TypeIcon(types: seq<UrlType>, urlType: string): (icon: string)
    ensures (forall t :: t in types ==> t.value != urlType) ==> icon == DefaultIcon
  {
    if types == [] then DefaultIcon
    else if types[0].value == urlType then types[0].icon
    else TypeIcon(types[1..], urlType)
  }

  /** The icon is that of the first type whose value matches. */
  lemma {:induction false} TypeIconFirstMatch(types: seq<UrlType>, urlType: string, i: nat)
    requires i < |types| && types[i].value == urlType
    requires forall j :: 0 <= j < i ==> types[j].value != urlType
    ensures TypeIcon(types, urlType) == types[i].icon
  {
    if i > 0 {
      var rest := types[1..];
      assert types[0].value != urlType;
      assert forall j :: 0 <= j < i - 1 ==> rest[j] == types[j + 1];
      TypeIconFirstMatch(rest, urlType, i - 1);
    }
  }

  function GetTypeIcon(urlType: string): string {
    TypeIcon(UrlTypes, urlType)
  }

  /** Each listed type shows its own icon; any other type the link icon. */
  lemma TypeIcons(urlType: string)
    ensures forall t :: t in UrlTypes ==> GetTypeIcon(t.value) == t.icon
    ensures (forall t :: t in UrlTypes ==> t.value != urlType) ==> GetTypeIcon(urlType) == DefaultIcon
  {
    forall t | t in UrlTypes ensures GetTypeIcon(t.value) == t.icon {
      var i :| 0 <= i < |UrlTypes| && UrlTypes[i] == t;
      assert forall j :: 0 <= j < i ==> UrlTypes[j].value != t.value;
      TypeIconFirstMatch(UrlTypes, t.value, i);
    }
  }

  /** The maximum number of inputs the add button allows. */
  const MaxInputs: nat := 8

  /** The component's state and the parent's published URL list. */
  class UrlInputState {
    var urlInputs: seq<UrlInput>
    var urls: seq<PublishedUrl>

    /** The list is never empty and its ids are unique. */
    predicate Valid()
      reads this
    {
      urlInputs != [] && UniqueIds(urlInputs)
    }

    /** The three starting inputs; the parent's list starts empty. */
    constructor()
      ensures urlInputs == InitialInputs && urls == []
      ensures Valid()
    {
      urlInputs := InitialInputs;
      urls := [];
    }

    /**
     * `updateUrl`: the matching input's field takes the value and the
     * parent receives the new non-blank list.
     */
    method UpdateUrl(id: int, field: Field, v: string)
      requires Valid()
      modifies this
      ensures Valid()
      ensures urlInputs == UpdateInputs(old(urlInputs), id, field, v)
      ensures urls == Published(urlInputs)
    {
      UpdateKeepsIdsUnique(urlInputs, id, field, v);
      urlInputs := UpdateInputs(urlInputs, id, field, v);
      urls := Published(urlInputs);
    }

    /** `addUrlInput`: appends an empty `other` input with the next id. */
    method AddUrlInput()
      requires Valid()
      modifies this
      ensures Valid()
      ensures urlInputs == old(urlInputs) + [NewInput(old(urlInputs))]
      ensures urls == old(urls)
    {
      AddKeepsIdsUnique(urlInputs);
      urlInputs := urlInputs + [NewInput(urlInputs)];
    }

    /** The add button: disabled once the list holds eight inputs. */
    method ClickAdd()
      requires Valid()
      modifies this
      ensures Valid()
      ensures |old(urlInputs)| < MaxInputs ==> urlInputs == old(urlInputs) + [NewInput(old(urlInputs))]
      ensures |old(urlInputs)| >= MaxInputs ==> urlInputs == old(urlInputs)
      ensures |old(urlInputs)| <= MaxInputs ==> |urlInputs| <= MaxInputs
      ensures urls == old(urls)
    {
      if |urlInputs| < MaxInputs {
        AddUrlInput();
      }
    }

    /**
     * `removeUrlInput`: with more than one input, drops the one with `id`
     * and republishes; the last input cannot be removed.
     */
    method RemoveUrlInput(id: int)
      requires Valid()
      modifies this
      ensures Valid()
      ensures |old(urlInputs)| > 1 ==> urlInputs == WithoutId(old(urlInputs), id) && urls == Published(urlInputs)
      ensures |old(urlInputs)| <= 1 ==> urlInputs == old(urlInputs) && urls == old(urls)
    {
      if |urlInputs| > 1 {
        RemoveAtMostOne(urlInputs, id);
        var updated := WithoutId(urlInputs, id);
        urlInputs := updated;
        urls := Published(updated);
      }
    }
  }
}
